=== FILE: README.md ===
# woo-hoo metadata core in Dafny

woo-hoo produces metadata for Dutch government documents published under the
Wet open overheid (Woo). The metadata follows the DIWOO schema (version 0.9.8).
A large language model (LLM), reached through OpenRouter, reads the document
text and proposes the record. This project models the core of that service in
Dafny and proves properties of the model:

- **enums** (`enums.dfy`): the TOOI code lists. These are the 17 Woo
  information categories, document types, handling types, languages, document
  relations and removal reasons. Each comes with its code, member name, Dutch
  label, article and TOOI URI, and a lookup by code and by member name.
- **DIWOO record** (`diwoo.dfy`): the metadata record and its nested records,
  the validation constraints, and the JSON dump with camelCase aliases and
  absent fields left out.
- **Requests and responses** (`requests.dfy`, `responses.dfy`): the API
  request and response records and their range constraints.
- **XML parser** (`xml_cleaning.dfy`, `xml_parser.dfy`):
  - cleaning an LLM's XML answer (fences removed, the document element located
    by the module's regular expressions);
  - extracting a code from a TOOI URI;
  - turning a parsed `diwoo:DiWoo` element into a record, with every default
    the parser applies.
- **Prompts** (`prompt_templates.dfy`): the system prompt and the extraction
  prompt. The latter is filled by `string.Template` substitution.
- **OpenRouter client** (`openrouter.dfy`):
  - converting the SDK's response;
  - defaulting of model and temperature;
  - the lazily created SDK client and `close`;
  - the request sent through the retry loop.
- **Retry loop** (`retry.dfy`): `with_retry` with its exponential, capped
  delay schedule and the status codes it retries.
- **Instruction loader** (`instruction_loader.dfy`): `{{key}}` placeholder
  substitution, and rendering a TOML configuration as a prompt.
- **Metadata generator** (`metadata_generator.dfy`):
  - the generator object with its lazily created client;
  - the transformation of the LLM's JSON output into a DIWOO record;
  - the confidence scores;
  - the response for every way a generation can end.

Supporting modules:

- `wrappers.dfy`: `Option` and `Result`.
- `text.dfy`: the Python `str` operations used by the core.
- `json.dfy`: a JSON value with Python's dict lookup and truthiness.
- `config.dfy`: the settings and their defaults.

Everything outside the program is a parameter of the operation that needs it:

- the XML tokeniser and the XSD schema;
- ISO 8601 date parsing and the current time;
- whether pydantic's `HttpUrl` accepts a text;
- the JSON decoder and float parsing;
- the provider's replies (one attempt at a time);
- the request id and the elapsed time.

Exceptions become `Result` failures that carry the kind of error. Python's
`x or default` and `dict.get(k, default)` are written out explicitly.

## Model

| member | source | states |
|---|---|---|
| Enums.FindBy | src/woo_hoo/models/enums.py:12-38 | an enum lookup finds a member whose key matches, and fails only when no member has that key |
| Enums.CategoriesComplete | src/woo_hoo/models/enums.py:12-38 | the category table lists all 17 categories, each exactly once |
| Enums.CategoryListed | src/woo_hoo/models/enums.py:56-74 | every category has a position in the label table's order |
| Enums.CategoriesInArticleOrder | src/woo_hoo/models/enums.py:76-94 | the table's categories carry articles 3.3.1a–e, then 3.3.2a–l, in order |
| Enums.CategoryArticleUnder33 | src/woo_hoo/models/enums.py:50-53 | every category's article is in section 3.3 of the Woo |
| Enums.CategoryLabelNonEmpty | src/woo_hoo/models/enums.py:40-43 | every category has a non-empty Dutch label |
| Enums.CategoryLabelsSpelled | src/woo_hoo/models/enums.py:56-74 | labels are the table's Dutch texts, e.g. ADVIEZEN is "Adviezen" |
| Enums.CategoryValueIsCode | src/woo_hoo/models/enums.py:12-38 | every category code has the `c_[a-z0-9_]+` shape |
| Enums.DocumentSoortValueIsCode | src/woo_hoo/models/enums.py:97-120 | every document-type code has the TOOI code shape |
| Enums.SoortHandelingValueIsCode | src/woo_hoo/models/enums.py:158-168 | every handling-type code has the TOOI code shape |
| Enums.TaalValueIsCode | src/woo_hoo/models/enums.py:193-201 | every language code has the TOOI code shape |
| Enums.DocumentRelatieValueIsCode | src/woo_hoo/models/enums.py:224-234 | every relation code has the TOOI code shape |
| Enums.RedenValueIsCode | src/woo_hoo/models/enums.py:247-253 | every removal-reason code has the TOOI code shape |
| Enums.CategoryOfValueInverts | src/woo_hoo/models/enums.py:12-38 | the code decoder maps each category's code back to that category |
| Enums.CategoryValueInjective | src/woo_hoo/models/enums.py:12-38 | no two categories share a code |
| Enums.CategorieFromValueRoundTrip | src/woo_hoo/models/enums.py:12-38 | `InformatieCategorie(s)` gives c exactly when s is c's code |
| Enums.CategoryOfNameInverts | src/woo_hoo/models/enums.py:12-38 | the name decoder maps each category's member name back to it |
| Enums.CategoryNameInjective | src/woo_hoo/models/enums.py:12-38 | no two categories share a member name |
| Enums.CategorieFromNameRoundTrip | src/woo_hoo/models/enums.py:12-38 | `InformatieCategorie[s]` gives c exactly when s is c's member name |
| Enums.DocumentSoortOfValueInverts | src/woo_hoo/models/enums.py:97-120 | each document type's code decodes to it |
| Enums.DocumentSoortValueInjective | src/woo_hoo/models/enums.py:97-120 | document-type codes are distinct |
| Enums.DocumentSoortFromValueRoundTrip | src/woo_hoo/models/enums.py:97-120 | `DocumentSoort(s)` gives d exactly when s is d's code |
| Enums.DocumentSoortOfNameInverts | src/woo_hoo/models/enums.py:97-120 | each document type's member name decodes to it |
| Enums.DocumentSoortNameInjective | src/woo_hoo/models/enums.py:97-120 | document-type member names are distinct |
| Enums.DocumentSoortFromNameRoundTrip | src/woo_hoo/models/enums.py:97-120 | `DocumentSoort[s]` gives d exactly when s is d's member name |
| Enums.SoortHandelingOfValueInverts | src/woo_hoo/models/enums.py:158-168 | each handling type's code decodes to it |
| Enums.SoortHandelingValueInjective | src/woo_hoo/models/enums.py:158-168 | handling-type codes are distinct |
| Enums.SoortHandelingFromValueRoundTrip | src/woo_hoo/models/enums.py:158-168 | `SoortHandeling(s)` gives h exactly when s is h's code |
| Enums.TaalOfValueInverts | src/woo_hoo/models/enums.py:193-201 | each language's code decodes to it |
| Enums.TaalValueInjective | src/woo_hoo/models/enums.py:193-201 | language codes are distinct |
| Enums.TaalFromValueRoundTrip | src/woo_hoo/models/enums.py:193-201 | `Taal(s)` gives t exactly when s is t's code |
| Enums.TaalOfNameInverts | src/woo_hoo/models/enums.py:193-201 | each language's member name decodes to it |
| Enums.TaalNameInjective | src/woo_hoo/models/enums.py:193-201 | language member names are distinct |
| Enums.TaalFromNameRoundTrip | src/woo_hoo/models/enums.py:193-201 | `Taal[s]` gives t exactly when s is t's member name |
| Enums.DocumentRelatieOfValueInverts | src/woo_hoo/models/enums.py:224-234 | each relation's code decodes to it |
| Enums.DocumentRelatieValueInjective | src/woo_hoo/models/enums.py:224-234 | relation codes are distinct |
| Enums.DocumentRelatieFromValueRoundTrip | src/woo_hoo/models/enums.py:224-234 | `DocumentRelatie(s)` gives r exactly when s is r's code |
| Enums.RedenOfValueInverts | src/woo_hoo/models/enums.py:247-253 | each removal reason's code decodes to it |
| Enums.RedenValueInjective | src/woo_hoo/models/enums.py:247-253 | removal-reason codes are distinct |
| Enums.RedenFromValueRoundTrip | src/woo_hoo/models/enums.py:247-253 | `RedenVerwijderingVervanging(s)` gives r exactly when s is r's code |
| Enums.LabelTablesComplete | src/woo_hoo/models/enums.py:133-221 | the document-type, handling and language label tables cover every member, so their fallbacks are never used |
| Enums.DocumentRelatieLabelFromName | src/woo_hoo/models/enums.py:236-239 | a relation's label (lower-cased name, `_` as space) loses nothing: upper-casing it and restoring `_` gives the name back |
| Enums.RedenLabelFromName | src/woo_hoo/models/enums.py:255-258 | the same round trip for a removal reason's label |
| Text.Strip | src/woo_hoo/services/xml_parser.py:56-61 | `str.strip()`: the result is a slice of the text with only whitespace before and after it; it neither starts nor ends with whitespace, and is empty exactly when the text is all whitespace |
| Text.JoinContains | src/woo_hoo/services/prompt_templates.py:14-16 | every part of a `"\n".join` occurs in the joined text |
| Text.SliceTo | src/woo_hoo/services/prompt_templates.py:102 | `s[:n]` is a prefix of s, of length min(n, len(s)) for n ≥ 0 |
| Text.IntToString | src/woo_hoo/utils/retry.py:104 | `str(i)`: digits, with a leading `-` exactly for negative numbers |
| Text.HumanizeRoundTrip | src/woo_hoo/models/enums.py:236-239 | `name.lower().replace("_", " ")` is undone by upper-casing and turning spaces back into `_` |
| Json.Get | src/woo_hoo/services/metadata_generator.py:208 | `dict.get` finds a value exactly when the key is present, and the value is stored under that key |
| Json.Iterate | src/woo_hoo/services/metadata_generator.py:214 | iterating a list gives its items, a string its characters, a dict its keys; anything else cannot be iterated |
| Json.CompactKeys | src/woo_hoo/models/diwoo.py:410-416 | after `exclude_none`, a key is present exactly when some field under it is set |
| Json.CompactGet | src/woo_hoo/models/diwoo.py:410-416 | after `exclude_none`, looking up a field's alias gives that field's value (absent when the field is None) |
| Diwoo.NewTitelCollectie | src/woo_hoo/models/diwoo.py:92-116 | a title collection is accepted exactly when the official title has 1 to 2000 characters, and keeps its fields |
| Diwoo.NewClassificatieCollectie | src/woo_hoo/models/diwoo.py:119-143 | a classification is accepted exactly when it has at least one information category |
| Diwoo.ValidateMetadata | src/woo_hoo/models/diwoo.py:292-408 | a record is accepted exactly when its titles and classification are valid and it has at least one handling; an invalid title is reported first |
| Diwoo.NewExtraMetadataVeld | src/woo_hoo/models/diwoo.py:268-274 | an extra-metadata field is accepted exactly when it has at least one value |
| Diwoo.NewExtraMetadata | src/woo_hoo/models/diwoo.py:277-289 | an extra-metadata block is accepted exactly when its namespace, if given, is a URL `HttpUrl` accepts and it has at least one field; a bad namespace is reported first |
| Diwoo.CategorieMetaResourceIdentifies | src/woo_hoo/models/diwoo.py:45-67 | two category entries have the same TOOI URI exactly when they are the same category |
| Diwoo.DocumentSoortMetaResourceIdentifies | src/woo_hoo/models/diwoo.py:70-83 | document-type entries are identified by their URI |
| Diwoo.SoortHandelingMetaResourceIdentifies | src/woo_hoo/models/diwoo.py:146-159 | handling-type entries are identified by their URI |
| Diwoo.TaalMetaResourceIdentifies | src/woo_hoo/models/diwoo.py:196-209 | language entries are identified by their URI |
| Diwoo.DocumentRelatieMetaResourceIdentifies | src/woo_hoo/models/diwoo.py:227-240 | relation entries are identified by their URI |
| Diwoo.RedenMetaResourceIdentifies | src/woo_hoo/models/diwoo.py:252-265 | removal-reason entries are identified by their URI |
| Diwoo.DiWooMetadata.Fields | src/woo_hoo/models/diwoo.py:292-408 | the record's 19 fields in declaration order, each under its camelCase alias |
| Diwoo.AliasesDistinct | src/woo_hoo/models/diwoo.py:292-408 | no two fields share an alias |
| Diwoo.ToDictGet | src/woo_hoo/models/diwoo.py:410-416 | in `to_dict()`, each alias maps to its field's JSON value |
| Diwoo.ToDictHasKey | src/woo_hoo/models/diwoo.py:410-416 | an alias is a key of `to_dict()` exactly when its field is set |
| Diwoo.ToDictOrganisationKeys | src/woo_hoo/models/diwoo.py:309-336 | `publisher` is always dumped; identifiers, verantwoordelijke, medeverantwoordelijken, opsteller and naamOpsteller exactly when set |
| Diwoo.ToDictContentKeys | src/woo_hoo/models/diwoo.py:338-373 | titelcollectie and classificatiecollectie are always dumped; the five optional content fields exactly when set |
| Diwoo.ToDictRelationKeys | src/woo_hoo/models/diwoo.py:374-408 | documenthandelingen is always dumped; the five optional relation fields exactly when set |
| Diwoo.ToDictKeysAreAliases | src/woo_hoo/models/diwoo.py:410-416 | `to_dict()` has no key other than the aliases |
| Diwoo.ToDictNoNulls | src/woo_hoo/models/diwoo.py:410-416 | `exclude_none` leaves no null anywhere in the dump, nested records included |
| Diwoo.ToDictRequired | src/woo_hoo/models/diwoo.py:410-416 | the dump holds the titles, the classification and the handlings under their aliases |
| Diwoo.ToDictRevalidates | src/woo_hoo/models/diwoo.py:292-416 | a record is valid exactly when its dump satisfies the schema's constraints again |
| Requests.NewPublisherHint | src/woo_hoo/models/requests.py:8-19 | a publisher hint is accepted exactly when its name is non-empty and its TOOI URI, if given, is a URL `HttpUrl` accepts; an empty name is reported first |
| Requests.NewDocumentContent | src/woo_hoo/models/requests.py:22-38 | document content is accepted exactly when its text has 10 to 100000 characters and its source URL, if given, is a URL `HttpUrl` accepts; a bad text is reported first |
| Requests.NewRequest | src/woo_hoo/models/requests.py:41-59 | a request built from a document has no hint and no preferred model, asks for confidence, and is valid when the document is |
| Responses.NewFieldConfidence | src/woo_hoo/models/responses.py:10-15 | a field score is accepted exactly when it lies in [0, 1] |
| Responses.NewConfidenceScores | src/woo_hoo/models/responses.py:18-22 | scores are accepted exactly when the overall score lies in [0, 1] |
| Responses.ScoresWithoutFields | src/woo_hoo/models/responses.py:18-22 | scores built from an overall value alone have no field scores and follow the same range rule |
| Responses.CategoryInfoOf | src/woo_hoo/models/responses.py:60-66 | a category's info gives back the category by its code, with its label, article and TOOI URI |
| Responses.CategoryListing | src/woo_hoo/models/responses.py:69-72 | the listing has all 17 categories, in table order |
| XmlCleaning.ExtractCategoryCode | src/woo_hoo/services/xml_parser.py:103-109 | a code is found exactly when `c_[a-z0-9_]+` matches at the end of the URI; it is the leftmost such match |
| XmlCleaning.ExtractFromTooiUri | src/woo_hoo/services/xml_parser.py:103-109 | extracting from the TOOI prefix followed by a code gives that code back |
| XmlCleaning.CategoryFromTooiUri | src/woo_hoo/services/xml_parser.py:103-109 | a category's TOOI URI yields its code, which decodes to the category |
| XmlCleaning.DocumentSoortFromTooiUri | src/woo_hoo/services/xml_parser.py:103-109 | the same for document types |
| XmlCleaning.SoortHandelingFromTooiUri | src/woo_hoo/services/xml_parser.py:103-109 | the same for handling types |
| XmlCleaning.TaalFromTooiUri | src/woo_hoo/services/xml_parser.py:103-109 | the same for languages |
| XmlCleaning.DocumentRelatieFromTooiUri | src/woo_hoo/services/xml_parser.py:103-109 | the same for relations |
| XmlCleaning.RemoveFence | src/woo_hoo/services/xml_parser.py:143-145 | removing a fence never lengthens the text, and leaves text without a fence unchanged |
| XmlCleaning.DocSearch | src/woo_hoo/services/xml_parser.py:147-152 | the search returns a start where a `<diwoo:Document` … `</diwoo:Document>` body begins, with a well-formed declaration if one was captured; it fails only when no position matches |
| XmlCleaning.BareSearch | src/woo_hoo/services/xml_parser.py:154-157 | the second search finds a document body, and fails only when there is none |
| XmlCleaning.Body | src/woo_hoo/services/xml_parser.py:147-157 | a matched body starts with the open tag and ends with the close tag |
| XmlCleaning.BareSearchUnreachable | src/woo_hoo/services/xml_parser.py:147-157 | whenever the second pattern would match, the first already does |
| XmlCleaning.CleanXmlResponseFound | src/woo_hoo/services/xml_parser.py:132-152 | when the cleaned text holds a document, the result is a declaration, a newline and the document |
| XmlCleaning.CleanXmlResponseNotFound | src/woo_hoo/services/xml_parser.py:132-159 | without a document the result is the fence-free text, stripped |
| XmlParser.FindIn | src/woo_hoo/services/xml_parser.py:71-73 | `find` returns the first child with the tag, or nothing when no child has it |
| XmlParser.Find | src/woo_hoo/services/xml_parser.py:71-73 | `find` in the DIWOO namespace returns a child with the expanded tag, or nothing when none has it |
| XmlParser.FindAll | src/woo_hoo/services/xml_parser.py:76-78 | `findall` returns exactly the children with the expanded tag |
| XmlParser.GetText | src/woo_hoo/services/xml_parser.py:56-61 | text is absent for a missing element or empty text, and is otherwise the stripped text |
| XmlParser.GetAttr | src/woo_hoo/services/xml_parser.py:64-68 | an attribute is found exactly when the element exists and carries it |
| XmlParser.Texts | src/woo_hoo/services/xml_parser.py:293-294 | the non-empty texts of the elements, and only those |
| XmlParser.ParseDate | src/woo_hoo/services/xml_parser.py:81-89 | no date for absent or empty text; otherwise the first 10 characters are parsed |
| XmlParser.ParseDateTime | src/woo_hoo/services/xml_parser.py:92-100 | no time for absent or empty text; otherwise it is parsed with `Z` read as `+00:00` |
| XmlParser.ParseOrganisation | src/woo_hoo/services/xml_parser.py:266-283 | fails exactly when a non-empty `resource` is refused by `HttpUrl`; otherwise an organisation with a URI and a label, the placeholder URI standing in when the element or its resource is missing and "Onbekende organisatie" when its text is |
| XmlParser.ParseTitelcollectie | src/woo_hoo/services/xml_parser.py:286-300 | the titles are always valid: the official title (or "Onbekende titel") cut to 2000 characters; the short and alternative titles are the non-empty texts of their elements, absent rather than empty |
| XmlParser.ParseGeldigheid | src/woo_hoo/services/xml_parser.py:355-365 | a validity period exists exactly when a begin or end date parses |
| XmlParser.ParseLanguage | src/woo_hoo/services/xml_parser.py:368-382 | a URI ending in a known language code gives that language; otherwise the language is Dutch |
| XmlParser.CollectMembers | src/woo_hoo/services/xml_parser.py:313-322 | the collected entries are exactly those of the elements that yield one |
| XmlParser.CollectTotal | src/woo_hoo/services/xml_parser.py:392-418 | when every element yields an entry, the list keeps the elements' order one for one |
| XmlParser.CollectCategories | src/woo_hoo/services/xml_parser.py:313-322 | the loop collects the known categories of the elements, in order |
| XmlParser.CollectSoorten | src/woo_hoo/services/xml_parser.py:330-341 | the loop collects the known document types of the elements, in order |
| XmlParser.ParseClassificatiecollectie | src/woo_hoo/services/xml_parser.py:303-352 | the classification read from the element, always valid |
| XmlParser.ClassificatieCategories | src/woo_hoo/services/xml_parser.py:303-327 | a category is listed exactly when an element names it, or none is named and it is OVERIGE_BESLUITEN_AS |
| XmlParser.CategoryEntryOfTooiUri | src/woo_hoo/services/xml_parser.py:314-322 | an element whose resource is a category's TOOI URI yields that category |
| XmlParser.ReadHandeling | src/woo_hoo/services/xml_parser.py:393-418 | one handling element read: type (REGISTRATIE unless known), time (now unless parsed), organisation, or the organisation's validation error |
| XmlParser.ParseDocumenthandelingen | src/woo_hoo/services/xml_parser.py:385-428 | succeeds exactly when no element's organisation URI is refused; then there is always at least one handling: one per element, or a registration by the publisher now |
| XmlParser.HandelingenAssociated | src/woo_hoo/services/xml_parser.py:385-428 | a handling is read exactly when its organisation's URI is not refused; every handling names an organisation, and the default one names the publisher |
| XmlParser.ParseDocumentrelaties | src/woo_hoo/services/xml_parser.py:431-463 | the relations with both a role and a relation, and nothing rather than an empty list |
| XmlParser.RelatieEntryKept | src/woo_hoo/services/xml_parser.py:437-461 | a relation element is kept exactly when it has both parts, and its label is never empty |
| XmlParser.ReadDiWoo | src/woo_hoo/services/xml_parser.py:196-263 | succeeds exactly when no organisation URI (publisher, responsible, author, handlings) is refused; then every field comes from its reader (identifiers and descriptions as their non-empty texts, each handling from its element), the fields the parser ignores are absent, and the record is valid |
| XmlParser.ParseXmlToDiwoo | src/woo_hoo/services/xml_parser.py:162-263 | parsing succeeds exactly when the cleaned XML tokenises, passes the XSD when asked, holds `diwoo:DiWoo`, and no organisation URI in it is refused; each of these failing gives its own error, in that order, and a record returned is the one read from the `diwoo:DiWoo` element |
| PromptTemplates.CategoryLines | src/woo_hoo/services/prompt_templates.py:14-16 | one system-prompt line per category, in table order |
| PromptTemplates.OptionLines | src/woo_hoo/services/prompt_templates.py:112 | one option line per category, in table order |
| PromptTemplates.Substitute | src/woo_hoo/services/prompt_templates.py:114-118 | `Template.substitute` succeeds exactly when every placeholder has a value |
| PromptTemplates.SubstituteThreeValues | src/woo_hoo/services/prompt_templates.py:114-118 | filling three distinct placeholders puts each value in its place and keeps the literal text |
| PromptTemplates.TruncateText | src/woo_hoo/services/prompt_templates.py:101-104 | long text is cut to the maximum and marked; text within the limit is kept whole |
| PromptTemplates.PublisherSection | src/woo_hoo/services/prompt_templates.py:107-109 | the publisher line appears only for a non-empty hint |
| PromptTemplates.PromptLayout | src/woo_hoo/services/prompt_templates.py:42-118 | the extraction prompt is the template text with the text, the publisher line and the options in place |
| PromptTemplates.PromptEmbedsText | src/woo_hoo/services/prompt_templates.py:86-118 | the (truncated) document text sits right after the template's opening, unchanged when within the limit |
| PromptTemplates.SystemPromptListsCategory | src/woo_hoo/services/prompt_templates.py:14-40 | the system prompt lists every category with its label and article |
| PromptTemplates.PromptListsOption | src/woo_hoo/services/prompt_templates.py:86-118 | the extraction prompt offers every category as an option |
| Retry.Delay | src/woo_hoo/utils/retry.py:68-71 | the wait before the next attempt is the smaller of base × exponent^(attempt−1) and the maximum |
| Retry.WithRetry | src/woo_hoo/utils/retry.py:33-104 | the loop's outcome, number of calls and waits are those of the retry specification |
| Retry.RunFromShape | src/woo_hoo/utils/retry.py:55-104 | from any attempt on: each wait follows the schedule; every earlier call failed retryably; the run ends in a return, a re-raised non-retryable error, or exhaustion at the last attempt |
| Retry.RetryShape | src/woo_hoo/utils/retry.py:33-104 | the same from the first attempt; with no attempts allowed the run is exhausted without a call |
| Retry.RetryStopsAt | src/woo_hoo/utils/retry.py:55-66 | the run stops at the first attempt that returns or fails without retry, with one wait per earlier attempt |
| Retry.DelaysNonDecreasing | src/woo_hoo/utils/retry.py:68-71 | waits never shrink from one attempt to the next, and never exceed the cap |
| Retry.DefaultSchedule | src/woo_hoo/utils/retry.py:16-24 | with the defaults the waits are 1 s, 2 s, … and reach the 30 s cap by the sixth attempt |
| OpenRouter.ConvertMessage | src/woo_hoo/services/openrouter.py:110-117 | a missing message becomes an empty assistant message; otherwise the role constant, else the role, else "assistant", and the content or "" |
| OpenRouter.ConvertChoice | src/woo_hoo/services/openrouter.py:108-123 | a choice keeps its index and finish reason, with its message converted |
| OpenRouter.ConvertedResponse | src/woo_hoo/services/openrouter.py:105-139 | the response keeps id, model and usage, with one converted choice per SDK choice, in order |
| OpenRouter.ConvertResponse | src/woo_hoo/services/openrouter.py:105-139 | the conversion loop computes that response |
| OpenRouter.ResolveModel | src/woo_hoo/services/openrouter.py:165 | an empty or missing model falls back to the default model |
| OpenRouter.ResolveTemperature | src/woo_hoo/services/openrouter.py:166 | only a missing temperature falls back to the configured one (0.0 is kept) |
| OpenRouter.SdkMessages | src/woo_hoo/services/openrouter.py:169 | one role/content pair per message, in order |
| OpenRouter.ClientRetryConfig | src/woo_hoo/services/openrouter.py:90-94 | the client retries up to the configured maximum, waiting 1 s doubling to at most 30 s |
| OpenRouter.ConvertOutcome | src/woo_hoo/services/openrouter.py:191-193 | a returned SDK response is converted; an error is passed on unchanged |
| OpenRouter.OpenRouterClient.constructor | src/woo_hoo/services/openrouter.py:82-94 | a new client has no SDK client yet and the client's retry configuration |
| OpenRouter.OpenRouterClient.GetClient | src/woo_hoo/services/openrouter.py:96-103 | the SDK client is created once, with the timeout in milliseconds, and reused afterwards |
| OpenRouter.OpenRouterClient.Close | src/woo_hoo/services/openrouter.py:214-218 | closing drops the SDK client |
| OpenRouter.OpenRouterClient.ChatCompletion | src/woo_hoo/services/openrouter.py:141-193 | the request sent has the resolved model and temperature; the outcome is the retry run's, converted; the SDK client exists once a call was made |
| InstructionLoader.Placeholder | src/woo_hoo/services/instruction_loader.py:221 | a placeholder is the key between `{{` and `}}` |
| InstructionLoader.FormatInstructionWithContext | src/woo_hoo/services/instruction_loader.py:203-223 | without a context the instruction is returned unchanged; otherwise each key's placeholder is replaced in turn |
| InstructionLoader.EmptyContextIsIdentity | src/woo_hoo/services/instruction_loader.py:219-223 | an empty context changes nothing |
| InstructionLoader.SubstituteAllSplits | src/woo_hoo/services/instruction_loader.py:220-221 | substituting a context is substituting its first part, then its second |
| InstructionLoader.LaterSeesEarlier | src/woo_hoo/services/instruction_loader.py:220-221 | a later key's replacement also applies inside an earlier key's value |
| InstructionLoader.ReplaceAllAbsent | src/woo_hoo/services/instruction_loader.py:221 | `replace` of a pattern that does not occur changes nothing |
| InstructionLoader.AbsentPlaceholdersKeepText | src/woo_hoo/services/instruction_loader.py:219-223 | text without any of the context's placeholders is returned unchanged |
| InstructionLoader.LookupMissing | src/woo_hoo/services/instruction_loader.py:125 | `get` of a missing key gives the default |
| InstructionLoader.LookupFindsFirst | src/woo_hoo/services/instruction_loader.py:125 | `get` of a present key gives the value stored under it |
| InstructionLoader.Render | src/woo_hoo/services/instruction_loader.py:126-135 | text is rendered as itself and integers in decimal |
| InstructionLoader.TableAt | src/woo_hoo/services/instruction_loader.py:125-130 | a missing table is empty; a present value must be a table |
| InstructionLoader.HeadLines | src/woo_hoo/services/instruction_loader.py:124-135 | the six opening lines: title with name and version, description, the output-rules heading and its three rules |
| InstructionLoader.HeadLineDefaults | src/woo_hoo/services/instruction_loader.py:126-135 | without settings the title is "DIWOO Schema (v0.9.8)", the date format YYYY-MM-DD, at least 1 category |
| InstructionLoader.Section.Line | src/woo_hoo/services/instruction_loader.py:137-179 | an extraction entry is always rendered; other sections need a table per entry, rendered as a category row or a resource line |
| InstructionLoader.EntryLines | src/woo_hoo/services/instruction_loader.py:140-176 | one line per entry, in order |
| InstructionLoader.EntryLinesSucceed | src/woo_hoo/services/instruction_loader.py:140-176 | a section renders exactly when each of its entries does |
| InstructionLoader.TemplateLines | src/woo_hoo/services/instruction_loader.py:181-186 | the XML example appears, fenced and stripped, only for a truthy template holding text under "xml" |
| InstructionLoader.AppendEntries | src/woo_hoo/services/instruction_loader.py:140-142 | the loop appends each entry's line, or stops with the first failure |
| InstructionLoader.AppendSection | src/woo_hoo/services/instruction_loader.py:137-179 | a section appends its heading, its entry lines and a blank line, or nothing when falsy |
| InstructionLoader.EntryLinesFailureSticks | src/woo_hoo/services/instruction_loader.py:140-176 | once an entry fails, the section fails with that error |
| InstructionLoader.SectionsFailureSticks | src/woo_hoo/services/instruction_loader.py:137-179 | once a section fails, the prompt fails with that error |
| InstructionLoader.SectionsGrow | src/woo_hoo/services/instruction_loader.py:137-179 | the sections' lines only grow, section by section |
| InstructionLoader.FormatTomlConfigToPrompt | src/woo_hoo/services/instruction_loader.py:113-188 | the prompt is the prompt lines joined by newlines, or the first error met |
| InstructionLoader.EmptyConfigPrompt | src/woo_hoo/services/instruction_loader.py:113-188 | an empty configuration gives only the six opening lines |
| InstructionLoader.PromptFrame | src/woo_hoo/services/instruction_loader.py:113-188 | a rendered prompt starts with the opening lines and ends with the template lines |
| InstructionLoader.SectionHasEntryLine | src/woo_hoo/services/instruction_loader.py:137-179 | each entry of a rendered section has its line in the section |
| InstructionLoader.PromptListsEntries | src/woo_hoo/services/instruction_loader.py:137-179 | each entry of a truthy section has its line in the prompt |
| InstructionLoader.PromptRejectsBadEntry | src/woo_hoo/services/instruction_loader.py:145-179 | an entry of a table section that is not a table makes the whole rendering fail |
| Generator.CollectAllSucceeds | src/woo_hoo/services/metadata_generator.py:213-237 | a loop over entries succeeds exactly when no entry raises |
| Generator.CollectAllMembers | src/woo_hoo/services/metadata_generator.py:213-237 | the loop's list holds exactly the values the entries yield |
| Generator.CollectAllFailureSticks | src/woo_hoo/services/metadata_generator.py:213-237 | the first entry that raises decides the error |
| Generator.Accumulate | src/woo_hoo/services/metadata_generator.py:213-221 | the loop computes the collected list, or the first error |
| Generator.PublisherOf | src/woo_hoo/services/metadata_generator.py:193-204 | the hint's name and URI (placeholder URI without one), or the unknown organisation without a hint |
| Generator.StringListField | src/woo_hoo/services/metadata_generator.py:209 | a list field is accepted when absent, null or a list of strings, and fails validation otherwise |
| Generator.TitleOf | src/woo_hoo/services/metadata_generator.py:207-211 | accepted exactly when the output's `officiele_titel` (default "Onbekende titel") is non-empty text and `verkorte_titels` is a valid list field; the title is cut to 2000 characters and the short titles are kept; a value that cannot be sliced raises, and otherwise the title is reported before the short titles |
| Generator.CategoryStep | src/woo_hoo/services/metadata_generator.py:214-220 | an entry needs a text `categorie`; a known name, once upper-cased with spaces as `_`, gives a category, an unknown one is skipped |
| Generator.SoortStep | src/woo_hoo/services/metadata_generator.py:231-236 | an entry must be text; a known normalised name gives a document type, an unknown one is skipped |
| Generator.CategoriesOf | src/woo_hoo/services/metadata_generator.py:213-224 | there is always at least one category |
| Generator.CategoriesOfMembers | src/woo_hoo/services/metadata_generator.py:213-224 | a category is listed exactly when an entry names it, or no entry names any and it is OVERIGE_BESLUITEN_AS |
| Generator.SoortenOf | src/woo_hoo/services/metadata_generator.py:227-241 | document types are absent when the field is missing or falsy, and never an empty list |
| Generator.SoortenOfMembers | src/woo_hoo/services/metadata_generator.py:227-241 | a document type is listed exactly when an entry names it |
| Generator.CreatiedatumOf | src/woo_hoo/services/metadata_generator.py:255-261 | a truthy date must be text and is then parsed (nothing when it does not parse) |
| Generator.TaalOf | src/woo_hoo/services/metadata_generator.py:264-269 | the language named by the upper-cased `taal` (default "NL"); an unknown name gives Dutch |
| Generator.Transformed | src/woo_hoo/services/metadata_generator.py:179-279 | output that is not an object raises; an object is accepted exactly when every step (title, categories, document types, keywords, creation date, language, descriptions) succeeds, and otherwise fails with the error of the first step to fail, in that order; an accepted record is always valid |
| Generator.TransformToDiwoo | src/woo_hoo/services/metadata_generator.py:179-279 | the method computes that transformation, with its loops over categories and document types |
| Generator.TransformedRecord | src/woo_hoo/services/metadata_generator.py:179-279 | an accepted record has the hint's publisher, one registration by it now, the parsed titles, classification, date and language, and none of the other fields |
| Generator.FloatOf | src/woo_hoo/services/metadata_generator.py:304 | `float()` of a number, a boolean or a numeric string |
| Generator.ScoreStep | src/woo_hoo/services/metadata_generator.py:294-296 | "overall" and non-numbers are skipped; any other number becomes a field score under its key, and fails exactly when it lies outside [0, 1] |
| Generator.ReasoningFieldName | src/woo_hoo/services/metadata_generator.py:303 | the field is `informatiecategorie_` followed by the category, or "unknown" |
| Generator.ReasoningStep | src/woo_hoo/services/metadata_generator.py:299-307 | only entries with a reasoning give a score; one does exactly when its confidence (0.7 by default) reads as a float in [0, 1] and its reasoning is text or null, named after the category and carrying the reasoning text; the confidence is reported before the reasoning |
| Generator.CollectedValid | src/woo_hoo/services/metadata_generator.py:293-307 | collecting valid scores gives only valid scores |
| Generator.ExtractedConfidence | src/woo_hoo/services/metadata_generator.py:281-309 | succeeds exactly when `confidence_scores` is an object, both score loops succeed and `overall` (0.7 by default) reads as a float in [0, 1]; then the overall score, the field scores and the reasoning scores, in order, all in [0, 1] |
| Generator.ExtractConfidence | src/woo_hoo/services/metadata_generator.py:281-309 | the method's loops compute those scores |
| Generator.ErrorMessagePrefixes | src/woo_hoo/services/metadata_generator.py:155-168 | JSON and validation errors are told apart by their message prefix, followed by the detail |
| Generator.ResponseFor | src/woo_hoo/services/metadata_generator.py:149-177 | success carries the suggestion and no error; failure carries the error message and no suggestion; the request id is kept |
| Generator.ModelFor | src/woo_hoo/services/metadata_generator.py:111 | the preferred model when given and non-empty, else the default |
| Generator.DefaultScores | src/woo_hoo/services/metadata_generator.py:127-131 | without confidence the scores are 0.7 overall and no fields |
| Generator.ScoresFor | src/woo_hoo/services/metadata_generator.py:127-131 | with confidence asked for, the scores are those extracted from the output; otherwise the defaults; always valid |
| Generator.GenerationOutcome | src/woo_hoo/services/metadata_generator.py:94-177 | a suggestion is valid and names the model used and the elapsed time |
| Generator.ReplyOutcome | src/woo_hoo/services/metadata_generator.py:120-153 | the same, once the provider's outcome is known |
| Generator.Respond | src/woo_hoo/services/metadata_generator.py:120-177 | the response built from the provider's outcome |
| Generator.InvalidJsonResponse | src/woo_hoo/services/metadata_generator.py:155-161 | a reply that does not decode gives a failure whose message starts "LLM returned invalid JSON: " |
| Generator.EmptyTitleResponse | src/woo_hoo/services/metadata_generator.py:206-210 | a reply that decodes to an object with an empty `officiele_titel` gives a failure whose message is the validation prefix followed by "officieleTitel" |
| Generator.ParsedResponse | src/woo_hoo/services/metadata_generator.py:120-153 | a decoded reply succeeds exactly when the transformation and the scores do, and the suggestion holds the transformed record |
| Generator.ProviderFailureResponse | src/woo_hoo/services/metadata_generator.py:171-177 | a provider failure becomes a failure carrying its message |
| Generator.MetadataGenerator.constructor | src/woo_hoo/services/metadata_generator.py:51-64 | the given client is kept (owned only when none is given) and settings default |
| Generator.MetadataGenerator.GetClient | src/woo_hoo/services/metadata_generator.py:66-70 | the client is created once, from the settings, and reused |
| Generator.MetadataGenerator.Close | src/woo_hoo/services/metadata_generator.py:311-314 | an owned client is closed; a borrowed one is left alone |
| Generator.MetadataGenerator.Generate | src/woo_hoo/services/metadata_generator.py:72-177 | the request sent (model, both prompts, temperature, JSON format), the response for how the generation ended, and the client's SDK handle afterwards: created on the first call and then kept, untouched when no call was made |
| Generator.MetadataGenerator.Complete | src/woo_hoo/services/metadata_generator.py:111-177 | the provider call, the response built from its outcome, and the client's SDK handle afterwards: present once a call was made and the same as before when there was one, unchanged when no call was made |

## Left out

- Logging is not modelled, and neither is the async/await structure. The
  calls run one after another.
- The request id (`uuid4`), the clock and the sleeps of the retry loop are
  parameters: a request id, an elapsed time, the current time, and the list of
  waits the loop would make.
- Several parts of the system are oracles, given as function parameters:
  - lxml parsing and XSD validation;
  - `json.loads`;
  - ISO 8601 date and date-time parsing;
  - float parsing;
  - whether pydantic's `HttpUrl` accepts a text as a URL;
  - the OpenRouter SDK transport.
- Exception messages are kept only as far as callers can see them. The JSON
  and validation prefixes of the generator are modelled, and so is the
  retry's "All n attempts failed". Pydantic's validation text is reduced to the
  location of the first failure, in the fields' declaration order. A location
  is the field's alias where it has one (`officieleTitel`, `verkorteTitels`),
  and its name otherwise.
- Pydantic's lax coercion is modelled for float fields only. Numbers and
  booleans are taken as they are, and text goes through the float parser. The
  other coercions are not modelled.
- `HttpUrl` fields are checked with the URL oracle, but the text is stored as
  given. Pydantic's normalisation (a trailing `/` after a bare host, a
  lower-cased host) is not modelled.
- Floating-point values are unbounded reals. NaN and infinities are not
  modelled.
- JSON and TOML objects are lists of entries. Duplicate keys are not
  modelled: a lookup finds the first entry under a key, whereas Python's
  parsers keep the last.
- `str.upper` and `str.lower` are exact on ASCII letters, plus the few
  non-ASCII letters whose upper case is ASCII. That is all that an enum lookup
  by member name can match.
- `to_json` (JSON text with indentation) is not modelled. Its content is the
  `to_dict` dump, which is.
- Python's `repr` of TOML values is simplified. Text is written between
  single quotes without escaping. Floats, dates and times are written as
  their given text.
- Reading instruction, TOML and XSD files is not modelled: `load_instruction`,
  `load_toml_config`, `list_instructions`, `get_xsd_schema_content` and
  `load_xsd_schema`. The formatter takes the parsed configuration.
- `check_connectivity` and the async context-manager methods of the OpenRouter
  client are not modelled.
- The API key and the SDK client's other arguments are not modelled.
  `openrouter.py:100` reads a setting named `openrouter_api_key`, but
  `config.py:25` declares it as `llm_api_key`. The model's SDK client records
  only its timeout.
- Generator.ExtractConfidence: requires that the output's category entries are
  objects. The transformation has already rejected output that breaks this by
  the time confidence is extracted, so the requirement holds on every path
  `generate` takes.
- Enums: the labels of DocumentSoort, SoortHandeling and Taal are written as
  tables with the source's fallbacks, and every member is in its table.

=== FILE: config.dfy ===
/**
 * The application settings the core reads, with their default values. Loading
 * them from the environment is not part of this model.
 */
module Config {
  /** Settings consulted by the prompt builder, the provider client and the generator. */
  datatype Settings = Settings(
    llmApiKey: string,
    defaultModel: string,
    appName: string,
    appUrl: string,
    maxTextLength: int,
    llmTimeoutSeconds: int,
    llmMaxRetries: int,
    llmTemperature: real)

  const DefaultSettings: Settings := Settings(
    "",
    "mistralai/mistral-large-2512",
    "woo-hoo",
    "http://localhost:8000",
    15000,
    60,
    3,
    0.1)
}

=== FILE: diwoo.dfy ===
/**
 * The DIWOO metadata record (XSD version 0.9.8) as value types: the nested
 * records, the validity constraints the schema puts on them, the enumeration
 * wrappers whose TOOI URI and label are derived from the member, and the JSON
 * dump with camelCase aliases that leaves absent fields out.
 */
module Diwoo {
  import opened Wrappers
  import opened Enums
  import opened Json

  /** A point in time, kept as the ISO 8601 text it is written as. */
  datatype DateTime = DateTime(iso: string)

  /** A calendar day, kept as its ISO 8601 text (YYYY-MM-DD). */
  datatype Date = Date(iso: string)

  /**
   * Whether pydantic's `HttpUrl` type accepts a text: an absolute http or https
   * URL with a host, at most 2083 characters long. The URL grammar itself is
   * supplied from outside.
   */
  type UrlCheck = string -> bool

  /**
   * What building a record needs from outside: ISO 8601 date and date-time
   * parsing (nothing for text that does not parse), the `HttpUrl` check and
   * the current time.
   */
  datatype Env = Env(
    parseDate: string -> Option<Date>,
    parseDateTime: string -> Option<DateTime>,
    isUrl: UrlCheck,
    now: DateTime)

  /** An organisation identified by a TOOI URI from one of the organisation lists. */
  datatype Organisatie = Organisatie(resource: string, labelText: string) {
    function ToJson(): Json { ResourceJson(resource, labelText) }
  }

  /** One of the 17 Woo information categories; its URI and label follow from the member. */
  datatype InformatieCategorieMeta = InformatieCategorieMeta(categorie: InformatieCategorie) {
    function Resource(): string { categorie.TooiUri() }
    function Label(): string { categorie.Label() }
    function ToJson(): (j: Json)
      ensures NoNulls(j)
    { JObject([("categorie", JString(categorie.Value()))]) }
  }

  datatype DocumentSoortMeta = DocumentSoortMeta(soort: DocumentSoort) {
    function Resource(): string { soort.TooiUri() }
    function Label(): string { soort.Label() }
    function ToJson(): (j: Json)
      ensures NoNulls(j)
    { JObject([("soort", JString(soort.Value()))]) }
  }

  datatype ThemaMeta = ThemaMeta(resource: string, labelText: string) {
    function ToJson(): Json { ResourceJson(resource, labelText) }
  }

  datatype TitelCollectie = TitelCollectie(
    officieleTitel: string,
    verkorteTitels: Option<seq<string>>,
    alternatieveTitels: Option<seq<string>>)
  {
    /** The official title has between 1 and 2000 characters. */
    predicate Valid() { 1 <= |officieleTitel| <= 2000 }

    function ToJson(): (j: Json)
      ensures NoNulls(j)
    {
      JObject(Compact([
        ("officieleTitel", Some(JString(officieleTitel))),
        ("verkorteTitels", MapOpt(verkorteTitels, StringsJson)),
        ("alternatieveTitels", MapOpt(alternatieveTitels, StringsJson))]))
    }
  }

  datatype ClassificatieCollectie = ClassificatieCollectie(
    informatiecategorieen: seq<InformatieCategorieMeta>,
    documentsoorten: Option<seq<DocumentSoortMeta>>,
    themas: Option<seq<ThemaMeta>>,
    trefwoorden: Option<seq<string>>)
  {
    /** At least one information category. */
    predicate Valid() { |informatiecategorieen| >= 1 }

    function ToJson(): (j: Json)
      ensures NoNulls(j)
    {
      JObject(Compact([
        ("informatiecategorieen", Some(ListJson(informatiecategorieen, CategorieMetaJson))),
        ("documentsoorten", MapOpt(documentsoorten, SoortMetasJson)),
        ("themas", MapOpt(themas, ThemasJson)),
        ("trefwoorden", MapOpt(trefwoorden, StringsJson))]))
    }
  }

  datatype SoortHandelingMeta = SoortHandelingMeta(handeling: SoortHandeling) {
    function Resource(): string { handeling.TooiUri() }
    function Label(): string { handeling.Label() }
    function ToJson(): (j: Json)
      ensures NoNulls(j)
    { JObject([("handeling", JString(handeling.Value()))]) }
  }

  /** When, and by which organisation, an action on the document took place. */
  datatype DocumentHandeling = DocumentHandeling(
    soortHandeling: SoortHandelingMeta,
    atTime: DateTime,
    wasAssociatedWith: Option<Organisatie>)
  {
    function ToJson(): (j: Json)
      ensures NoNulls(j)
    {
      JObject(Compact([
        ("soortHandeling", Some(soortHandeling.ToJson())),
        ("atTime", Some(JString(atTime.iso))),
        ("wasAssociatedWith", MapOpt(wasAssociatedWith, OrganisatieJson))]))
    }
  }

  datatype Geldigheid = Geldigheid(begindatum: Option<DateTime>, einddatum: Option<DateTime>) {
    function ToJson(): (j: Json)
      ensures NoNulls(j)
    {
      JObject(Compact([
        ("begindatum", MapOpt(begindatum, DateTimeJson)),
        ("einddatum", MapOpt(einddatum, DateTimeJson))]))
    }
  }

  datatype TaalMeta = TaalMeta(taal: Taal) {
    function Resource(): string { taal.TooiUri() }
    function Label(): string { taal.Label() }
    function ToJson(): (j: Json)
      ensures NoNulls(j)
    { JObject([("taal", JString(taal.Value()))]) }
  }

  /** A language entry built without arguments is Dutch. */
  const DefaultTaalMeta: TaalMeta := TaalMeta(NL)

  datatype FormatMeta = FormatMeta(resource: string, labelText: string) {
    function ToJson(): Json { ResourceJson(resource, labelText) }
  }

  /** A reference to another document: an optional identifier and a required title. */
  datatype DocumentVerwijzing = DocumentVerwijzing(resource: Option<string>, labelText: string) {
    function ToJson(): (j: Json)
      ensures NoNulls(j)
    {
      JObject(Compact([
        ("resource", MapOpt(resource, StringJson)),
        ("label", Some(JString(labelText)))]))
    }
  }

  datatype DocumentRelatieMeta = DocumentRelatieMeta(relatie: DocumentRelatie) {
    function Resource(): string { relatie.TooiUri() }
    function Label(): string { relatie.Label() }
    function ToJson(): (j: Json)
      ensures NoNulls(j)
    { JObject([("relatie", JString(relatie.Value()))]) }
  }

  datatype DocumentRelatieItem = DocumentRelatieItem(role: DocumentRelatieMeta, relation: DocumentVerwijzing) {
    function ToJson(): (j: Json)
      ensures NoNulls(j)
    {
      JObject([("role", role.ToJson()), ("relation", relation.ToJson())])
    }
  }

  datatype RedenVerwijderingVervangingMeta = RedenVerwijderingVervangingMeta(reden: RedenVerwijderingVervanging) {
    function Resource(): string { reden.TooiUri() }
    function Label(): string { reden.Label() }
    function ToJson(): (j: Json)
      ensures NoNulls(j)
    { JObject([("reden", JString(reden.Value()))]) }
  }

  datatype ExtraMetadataVeld = ExtraMetadataVeld(key: string, values: seq<string>) {
    /** A field carries at least one value. */
    predicate Valid() { |values| >= 1 }
  }

  datatype ExtraMetadata = ExtraMetadata(
    namespace: Option<string>,
    prefix: Option<string>,
    extraMetadatavelden: seq<ExtraMetadataVeld>)
  {
    /** At least one field, each with at least one value. */
    predicate Valid() {
      |extraMetadatavelden| >= 1 &&
      forall i :: 0 <= i < |extraMetadatavelden| ==> extraMetadatavelden[i].Valid()
    }
  }

  /** The complete DIWOO record; publisher, titles, classification and handlings are required. */
  datatype DiWooMetadata = DiWooMetadata(
    identifiers: Option<seq<string>>,
    publisher: Organisatie,
    verantwoordelijke: Option<Organisatie>,
    medeverantwoordelijken: Option<seq<Organisatie>>,
    opsteller: Option<Organisatie>,
    naamOpsteller: Option<string>,
    titelcollectie: TitelCollectie,
    omschrijvingen: Option<seq<string>>,
    classificatiecollectie: ClassificatieCollectie,
    creatiedatum: Option<Date>,
    geldigheid: Option<Geldigheid>,
    language: Option<TaalMeta>,
    format: Option<FormatMeta>,
    aggregatiekenmerk: Option<string>,
    isPartOf: Option<DocumentVerwijzing>,
    hasParts: Option<seq<DocumentVerwijzing>>,
    documenthandelingen: seq<DocumentHandeling>,
    documentrelaties: Option<seq<DocumentRelatieItem>>,
    redenVerwijderingVervanging: Option<RedenVerwijderingVervangingMeta>)
  {
    /** Every constraint of the schema: a valid title, a valid classification, at least one handling. */
    predicate Valid() {
      titelcollectie.Valid() && classificatiecollectie.Valid() && |documenthandelingen| >= 1
    }

    /** The fields in declaration order, under their aliases, each with its JSON value if set. */
    function Fields(): (fs: seq<(string, Option<Json>)>)
      ensures |fs| == |Aliases|
      ensures forall i :: 0 <= i < |fs| ==> fs[i].0 == Aliases[i]
    {
      OrganisationFields() + ContentFields() + RelationFields()
    }

    /** Identifiers and the organisations involved. */
    function OrganisationFields(): (fs: seq<(string, Option<Json>)>)
      ensures |fs| == 6
      ensures forall i :: 0 <= i < |fs| ==> fs[i].0 == OrganisationAliases[i]
      ensures forall i :: 0 <= i < |fs| && fs[i].1.Some? ==> NoNulls(fs[i].1.value)
    {
      [ ("identifiers", MapOpt(identifiers, StringsJson)),
        ("publisher", Some(publisher.ToJson())),
        ("verantwoordelijke", MapOpt(verantwoordelijke, OrganisatieJson)),
        ("medeverantwoordelijken", MapOpt(medeverantwoordelijken, OrganisatiesJson)),
        ("opsteller", MapOpt(opsteller, OrganisatieJson)),
        ("naamOpsteller", MapOpt(naamOpsteller, StringJson)) ]
    }

    /** Titles, descriptions, classification, dates, language and format. */
    function ContentFields(): (fs: seq<(string, Option<Json>)>)
      ensures |fs| == 7
      ensures forall i :: 0 <= i < |fs| ==> fs[i].0 == ContentAliases[i]
      ensures forall i :: 0 <= i < |fs| && fs[i].1.Some? ==> NoNulls(fs[i].1.value)
    {
      [ ("titelcollectie", Some(titelcollectie.ToJson())),
        ("omschrijvingen", MapOpt(omschrijvingen, StringsJson)),
        ("classificatiecollectie", Some(classificatiecollectie.ToJson())),
        ("creatiedatum", MapOpt(creatiedatum, DateJson)),
        ("geldigheid", MapOpt(geldigheid, GeldigheidJson)),
        ("language", MapOpt(language, TaalMetaJson)),
        ("format", MapOpt(format, FormatJson)) ]
    }

    /** Grouping, hierarchy, handlings, relations and removal reason. */
    function RelationFields(): (fs: seq<(string, Option<Json>)>)
      ensures |fs| == 6
      ensures forall i :: 0 <= i < |fs| ==> fs[i].0 == RelationAliases[i]
      ensures forall i :: 0 <= i < |fs| && fs[i].1.Some? ==> NoNulls(fs[i].1.value)
    {
      [ ("aggregatiekenmerk", MapOpt(aggregatiekenmerk, StringJson)),
        ("isPartOf", MapOpt(isPartOf, VerwijzingJson)),
        ("hasParts", MapOpt(hasParts, VerwijzingenJson)),
        ("documenthandelingen", Some(ListJson(documenthandelingen, HandelingJson))),
        ("documentrelaties", MapOpt(documentrelaties, RelatieItemsJson)),
        ("redenVerwijderingVervanging", MapOpt(redenVerwijderingVervanging, RedenMetaJson)) ]
    }

    /** The record as a JSON object: camelCase aliases, enumerations by value, absent fields left out. */
    function ToDict(): Json {
      JObject(Compact(Fields()))
    }
  }

  /** The root element: DIWOO metadata and/or extra metadata blocks. */
  datatype Document = Document(diwoo: Option<DiWooMetadata>, extraMetadata: Option<seq<ExtraMetadata>>) {
    predicate Valid() {
      (diwoo.Some? ==> diwoo.value.Valid()) &&
      (extraMetadata.Some? ==> forall i :: 0 <= i < |extraMetadata.value| ==> extraMetadata.value[i].Valid())
    }
  }

  /** The JSON keys of the record's fields, in declaration order. */
  const Aliases: seq<string> := OrganisationAliases + ContentAliases + RelationAliases

  const OrganisationAliases: seq<string> :=
    ["identifiers", "publisher", "verantwoordelijke", "medeverantwoordelijken", "opsteller", "naamOpsteller"]

  const ContentAliases: seq<string> :=
    ["titelcollectie", "omschrijvingen", "classificatiecollectie", "creatiedatum", "geldigheid", "language", "format"]

  const RelationAliases: seq<string> :=
    ["aggregatiekenmerk", "isPartOf", "hasParts", "documenthandelingen", "documentrelaties",
     "redenVerwijderingVervanging"]

  // JSON encoders passed to the list and option helpers below

  function MapOpt<A>(o: Option<A>, f: A -> Json): (r: Option<Json>)
    ensures r.Some? <==> o.Some?
    ensures r.Some? ==> r.value == f(o.value)
  {
    match o
    case Some(a) => Some(f(a))
    case None => None
  }

  function ListJson<A>(xs: seq<A>, f: A -> Json): (r: Json)
    ensures r.JArray? && |r.items| == |xs|
    ensures (forall i :: 0 <= i < |xs| ==> NoNulls(f(xs[i]))) ==> NoNulls(r)
  {
    JArray(seq(|xs|, i requires 0 <= i < |xs| => f(xs[i])))
  }

  function StringsJson(xs: seq<string>): (r: Json)
    ensures NoNulls(r)
  {
    ListJson(xs, StringJson)
  }

  /** A TOOI-referenced resource: its URI and its label. */
  function ResourceJson(resource: string, labelText: string): (j: Json)
    ensures NoNulls(j)
  {
    JObject([("resource", JString(resource)), ("label", JString(labelText))])
  }

  // Each entry type's dump as a function value, for MapOpt and ListJson
  function StringJson(s: string): Json { JString(s) }
  function DateJson(d: Date): Json { JString(d.iso) }
  function GeldigheidJson(g: Geldigheid): Json { g.ToJson() }
  function TaalMetaJson(t: TaalMeta): Json { t.ToJson() }
  function FormatJson(f: FormatMeta): Json { f.ToJson() }
  function RedenMetaJson(r: RedenVerwijderingVervangingMeta): Json { r.ToJson() }
  function OrganisatiesJson(os: seq<Organisatie>): Json { ListJson(os, OrganisatieJson) }
  function VerwijzingenJson(vs: seq<DocumentVerwijzing>): Json { ListJson(vs, VerwijzingJson) }
  function RelatieItemsJson(rs: seq<DocumentRelatieItem>): Json { ListJson(rs, RelatieItemJson) }
  function SoortMetasJson(ds: seq<DocumentSoortMeta>): Json { ListJson(ds, SoortMetaJson) }
  function ThemasJson(ts: seq<ThemaMeta>): Json { ListJson(ts, ThemaJson) }

  function OrganisatieJson(o: Organisatie): Json { o.ToJson() }
  function CategorieMetaJson(c: InformatieCategorieMeta): Json { c.ToJson() }
  function SoortMetaJson(d: DocumentSoortMeta): Json { d.ToJson() }
  function ThemaJson(t: ThemaMeta): Json { t.ToJson() }
  function DateTimeJson(t: DateTime): Json { JString(t.iso) }
  function VerwijzingJson(v: DocumentVerwijzing): Json { v.ToJson() }
  function HandelingJson(h: DocumentHandeling): Json { h.ToJson() }
  function RelatieItemJson(r: DocumentRelatieItem): Json { r.ToJson() }

  // Validation as performed when a record is built: the first failing location is reported

  datatype ValidationError = ValidationError(loc: string)

  /** Builds a title collection, rejecting an official title that is empty or over 2000 characters. */
  function NewTitelCollectie(titel: string, verkort: Option<seq<string>>, alternatief: Option<seq<string>>)
    : (r: Result<TitelCollectie, ValidationError>)
    ensures r.Success? <==> 1 <= |titel| <= 2000
    ensures r.Success? ==> r.value.Valid() && r.value.officieleTitel == titel &&
                           r.value.verkorteTitels == verkort && r.value.alternatieveTitels == alternatief
  {
    if 1 <= |titel| <= 2000 then Success(TitelCollectie(titel, verkort, alternatief))
    else Failure(ValidationError("officieleTitel"))
  }

  /** Builds a classification, rejecting an empty list of information categories. */
  function NewClassificatieCollectie(
    categorieen: seq<InformatieCategorieMeta>, soorten: Option<seq<DocumentSoortMeta>>,
    themas: Option<seq<ThemaMeta>>, trefwoorden: Option<seq<string>>)
    : (r: Result<ClassificatieCollectie, ValidationError>)
    ensures r.Success? <==> categorieen != []
    ensures r.Success? ==> r.value.Valid() && r.value.informatiecategorieen == categorieen &&
                           r.value.documentsoorten == soorten && r.value.themas == themas &&
                           r.value.trefwoorden == trefwoorden
  {
    if |categorieen| >= 1 then Success(ClassificatieCollectie(categorieen, soorten, themas, trefwoorden))
    else Failure(ValidationError("informatiecategorieen"))
  }

  /** Validates an assembled record, field by field in declaration order. */
  function ValidateMetadata(m: DiWooMetadata): (r: Result<DiWooMetadata, ValidationError>)
    ensures r.Success? <==> m.Valid()
    ensures r.Success? ==> r.value == m
    ensures r.Failure? && !m.titelcollectie.Valid() ==> r.error.loc == "titelcollectie"
  {
    if !m.titelcollectie.Valid() then Failure(ValidationError("titelcollectie"))
    else if !m.classificatiecollectie.Valid() then Failure(ValidationError("classificatiecollectie"))
    else if |m.documenthandelingen| < 1 then Failure(ValidationError("documenthandelingen"))
    else Success(m)
  }

  /** Builds an extra-metadata field, rejecting one without values. */
  function NewExtraMetadataVeld(key: string, values: seq<string>): (r: Result<ExtraMetadataVeld, ValidationError>)
    ensures r.Success? <==> values != []
    ensures r.Success? ==> r.value.Valid() && r.value.key == key && r.value.values == values
  {
    if |values| >= 1 then Success(ExtraMetadataVeld(key, values)) else Failure(ValidationError("values"))
  }

  /**
   * Builds an extra-metadata block, rejecting a namespace that is not a URL
   * and a block without fields; the namespace is reported first.
   */
  function NewExtraMetadata(
    namespace: Option<string>, prefix: Option<string>, velden: seq<ExtraMetadataVeld>, isUrl: UrlCheck)
    : (r: Result<ExtraMetadata, ValidationError>)
    requires forall i :: 0 <= i < |velden| ==> velden[i].Valid()
    ensures r.Success? <==> (namespace.Some? ==> isUrl(namespace.value)) && velden != []
    ensures r.Failure? ==> r.error.loc == (if namespace.Some? && !isUrl(namespace.value) then "namespace" else "extraMetadatavelden")
    ensures r.Success? ==> r.value.Valid() && r.value == ExtraMetadata(namespace, prefix, velden)
  {
    if namespace.Some? && !isUrl(namespace.value) then Failure(ValidationError("namespace"))
    else if |velden| >= 1 then Success(ExtraMetadata(namespace, prefix, velden))
    else Failure(ValidationError("extraMetadatavelden"))
  }

  // Properties of the enumeration wrappers

  lemma TooiPrefixCancels(x: string, y: string)
    ensures TooiPrefix + x == TooiPrefix + y ==> x == y
  {
    if TooiPrefix + x == TooiPrefix + y {
      assert x == (TooiPrefix + x)[|TooiPrefix|..];
      assert y == (TooiPrefix + y)[|TooiPrefix|..];
    }
  }

  /** Two category entries have the same TOOI URI exactly when they are the same category. */
  lemma CategorieMetaResourceIdentifies(a: InformatieCategorieMeta, b: InformatieCategorieMeta)
    ensures a.Resource() == b.Resource() <==> a == b
  {
    TooiPrefixCancels(a.categorie.Value(), b.categorie.Value());
    CategoryValueInjective(a.categorie, b.categorie);
  }

  lemma DocumentSoortMetaResourceIdentifies(a: DocumentSoortMeta, b: DocumentSoortMeta)
    ensures a.Resource() == b.Resource() <==> a == b
  {
    TooiPrefixCancels(a.soort.Value(), b.soort.Value());
    DocumentSoortValueInjective(a.soort, b.soort);
  }

  lemma SoortHandelingMetaResourceIdentifies(a: SoortHandelingMeta, b: SoortHandelingMeta)
    ensures a.Resource() == b.Resource() <==> a == b
  {
    TooiPrefixCancels(a.handeling.Value(), b.handeling.Value());
    SoortHandelingValueInjective(a.handeling, b.handeling);
  }

  lemma TaalMetaResourceIdentifies(a: TaalMeta, b: TaalMeta)
    ensures a.Resource() == b.Resource() <==> a == b
  {
    TooiPrefixCancels(a.taal.Value(), b.taal.Value());
    TaalValueInjective(a.taal, b.taal);
  }

  lemma DocumentRelatieMetaResourceIdentifies(a: DocumentRelatieMeta, b: DocumentRelatieMeta)
    ensures a.Resource() == b.Resource() <==> a == b
  {
    TooiPrefixCancels(a.relatie.Value(), b.relatie.Value());
    DocumentRelatieValueInjective(a.relatie, b.relatie);
  }

  lemma RedenMetaResourceIdentifies(a: RedenVerwijderingVervangingMeta, b: RedenVerwijderingVervangingMeta)
    ensures a.Resource() == b.Resource() <==> a == b
  {
    TooiPrefixCancels(a.reden.Value(), b.reden.Value());
    RedenValueInjective(a.reden, b.reden);
  }

  // Properties of the JSON dump

  lemma AliasesDistinct()
    ensures forall i, j :: 0 <= i < |Aliases| && 0 <= j < |Aliases| && i != j ==> Aliases[i] != Aliases[j]
  {
  }

  /** Looking up the i-th alias in the dump yields the i-th field's value. */
  lemma ToDictGet(m: DiWooMetadata, i: nat)
    requires i < |Aliases|
    ensures Get(m.ToDict().members, Aliases[i]) == m.Fields()[i].1
  {
    AliasesDistinct();
    CompactGet(m.Fields(), i);
  }

  /** The i-th alias is a key of the dump exactly when the i-th field is set. */
  lemma ToDictHasKey(m: DiWooMetadata, i: nat)
    requires i < |Aliases|
    ensures Aliases[i] in Keys(m.ToDict().members) <==> m.Fields()[i].1.Some?
  {
    AliasesDistinct();
    CompactKeys(m.Fields(), Aliases[i]);
  }

  /** The organisation keys: the publisher always, the others exactly when set. */
  lemma ToDictOrganisationKeys(m: DiWooMetadata)
    ensures var ks := Keys(m.ToDict().members);
      "publisher" in ks &&
      ("identifiers" in ks <==> m.identifiers.Some?) &&
      ("verantwoordelijke" in ks <==> m.verantwoordelijke.Some?) &&
      ("medeverantwoordelijken" in ks <==> m.medeverantwoordelijken.Some?) &&
      ("opsteller" in ks <==> m.opsteller.Some?) &&
      ("naamOpsteller" in ks <==> m.naamOpsteller.Some?)
  {
    ToDictHasKey(m, 0);
    ToDictHasKey(m, 1);
    ToDictHasKey(m, 2);
    ToDictHasKey(m, 3);
    ToDictHasKey(m, 4);
    ToDictHasKey(m, 5);
  }

  /** The content keys: titles and classification always, the others exactly when set. */
  lemma ToDictContentKeys(m: DiWooMetadata)
    ensures var ks := Keys(m.ToDict().members);
      "titelcollectie" in ks && "classificatiecollectie" in ks &&
      ("omschrijvingen" in ks <==> m.omschrijvingen.Some?) &&
      ("creatiedatum" in ks <==> m.creatiedatum.Some?) &&
      ("geldigheid" in ks <==> m.geldigheid.Some?) &&
      ("language" in ks <==> m.language.Some?) &&
      ("format" in ks <==> m.format.Some?)
  {
    ToDictHasKey(m, 6);
    ToDictHasKey(m, 7);
    ToDictHasKey(m, 8);
    ToDictHasKey(m, 9);
    ToDictHasKey(m, 10);
    ToDictHasKey(m, 11);
    ToDictHasKey(m, 12);
  }

  /** The relation keys: the handlings always, the others exactly when set. */
  lemma ToDictRelationKeys(m: DiWooMetadata)
    ensures var ks := Keys(m.ToDict().members);
      "documenthandelingen" in ks &&
      ("aggregatiekenmerk" in ks <==> m.aggregatiekenmerk.Some?) &&
      ("isPartOf" in ks <==> m.isPartOf.Some?) &&
      ("hasParts" in ks <==> m.hasParts.Some?) &&
      ("documentrelaties" in ks <==> m.documentrelaties.Some?) &&
      ("redenVerwijderingVervanging" in ks <==> m.redenVerwijderingVervanging.Some?)
  {
    ToDictHasKey(m, 13);
    ToDictHasKey(m, 14);
    ToDictHasKey(m, 15);
    ToDictHasKey(m, 16);
    ToDictHasKey(m, 17);
    ToDictHasKey(m, 18);
  }

  /** Every key of the dump is one of the aliases. */
  lemma ToDictKeysAreAliases(m: DiWooMetadata, k: string)
    ensures k in Keys(m.ToDict().members) ==> k in Aliases
  {
    CompactKeys(m.Fields(), k);
  }

  /** Dumping with absent fields excluded leaves no null anywhere in the result. */
  lemma ToDictNoNulls(m: DiWooMetadata)
    ensures NoNulls(m.ToDict())
  {
    var a, b, c := m.OrganisationFields(), m.ContentFields(), m.RelationFields();
    forall i | 0 <= i < |m.Fields()| && m.Fields()[i].1.Some?
      ensures NoNulls(m.Fields()[i].1.value)
    {
      if i < 6 {
        assert m.Fields()[i] == a[i];
      } else if i < 13 {
        assert m.Fields()[i] == b[i - 6];
      } else {
        assert m.Fields()[i] == c[i - 13];
      }
    }
  }

  /**
   * Reading a dumped record back checks the schema's constraints on the JSON:
   * an official title of 1 to 2000 characters, a non-empty list of information
   * categories and a non-empty list of handlings.
   */
  predicate DictValid(j: Json) {
    j.JObject? &&
    match Get(j.members, "titelcollectie")
    case Some(JObject(t)) =>
      (match Get(t, "officieleTitel")
       case Some(JString(s)) => 1 <= |s| <= 2000
       case _ => false) &&
      (match Get(j.members, "classificatiecollectie")
       case Some(JObject(c)) =>
         (match Get(c, "informatiecategorieen")
          case Some(JArray(cs)) => cs != []
          case _ => false)
       case _ => false) &&
      (match Get(j.members, "documenthandelingen")
       case Some(JArray(hs)) => hs != []
       case _ => false)
    case _ => false
  }

  lemma TitelJsonTitle(t: TitelCollectie)
    ensures Get(t.ToJson().members, "officieleTitel") == Some(JString(t.officieleTitel))
  {
  }

  lemma ClassificatieJsonCategories(c: ClassificatieCollectie)
    ensures Get(c.ToJson().members, "informatiecategorieen") == Some(ListJson(c.informatiecategorieen, CategorieMetaJson))
  {
  }

  // The positions of the required fields among the record's fields

  lemma TitleFieldAt(m: DiWooMetadata)
    ensures m.Fields()[6] == ("titelcollectie", Some(m.titelcollectie.ToJson()))
  {
    assert m.Fields()[6] == m.ContentFields()[0];
  }

  lemma ClassificationFieldAt(m: DiWooMetadata)
    ensures m.Fields()[8] == ("classificatiecollectie", Some(m.classificatiecollectie.ToJson()))
  {
    assert m.Fields()[8] == m.ContentFields()[2];
  }

  lemma HandelingenFieldAt(m: DiWooMetadata)
    ensures m.Fields()[16] == ("documenthandelingen", Some(ListJson(m.documenthandelingen, HandelingJson)))
  {
    assert m.Fields()[16] == m.RelationFields()[3];
  }

  lemma ToDictRequired(m: DiWooMetadata)
    ensures Get(m.ToDict().members, "titelcollectie") == Some(m.titelcollectie.ToJson())
    ensures Get(m.ToDict().members, "classificatiecollectie") == Some(m.classificatiecollectie.ToJson())
    ensures Get(m.ToDict().members, "documenthandelingen") == Some(ListJson(m.documenthandelingen, HandelingJson))
  {
    TitleFieldAt(m);
    ClassificationFieldAt(m);
    HandelingenFieldAt(m);
    ToDictGet(m, 6);
    ToDictGet(m, 8);
    ToDictGet(m, 16);
  }

  /** A record is valid exactly when its dump passes validation again. */
  lemma ToDictRevalidates(m: DiWooMetadata)
    ensures m.Valid() <==> DictValid(m.ToDict())
  {
    ToDictRequired(m);
    TitelJsonTitle(m.titelcollectie);
    ClassificatieJsonCategories(m.classificatiecollectie);
  }
}

=== FILE: enums.dfy ===
/**
 * The controlled vocabularies of DIWOO metadata (the TOOI value lists): the 17 Woo
 * information categories, document types, handling types, languages, document
 * relations and removal reasons. Each member has a stable code (its `Value`), its
 * Python member name (`Name`), a Dutch label and a TOOI URI derived from the code.
 */
module Enums {
  import opened Wrappers
  import Text

  /** Every TOOI URI is this prefix followed by the member's code. */
  const TooiPrefix: string := "https://identifier.overheid.nl/tooi/def/thes/kern/"

  /** Code characters accepted after `c_` by the code pattern `c_[a-z0-9_]+`. */
  predicate IsCodeChar(ch: char) {
    ('a' <= ch <= 'z') || ('0' <= ch <= '9') || ch == '_'
  }

  /** `s` matches `c_[a-z0-9_]+` as a whole. */
  predicate IsCode(s: string) {
    |s| > 2 && s[0] == 'c' && s[1] == '_' && forall k :: 2 <= k < |s| ==> IsCodeChar(s[k])
  }

  /**
   * The first entry of `table` whose key is `k`: Python's `Enum(value)` and
   * `Enum[name]`, with `None` where Python raises ValueError or KeyError.
   */
  function FindBy<T>(table: seq<T>, key: T -> string, k: string): (r: Option<T>)
    ensures r.Some? ==> r.value in table && key(r.value) == k
    ensures r.None? <==> forall t :: t in table ==> key(t) != k
  {
    if table == [] then None
    else if key(table[0]) == k then Some(table[0])
    else FindBy(table[1..], key, k)
  }

  // ---------------------------------------------------------------------------
  // Informatiecategorie: the 17 categories of article 3.3 of the Wet open overheid
  // ---------------------------------------------------------------------------

  datatype InformatieCategorie =
    | WETTEN_AVV | OVERIGE_BESLUITEN_AS | ONTWERPEN_REGELGEVING | ORGANISATIE_WERKWIJZE
    | BEREIKBAARHEID | INGEKOMEN_STUKKEN | VERGADERSTUKKEN_SG | VERGADERSTUKKEN_DECENTRAAL
    | AGENDAS_BESLUITENLIJSTEN | ADVIEZEN | CONVENANTEN | JAARPLANNEN_JAARVERSLAGEN
    | SUBSIDIES_ANDERS | WOO_VERZOEKEN | ONDERZOEKSRAPPORTEN | BESCHIKKINGEN | KLACHTOORDELEN
  {
    /** The TOOI code of the category. */
    function Value(): string {
      match this
      case WETTEN_AVV => "c_4191a648"
      case OVERIGE_BESLUITEN_AS => "c_237d1cf1"
      case ONTWERPEN_REGELGEVING => "c_fdee54ae"
      case ORGANISATIE_WERKWIJZE => "c_9f5cc14e"
      case BEREIKBAARHEID => "c_e8bf4b9e"
      case INGEKOMEN_STUKKEN => "c_a3a6e5cf"
      case VERGADERSTUKKEN_SG => "c_7ebb6ba0"
      case VERGADERSTUKKEN_DECENTRAAL => "c_92a74153"
      case AGENDAS_BESLUITENLIJSTEN => "c_5540d806"
      case ADVIEZEN => "c_5ba23c01"
      case CONVENANTEN => "c_9fe65c9f"
      case JAARPLANNEN_JAARVERSLAGEN => "c_9b4ab167"
      case SUBSIDIES_ANDERS => "c_8ac47458"
      case WOO_VERZOEKEN => "c_4edc7ff0"
      case ONDERZOEKSRAPPORTEN => "c_28fb3d66"
      case BESCHIKKINGEN => "c_0b6bd881"
      case KLACHTOORDELEN => "c_b2f30ab9"
    }

    /** The Python member name, used by name lookup and in prompts. */
    function Name(): string {
      match this
      case WETTEN_AVV => "WETTEN_AVV"
      case OVERIGE_BESLUITEN_AS => "OVERIGE_BESLUITEN_AS"
      case ONTWERPEN_REGELGEVING => "ONTWERPEN_REGELGEVING"
      case ORGANISATIE_WERKWIJZE => "ORGANISATIE_WERKWIJZE"
      case BEREIKBAARHEID => "BEREIKBAARHEID"
      case INGEKOMEN_STUKKEN => "INGEKOMEN_STUKKEN"
      case VERGADERSTUKKEN_SG => "VERGADERSTUKKEN_SG"
      case VERGADERSTUKKEN_DECENTRAAL => "VERGADERSTUKKEN_DECENTRAAL"
      case AGENDAS_BESLUITENLIJSTEN => "AGENDAS_BESLUITENLIJSTEN"
      case ADVIEZEN => "ADVIEZEN"
      case CONVENANTEN => "CONVENANTEN"
      case JAARPLANNEN_JAARVERSLAGEN => "JAARPLANNEN_JAARVERSLAGEN"
      case SUBSIDIES_ANDERS => "SUBSIDIES_ANDERS"
      case WOO_VERZOEKEN => "WOO_VERZOEKEN"
      case ONDERZOEKSRAPPORTEN => "ONDERZOEKSRAPPORTEN"
      case BESCHIKKINGEN => "BESCHIKKINGEN"
      case KLACHTOORDELEN => "KLACHTOORDELEN"
    }

    /** The Dutch label (the category label table, which covers every member). */
    function Label(): string {
      match this
      case WETTEN_AVV => "Wetten en algemeen verbindende voorschriften"
      case OVERIGE_BESLUITEN_AS => "Overige besluiten van algemene strekking"
      case ONTWERPEN_REGELGEVING => "Ontwerpen van regelgeving met adviesaanvraag"
      case ORGANISATIE_WERKWIJZE => "Organisatie en werkwijze"
      case BEREIKBAARHEID => "Bereikbaarheidsgegevens"
      case INGEKOMEN_STUKKEN => "Bij vertegenwoordigende organen ingekomen stukken"
      case VERGADERSTUKKEN_SG => "Vergaderstukken Staten-Generaal"
      case VERGADERSTUKKEN_DECENTRAAL => "Vergaderstukken decentrale overheden"
      case AGENDAS_BESLUITENLIJSTEN => "Agenda's en besluitenlijsten bestuurscolleges"
      case ADVIEZEN => "Adviezen"
      case CONVENANTEN => "Convenanten"
      case JAARPLANNEN_JAARVERSLAGEN => "Jaarplannen en jaarverslagen"
      case SUBSIDIES_ANDERS => "Subsidieverplichtingen anders dan met beschikking"
      case WOO_VERZOEKEN => "Woo-verzoeken en -besluiten"
      case ONDERZOEKSRAPPORTEN => "Onderzoeksrapporten"
      case BESCHIKKINGEN => "Beschikkingen"
      case KLACHTOORDELEN => "Klachtoordelen"
    }

    /** The article of the Wet open overheid that defines the category. */
    function Artikel(): string {
      match this
      case WETTEN_AVV => "3.3.1a"
      case OVERIGE_BESLUITEN_AS => "3.3.1b"
      case ONTWERPEN_REGELGEVING => "3.3.1c"
      case ORGANISATIE_WERKWIJZE => "3.3.1d"
      case BEREIKBAARHEID => "3.3.1e"
      case INGEKOMEN_STUKKEN => "3.3.2a"
      case VERGADERSTUKKEN_SG => "3.3.2b"
      case VERGADERSTUKKEN_DECENTRAAL => "3.3.2c"
      case AGENDAS_BESLUITENLIJSTEN => "3.3.2d"
      case ADVIEZEN => "3.3.2e"
      case CONVENANTEN => "3.3.2f"
      case JAARPLANNEN_JAARVERSLAGEN => "3.3.2g"
      case SUBSIDIES_ANDERS => "3.3.2h"
      case WOO_VERZOEKEN => "3.3.2i"
      case ONDERZOEKSRAPPORTEN => "3.3.2j"
      case BESCHIKKINGEN => "3.3.2k"
      case KLACHTOORDELEN => "3.3.2l"
    }

    function TooiUri(): string {
      TooiPrefix + Value()
    }
  }

  /** The categories in declaration order (which is also the label table's order). */
  const AllCategories: seq<InformatieCategorie> := [
    WETTEN_AVV, OVERIGE_BESLUITEN_AS, ONTWERPEN_REGELGEVING, ORGANISATIE_WERKWIJZE,
    BEREIKBAARHEID, INGEKOMEN_STUKKEN, VERGADERSTUKKEN_SG, VERGADERSTUKKEN_DECENTRAAL,
    AGENDAS_BESLUITENLIJSTEN, ADVIEZEN, CONVENANTEN, JAARPLANNEN_JAARVERSLAGEN,
    SUBSIDIES_ANDERS, WOO_VERZOEKEN, ONDERZOEKSRAPPORTEN, BESCHIKKINGEN, KLACHTOORDELEN]

  const CategoryValue: InformatieCategorie -> string := (c: InformatieCategorie) => c.Value()

  /** `InformatieCategorie(code)`. */
  function CategorieFromValue(code: string): Option<InformatieCategorie> {
    FindBy(AllCategories, CategoryValue, code)
  }

  const CategoryName: InformatieCategorie -> string := (c: InformatieCategorie) => c.Name()

  /** `InformatieCategorie[name]`. */
  function CategorieFromName(name: string): Option<InformatieCategorie> {
    FindBy(AllCategories, CategoryName, name)
  }

  // ---------------------------------------------------------------------------
  // DocumentSoort
  // ---------------------------------------------------------------------------

  datatype DocumentSoort =
    | BRIEF | NOTA | RAPPORT | BESLUIT | ADVIES | NOTULEN | AGENDA | VERSLAG | CONVENANT
    | OVEREENKOMST | BELEIDSREGEL | CIRCULAIRE | BESCHIKKING | WOO_BESLUIT | ONDERZOEKSRAPPORT
    | JAARVERSLAG | JAARPLAN | KLACHTOORDEEL | MEMORIE_VAN_TOELICHTING | AMENDEMENT | MOTIE
  {
    function Value(): string {
      match this
      case BRIEF => "c_brief"
      case NOTA => "c_nota"
      case RAPPORT => "c_rapport"
      case BESLUIT => "c_besluit"
      case ADVIES => "c_advies"
      case NOTULEN => "c_notulen"
      case AGENDA => "c_agenda"
      case VERSLAG => "c_verslag"
      case CONVENANT => "c_convenant"
      case OVEREENKOMST => "c_overeenkomst"
      case BELEIDSREGEL => "c_beleidsregel"
      case CIRCULAIRE => "c_circulaire"
      case BESCHIKKING => "c_beschikking"
      case WOO_BESLUIT => "c_woo_besluit"
      case ONDERZOEKSRAPPORT => "c_onderzoeksrapport"
      case JAARVERSLAG => "c_jaarverslag"
      case JAARPLAN => "c_jaarplan"
      case KLACHTOORDEEL => "c_klachtoordeel"
      case MEMORIE_VAN_TOELICHTING => "c_memorie_van_toelichting"
      case AMENDEMENT => "c_amendement"
      case MOTIE => "c_motie"
    }

    function Name(): string {
      match this
      case BRIEF => "BRIEF"
      case NOTA => "NOTA"
      case RAPPORT => "RAPPORT"
      case BESLUIT => "BESLUIT"
      case ADVIES => "ADVIES"
      case NOTULEN => "NOTULEN"
      case AGENDA => "AGENDA"
      case VERSLAG => "VERSLAG"
      case CONVENANT => "CONVENANT"
      case OVEREENKOMST => "OVEREENKOMST"
      case BELEIDSREGEL => "BELEIDSREGEL"
      case CIRCULAIRE => "CIRCULAIRE"
      case BESCHIKKING => "BESCHIKKING"
      case WOO_BESLUIT => "WOO_BESLUIT"
      case ONDERZOEKSRAPPORT => "ONDERZOEKSRAPPORT"
      case JAARVERSLAG => "JAARVERSLAG"
      case JAARPLAN => "JAARPLAN"
      case KLACHTOORDEEL => "KLACHTOORDEEL"
      case MEMORIE_VAN_TOELICHTING => "MEMORIE_VAN_TOELICHTING"
      case AMENDEMENT => "AMENDEMENT"
      case MOTIE => "MOTIE"
    }

    /** The label table entry, or the lower-cased name with spaces when there is none. */
    function Label(): string {
      if this in DocumentSoortLabels then DocumentSoortLabels[this]
      else Text.ReplaceChar(Text.Lower(Name()), '_', ' ')
    }

    function TooiUri(): string {
      TooiPrefix + Value()
    }
  }

  const DocumentSoortLabels: map<DocumentSoort, string> := map[
    BRIEF := "Brief", NOTA := "Nota", RAPPORT := "Rapport", BESLUIT := "Besluit",
    ADVIES := "Advies", NOTULEN := "Notulen", AGENDA := "Agenda", VERSLAG := "Verslag",
    CONVENANT := "Convenant", OVEREENKOMST := "Overeenkomst", BELEIDSREGEL := "Beleidsregel",
    CIRCULAIRE := "Circulaire", BESCHIKKING := "Beschikking", WOO_BESLUIT := "Woo-besluit",
    ONDERZOEKSRAPPORT := "Onderzoeksrapport", JAARVERSLAG := "Jaarverslag",
    JAARPLAN := "Jaarplan", KLACHTOORDEEL := "Klachtoordeel",
    MEMORIE_VAN_TOELICHTING := "Memorie van toelichting", AMENDEMENT := "Amendement",
    MOTIE := "Motie"]

  const AllDocumentSoorten: seq<DocumentSoort> := [
    BRIEF, NOTA, RAPPORT, BESLUIT, ADVIES, NOTULEN, AGENDA, VERSLAG, CONVENANT,
    OVEREENKOMST, BELEIDSREGEL, CIRCULAIRE, BESCHIKKING, WOO_BESLUIT, ONDERZOEKSRAPPORT,
    JAARVERSLAG, JAARPLAN, KLACHTOORDEEL, MEMORIE_VAN_TOELICHTING, AMENDEMENT, MOTIE]

  const DocumentSoortValue: DocumentSoort -> string := (d: DocumentSoort) => d.Value()

  function DocumentSoortFromValue(code: string): Option<DocumentSoort> {
    FindBy(AllDocumentSoorten, DocumentSoortValue, code)
  }

  const DocumentSoortName: DocumentSoort -> string := (d: DocumentSoort) => d.Name()

  function DocumentSoortFromName(name: string): Option<DocumentSoort> {
    FindBy(AllDocumentSoorten, DocumentSoortName, name)
  }

  // ---------------------------------------------------------------------------
  // SoortHandeling
  // ---------------------------------------------------------------------------

  datatype SoortHandeling =
    | ONTVANGST | VASTSTELLING | ONDERTEKENING | PUBLICATIE | INWERKINGTREDING
    | WIJZIGING | INTREKKING | REGISTRATIE
  {
    function Value(): string {
      match this
      case ONTVANGST => "c_ontvangst"
      case VASTSTELLING => "c_vaststelling"
      case ONDERTEKENING => "c_ondertekening"
      case PUBLICATIE => "c_publicatie"
      case INWERKINGTREDING => "c_inwerkingtreding"
      case WIJZIGING => "c_wijziging"
      case INTREKKING => "c_intrekking"
      case REGISTRATIE => "c_registratie"
    }

    function Name(): string {
      match this
      case ONTVANGST => "ONTVANGST"
      case VASTSTELLING => "VASTSTELLING"
      case ONDERTEKENING => "ONDERTEKENING"
      case PUBLICATIE => "PUBLICATIE"
      case INWERKINGTREDING => "INWERKINGTREDING"
      case WIJZIGING => "WIJZIGING"
      case INTREKKING => "INTREKKING"
      case REGISTRATIE => "REGISTRATIE"
    }

    /** The label table entry, or the lower-cased name when there is none. */
    function Label(): string {
      if this in SoortHandelingLabels then SoortHandelingLabels[this] else Text.Lower(Name())
    }

    function TooiUri(): string {
      TooiPrefix + Value()
    }
  }

  const SoortHandelingLabels: map<SoortHandeling, string> := map[
    ONTVANGST := "Ontvangst", VASTSTELLING := "Vaststelling", ONDERTEKENING := "Ondertekening",
    PUBLICATIE := "Publicatie", INWERKINGTREDING := "Inwerkingtreding", WIJZIGING := "Wijziging",
    INTREKKING := "Intrekking", REGISTRATIE := "Registratie"]

  const AllSoortHandelingen: seq<SoortHandeling> := [
    ONTVANGST, VASTSTELLING, ONDERTEKENING, PUBLICATIE, INWERKINGTREDING, WIJZIGING,
    INTREKKING, REGISTRATIE]

  const SoortHandelingValue: SoortHandeling -> string := (h: SoortHandeling) => h.Value()

  function SoortHandelingFromValue(code: string): Option<SoortHandeling> {
    FindBy(AllSoortHandelingen, SoortHandelingValue, code)
  }

  // ---------------------------------------------------------------------------
  // Taal
  // ---------------------------------------------------------------------------

  datatype Taal = NL | EN | DE | FR | FY | PAP
  {
    function Value(): string {
      match this
      case NL => "c_nl"
      case EN => "c_en"
      case DE => "c_de"
      case FR => "c_fr"
      case FY => "c_fy"
      case PAP => "c_pap"
    }

    function Name(): string {
      match this
      case NL => "NL"
      case EN => "EN"
      case DE => "DE"
      case FR => "FR"
      case FY => "FY"
      case PAP => "PAP"
    }

    /** The label table entry, or the member name when there is none. */
    function Label(): string {
      if this in TaalLabels then TaalLabels[this] else Name()
    }

    function TooiUri(): string {
      TooiPrefix + Value()
    }
  }

  const TaalLabels: map<Taal, string> := map[
    NL := "Nederlands", EN := "Engels", DE := "Duits", FR := "Frans", FY := "Fries",
    PAP := "Papiaments"]

  const AllTalen: seq<Taal> := [NL, EN, DE, FR, FY, PAP]

  const TaalValue: Taal -> string := (t: Taal) => t.Value()

  function TaalFromValue(code: string): Option<Taal> {
    FindBy(AllTalen, TaalValue, code)
  }

  const TaalName: Taal -> string := (t: Taal) => t.Name()

  function TaalFromName(name: string): Option<Taal> {
    FindBy(AllTalen, TaalName, name)
  }

  // ---------------------------------------------------------------------------
  // DocumentRelatie and RedenVerwijderingVervanging (labels derived from the name)
  // ---------------------------------------------------------------------------

  datatype DocumentRelatie =
    | VERVANGT | WORDT_VERVANGEN_DOOR | WIJZIGT | WORDT_GEWIJZIGD_DOOR | INTREKT
    | WORDT_INGETROKKEN_DOOR | HEEFT_BIJLAGE | IS_BIJLAGE_VAN
  {
    function Value(): string {
      match this
      case VERVANGT => "c_vervangt"
      case WORDT_VERVANGEN_DOOR => "c_wordt_vervangen_door"
      case WIJZIGT => "c_wijzigt"
      case WORDT_GEWIJZIGD_DOOR => "c_wordt_gewijzigd_door"
      case INTREKT => "c_intrekt"
      case WORDT_INGETROKKEN_DOOR => "c_wordt_ingetrokken_door"
      case HEEFT_BIJLAGE => "c_heeft_bijlage"
      case IS_BIJLAGE_VAN => "c_is_bijlage_van"
    }

    function Name(): string {
      match this
      case VERVANGT => "VERVANGT"
      case WORDT_VERVANGEN_DOOR => "WORDT_VERVANGEN_DOOR"
      case WIJZIGT => "WIJZIGT"
      case WORDT_GEWIJZIGD_DOOR => "WORDT_GEWIJZIGD_DOOR"
      case INTREKT => "INTREKT"
      case WORDT_INGETROKKEN_DOOR => "WORDT_INGETROKKEN_DOOR"
      case HEEFT_BIJLAGE => "HEEFT_BIJLAGE"
      case IS_BIJLAGE_VAN => "IS_BIJLAGE_VAN"
    }

    function Label(): string {
      Text.ReplaceChar(Text.Lower(Name()), '_', ' ')
    }

    function TooiUri(): string {
      TooiPrefix + Value()
    }
  }

  const AllDocumentRelaties: seq<DocumentRelatie> := [
    VERVANGT, WORDT_VERVANGEN_DOOR, WIJZIGT, WORDT_GEWIJZIGD_DOOR, INTREKT,
    WORDT_INGETROKKEN_DOOR, HEEFT_BIJLAGE, IS_BIJLAGE_VAN]

  const DocumentRelatieValue: DocumentRelatie -> string := (r: DocumentRelatie) => r.Value()

  function DocumentRelatieFromValue(code: string): Option<DocumentRelatie> {
    FindBy(AllDocumentRelaties, DocumentRelatieValue, code)
  }

  datatype RedenVerwijderingVervanging =
    | ONJUISTE_INFORMATIE | PRIVACYGEVOELIGE_INFORMATIE | TECHNISCHE_FOUT
    | VERVANGING_DOOR_NIEUWE_VERSIE
  {
    function Value(): string {
      match this
      case ONJUISTE_INFORMATIE => "c_onjuiste_informatie"
      case PRIVACYGEVOELIGE_INFORMATIE => "c_privacygevoelige_informatie"
      case TECHNISCHE_FOUT => "c_technische_fout"
      case VERVANGING_DOOR_NIEUWE_VERSIE => "c_vervanging_door_nieuwe_versie"
    }

    function Name(): string {
      match this
      case ONJUISTE_INFORMATIE => "ONJUISTE_INFORMATIE"
      case PRIVACYGEVOELIGE_INFORMATIE => "PRIVACYGEVOELIGE_INFORMATIE"
      case TECHNISCHE_FOUT => "TECHNISCHE_FOUT"
      case VERVANGING_DOOR_NIEUWE_VERSIE => "VERVANGING_DOOR_NIEUWE_VERSIE"
    }

    function Label(): string {
      Text.ReplaceChar(Text.Lower(Name()), '_', ' ')
    }

    function TooiUri(): string {
      TooiPrefix + Value()
    }
  }

  const AllRedenen: seq<RedenVerwijderingVervanging> := [
    ONJUISTE_INFORMATIE, PRIVACYGEVOELIGE_INFORMATIE, TECHNISCHE_FOUT,
    VERVANGING_DOOR_NIEUWE_VERSIE]

  const RedenValue: RedenVerwijderingVervanging -> string := (r: RedenVerwijderingVervanging) => r.Value()

  function RedenFromValue(code: string): Option<RedenVerwijderingVervanging> {
    FindBy(AllRedenen, RedenValue, code)
  }


  // ---------------------------------------------------------------------------
  // Properties of the tables
  // ---------------------------------------------------------------------------

  /** There are exactly 17 categories, each listed once. */
  lemma CategoriesComplete()
    ensures |AllCategories| == 17
    ensures forall c: InformatieCategorie :: c in AllCategories
    ensures forall i, j :: 0 <= i < j < |AllCategories| ==> AllCategories[i] != AllCategories[j]
  {
    forall c: InformatieCategorie ensures c in AllCategories {
      var _ := CategoryListed(c);
    }
  }

  /** The position of a category in the table. */
  lemma CategoryListed(c: InformatieCategorie) returns (i: nat)
    ensures i < |AllCategories| && AllCategories[i] == c
  {
    match c
    case WETTEN_AVV => i := 0;
    case OVERIGE_BESLUITEN_AS => i := 1;
    case ONTWERPEN_REGELGEVING => i := 2;
    case ORGANISATIE_WERKWIJZE => i := 3;
    case BEREIKBAARHEID => i := 4;
    case INGEKOMEN_STUKKEN => i := 5;
    case VERGADERSTUKKEN_SG => i := 6;
    case VERGADERSTUKKEN_DECENTRAAL => i := 7;
    case AGENDAS_BESLUITENLIJSTEN => i := 8;
    case ADVIEZEN => i := 9;
    case CONVENANTEN => i := 10;
    case JAARPLANNEN_JAARVERSLAGEN => i := 11;
    case SUBSIDIES_ANDERS => i := 12;
    case WOO_VERZOEKEN => i := 13;
    case ONDERZOEKSRAPPORTEN => i := 14;
    case BESCHIKKINGEN => i := 15;
    case KLACHTOORDELEN => i := 16;
  }

  /** The table runs through the articles in order: lid 1 letters a..e, then lid 2 letters a..l. */
  lemma CategoriesInArticleOrder()
    ensures |AllCategories| == 17
    ensures forall i :: 0 <= i < 5 ==>
      AllCategories[i].Artikel() == "3.3.1" + [('a' as int + i) as char]
    ensures forall i :: 5 <= i < 17 ==>
      AllCategories[i].Artikel() == "3.3.2" + [('a' as int + i - 5) as char]
  {
  }

  /** Every category has an article reference under article 3.3. */
  lemma CategoryArticleUnder33(c: InformatieCategorie)
    ensures "3.3" <= c.Artikel()
  {
    CategoriesComplete();
    CategoriesInArticleOrder();
    assert c in AllCategories;
    var i :| 0 <= i < |AllCategories| && AllCategories[i] == c;
    assert c.Artikel()[..3] == "3.3";
  }

  /** Every category has a non-empty label. */
  lemma CategoryLabelNonEmpty(c: InformatieCategorie)
    ensures |c.Label()| > 0
  {
    CategoryLabelsNonEmpty0();
    CategoryLabelsNonEmpty1();
    CategoryLabelsNonEmpty2();
  }

  lemma CategoryLabelsNonEmpty0()
    ensures |WETTEN_AVV.Label()| > 0 && |OVERIGE_BESLUITEN_AS.Label()| > 0
    ensures |ONTWERPEN_REGELGEVING.Label()| > 0 && |ORGANISATIE_WERKWIJZE.Label()| > 0
    ensures |BEREIKBAARHEID.Label()| > 0 && |INGEKOMEN_STUKKEN.Label()| > 0
  {
  }

  lemma CategoryLabelsNonEmpty1()
    ensures |VERGADERSTUKKEN_SG.Label()| > 0 && |VERGADERSTUKKEN_DECENTRAAL.Label()| > 0
    ensures |AGENDAS_BESLUITENLIJSTEN.Label()| > 0 && |ADVIEZEN.Label()| > 0
    ensures |CONVENANTEN.Label()| > 0 && |JAARPLANNEN_JAARVERSLAGEN.Label()| > 0
  {
  }

  lemma CategoryLabelsNonEmpty2()
    ensures |SUBSIDIES_ANDERS.Label()| > 0 && |WOO_VERZOEKEN.Label()| > 0
    ensures |ONDERZOEKSRAPPORTEN.Label()| > 0 && |BESCHIKKINGEN.Label()| > 0
    ensures |KLACHTOORDELEN.Label()| > 0
  {
  }

  /** Two labels the Woo's own wording fixes: "Adviezen" and "Woo-verzoeken en -besluiten". */
  lemma CategoryLabelsSpelled()
    ensures ADVIEZEN.Label() == "Adviezen"
    ensures WOO_VERZOEKEN.Label() == "Woo-verzoeken en -besluiten"
  {
  }

  /** Every member of every vocabulary has a code of the form `c_[a-z0-9_]+`. */
  lemma CategoryValueIsCode(c: InformatieCategorie)
    ensures IsCode(c.Value())
  {
    match c case _ =>
  }

  lemma DocumentSoortCodes0()
    ensures IsCode(BRIEF.Value())
    ensures IsCode(NOTA.Value())
    ensures IsCode(RAPPORT.Value())
    ensures IsCode(BESLUIT.Value())
    ensures IsCode(ADVIES.Value())
    ensures IsCode(NOTULEN.Value())
  {
  }

  lemma DocumentSoortCodes1()
    ensures IsCode(AGENDA.Value())
    ensures IsCode(VERSLAG.Value())
    ensures IsCode(CONVENANT.Value())
    ensures IsCode(OVEREENKOMST.Value())
    ensures IsCode(BELEIDSREGEL.Value())
    ensures IsCode(CIRCULAIRE.Value())
  {
  }

  lemma DocumentSoortCodes2()
    ensures IsCode(BESCHIKKING.Value())
    ensures IsCode(WOO_BESLUIT.Value())
    ensures IsCode(ONDERZOEKSRAPPORT.Value())
    ensures IsCode(JAARVERSLAG.Value())
    ensures IsCode(JAARPLAN.Value())
    ensures IsCode(KLACHTOORDEEL.Value())
  {
  }

  lemma DocumentSoortCodes3()
    ensures IsCode(MEMORIE_VAN_TOELICHTING.Value())
    ensures IsCode(AMENDEMENT.Value())
    ensures IsCode(MOTIE.Value())
  {
  }

  lemma DocumentSoortValueIsCode(d: DocumentSoort)
    ensures IsCode(d.Value())
  {
    DocumentSoortCodes0();
    DocumentSoortCodes1();
    DocumentSoortCodes2();
    DocumentSoortCodes3();
  }

  lemma SoortHandelingValueIsCode(h: SoortHandeling)
    ensures IsCode(h.Value())
  {
    match h case _ =>
  }

  lemma TaalValueIsCode(t: Taal)
    ensures IsCode(t.Value())
  {
    match t case _ =>
  }

  lemma DocumentRelatieCodes0()
    ensures IsCode(VERVANGT.Value())
    ensures IsCode(WORDT_VERVANGEN_DOOR.Value())
    ensures IsCode(WIJZIGT.Value())
    ensures IsCode(WORDT_GEWIJZIGD_DOOR.Value())
  {
  }

  lemma DocumentRelatieCodes1()
    ensures IsCode(INTREKT.Value())
    ensures IsCode(WORDT_INGETROKKEN_DOOR.Value())
    ensures IsCode(HEEFT_BIJLAGE.Value())
    ensures IsCode(IS_BIJLAGE_VAN.Value())
  {
  }

  lemma DocumentRelatieValueIsCode(r: DocumentRelatie)
    ensures IsCode(r.Value())
  {
    DocumentRelatieCodes0();
    DocumentRelatieCodes1();
  }

  lemma RedenCodes0()
    ensures IsCode(ONJUISTE_INFORMATIE.Value())
    ensures IsCode(PRIVACYGEVOELIGE_INFORMATIE.Value())
  {
  }

  lemma RedenCodes1()
    ensures IsCode(TECHNISCHE_FOUT.Value())
    ensures IsCode(VERVANGING_DOOR_NIEUWE_VERSIE.Value())
  {
  }

  lemma RedenValueIsCode(r: RedenVerwijderingVervanging)
    ensures IsCode(r.Value())
  {
    RedenCodes0();
    RedenCodes1();
  }

  // Injectivity of codes and names, proved through ghost decoders rather than
  // by comparing every pair of literals. A decoder only looks at the length of
  // a string and at one or two of its characters: enough to tell the members'
  // own strings apart, which is all injectivity needs.

  ghost function CategoryOfValue(s: string): Option<InformatieCategorie> {
    if |s| == 10 && s[3] == '1' then Some(WETTEN_AVV) else
    if |s| == 10 && s[4] == '7' then Some(OVERIGE_BESLUITEN_AS) else
    if |s| == 10 && s[2] == 'f' then Some(ONTWERPEN_REGELGEVING) else
    if |s| == 10 && s[4] == '5' then Some(ORGANISATIE_WERKWIJZE) else
    if |s| == 10 && s[2] == 'e' then Some(BEREIKBAARHEID) else
    if |s| == 10 && s[2] == 'a' then Some(INGEKOMEN_STUKKEN) else
    if |s| == 10 && s[2] == '7' then Some(VERGADERSTUKKEN_SG) else
    if |s| == 10 && s[5] == '7' then Some(VERGADERSTUKKEN_DECENTRAAL) else
    if |s| == 10 && s[3] == '5' then Some(AGENDAS_BESLUITENLIJSTEN) else
    if |s| == 10 && s[5] == '2' then Some(ADVIEZEN) else
    if |s| == 10 && s[2] == '9' && s[4] == 'e' then Some(CONVENANTEN) else
    if |s| == 10 && s[5] == 'a' then Some(JAARPLANNEN_JAARVERSLAGEN) else
    if |s| == 10 && s[2] == '8' then Some(SUBSIDIES_ANDERS) else
    if |s| == 10 && s[4] == 'd' then Some(WOO_VERZOEKEN) else
    if |s| == 10 && s[7] == 'd' then Some(ONDERZOEKSRAPPORTEN) else
    if |s| == 10 && s[2] == '0' then Some(BESCHIKKINGEN) else
    if |s| == 10 && s[2] == 'b' then Some(KLACHTOORDELEN) else
    None
  }

  lemma CategoryOfValueInverts(c: InformatieCategorie)
    ensures CategoryOfValue(c.Value()) == Some(c)
  {
    match c case _ =>
  }

  /** Two InformatieCategorie members with the same value are the same member. */
  lemma CategoryValueInjective(a: InformatieCategorie, b: InformatieCategorie)
    ensures a.Value() == b.Value() ==> a == b
  {
    CategoryOfValueInverts(a);
    CategoryOfValueInverts(b);
  }

  /** `CategorieFromValue` finds exactly the member whose value is `s`. */
  lemma CategorieFromValueRoundTrip(c: InformatieCategorie, s: string)
    ensures CategorieFromValue(s) == Some(c) <==> c.Value() == s
  {
    assert c in AllCategories by { match c case _ => }
    if CategorieFromValue(s).Some? {
      CategoryValueInjective(CategorieFromValue(s).value, c);
    }
  }

  ghost function CategoryOfName(s: string): Option<InformatieCategorie> {
    if |s| == 10 then Some(WETTEN_AVV) else
    if |s| == 20 then Some(OVERIGE_BESLUITEN_AS) else
    if |s| == 21 && s[1] == 'N' then Some(ONTWERPEN_REGELGEVING) else
    if |s| == 21 && s[1] == 'R' then Some(ORGANISATIE_WERKWIJZE) else
    if |s| == 14 && s[0] == 'B' then Some(BEREIKBAARHEID) else
    if |s| == 17 then Some(INGEKOMEN_STUKKEN) else
    if |s| == 18 then Some(VERGADERSTUKKEN_SG) else
    if |s| == 26 then Some(VERGADERSTUKKEN_DECENTRAAL) else
    if |s| == 24 then Some(AGENDAS_BESLUITENLIJSTEN) else
    if |s| == 8 then Some(ADVIEZEN) else
    if |s| == 11 then Some(CONVENANTEN) else
    if |s| == 25 then Some(JAARPLANNEN_JAARVERSLAGEN) else
    if |s| == 16 then Some(SUBSIDIES_ANDERS) else
    if |s| == 13 && s[0] == 'W' then Some(WOO_VERZOEKEN) else
    if |s| == 19 then Some(ONDERZOEKSRAPPORTEN) else
    if |s| == 13 && s[0] == 'B' then Some(BESCHIKKINGEN) else
    if |s| == 14 && s[0] == 'K' then Some(KLACHTOORDELEN) else
    None
  }

  lemma CategoryOfNameInverts(c: InformatieCategorie)
    ensures CategoryOfName(c.Name()) == Some(c)
  {
    match c case _ =>
  }

  /** Two InformatieCategorie members with the same name are the same member. */
  lemma CategoryNameInjective(a: InformatieCategorie, b: InformatieCategorie)
    ensures a.Name() == b.Name() ==> a == b
  {
    CategoryOfNameInverts(a);
    CategoryOfNameInverts(b);
  }

  /** `CategorieFromName` finds exactly the member whose name is `s`. */
  lemma CategorieFromNameRoundTrip(c: InformatieCategorie, s: string)
    ensures CategorieFromName(s) == Some(c) <==> c.Name() == s
  {
    assert c in AllCategories by { match c case _ => }
    if CategorieFromName(s).Some? {
      CategoryNameInjective(CategorieFromName(s).value, c);
    }
  }

  ghost function DocumentSoortOfValue(s: string): Option<DocumentSoort> {
    if |s| == 7 && s[2] == 'b' then Some(BRIEF) else
    if |s| == 6 then Some(NOTA) else
    if |s| == 9 && s[2] == 'r' then Some(RAPPORT) else
    if |s| == 9 && s[2] == 'b' then Some(BESLUIT) else
    if |s| == 8 && s[3] == 'd' then Some(ADVIES) else
    if |s| == 9 && s[2] == 'n' then Some(NOTULEN) else
    if |s| == 8 && s[3] == 'g' then Some(AGENDA) else
    if |s| == 9 && s[2] == 'v' then Some(VERSLAG) else
    if |s| == 11 then Some(CONVENANT) else
    if |s| == 14 && s[2] == 'o' then Some(OVEREENKOMST) else
    if |s| == 14 && s[2] == 'b' then Some(BELEIDSREGEL) else
    if |s| == 12 && s[2] == 'c' then Some(CIRCULAIRE) else
    if |s| == 13 && s[2] == 'b' then Some(BESCHIKKING) else
    if |s| == 13 && s[2] == 'w' then Some(WOO_BESLUIT) else
    if |s| == 19 then Some(ONDERZOEKSRAPPORT) else
    if |s| == 13 && s[2] == 'j' then Some(JAARVERSLAG) else
    if |s| == 10 then Some(JAARPLAN) else
    if |s| == 15 then Some(KLACHTOORDEEL) else
    if |s| == 25 then Some(MEMORIE_VAN_TOELICHTING) else
    if |s| == 12 && s[2] == 'a' then Some(AMENDEMENT) else
    if |s| == 7 && s[2] == 'm' then Some(MOTIE) else
    None
  }

  lemma DocumentSoortOfValueInverts(d: DocumentSoort)
    ensures DocumentSoortOfValue(d.Value()) == Some(d)
  {
    match d case _ =>
  }

  /** Two DocumentSoort members with the same value are the same member. */
  lemma DocumentSoortValueInjective(a: DocumentSoort, b: DocumentSoort)
    ensures a.Value() == b.Value() ==> a == b
  {
    DocumentSoortOfValueInverts(a);
    DocumentSoortOfValueInverts(b);
  }

  /** `DocumentSoortFromValue` finds exactly the member whose value is `s`. */
  lemma DocumentSoortFromValueRoundTrip(d: DocumentSoort, s: string)
    ensures DocumentSoortFromValue(s) == Some(d) <==> d.Value() == s
  {
    assert d in AllDocumentSoorten by { match d case _ => }
    if DocumentSoortFromValue(s).Some? {
      DocumentSoortValueInjective(DocumentSoortFromValue(s).value, d);
    }
  }

  ghost function DocumentSoortOfName(s: string): Option<DocumentSoort> {
    if |s| == 5 && s[0] == 'B' then Some(BRIEF) else
    if |s| == 4 then Some(NOTA) else
    if |s| == 7 && s[0] == 'R' then Some(RAPPORT) else
    if |s| == 7 && s[0] == 'B' then Some(BESLUIT) else
    if |s| == 6 && s[1] == 'D' then Some(ADVIES) else
    if |s| == 7 && s[0] == 'N' then Some(NOTULEN) else
    if |s| == 6 && s[1] == 'G' then Some(AGENDA) else
    if |s| == 7 && s[0] == 'V' then Some(VERSLAG) else
    if |s| == 9 then Some(CONVENANT) else
    if |s| == 12 && s[0] == 'O' then Some(OVEREENKOMST) else
    if |s| == 12 && s[0] == 'B' then Some(BELEIDSREGEL) else
    if |s| == 10 && s[0] == 'C' then Some(CIRCULAIRE) else
    if |s| == 11 && s[0] == 'B' then Some(BESCHIKKING) else
    if |s| == 11 && s[0] == 'W' then Some(WOO_BESLUIT) else
    if |s| == 17 then Some(ONDERZOEKSRAPPORT) else
    if |s| == 11 && s[0] == 'J' then Some(JAARVERSLAG) else
    if |s| == 8 then Some(JAARPLAN) else
    if |s| == 13 then Some(KLACHTOORDEEL) else
    if |s| == 23 then Some(MEMORIE_VAN_TOELICHTING) else
    if |s| == 10 && s[0] == 'A' then Some(AMENDEMENT) else
    if |s| == 5 && s[0] == 'M' then Some(MOTIE) else
    None
  }

  lemma DocumentSoortOfNameInverts(d: DocumentSoort)
    ensures DocumentSoortOfName(d.Name()) == Some(d)
  {
    match d case _ =>
  }

  /** Two DocumentSoort members with the same name are the same member. */
  lemma DocumentSoortNameInjective(a: DocumentSoort, b: DocumentSoort)
    ensures a.Name() == b.Name() ==> a == b
  {
    DocumentSoortOfNameInverts(a);
    DocumentSoortOfNameInverts(b);
  }

  /** `DocumentSoortFromName` finds exactly the member whose name is `s`. */
  lemma DocumentSoortFromNameRoundTrip(d: DocumentSoort, s: string)
    ensures DocumentSoortFromName(s) == Some(d) <==> d.Name() == s
  {
    assert d in AllDocumentSoorten by { match d case _ => }
    if DocumentSoortFromName(s).Some? {
      DocumentSoortNameInjective(DocumentSoortFromName(s).value, d);
    }
  }

  ghost function SoortHandelingOfValue(s: string): Option<SoortHandeling> {
    if |s| == 11 && s[2] == 'o' then Some(ONTVANGST) else
    if |s| == 14 then Some(VASTSTELLING) else
    if |s| == 15 then Some(ONDERTEKENING) else
    if |s| == 12 && s[2] == 'p' then Some(PUBLICATIE) else
    if |s| == 18 then Some(INWERKINGTREDING) else
    if |s| == 11 && s[2] == 'w' then Some(WIJZIGING) else
    if |s| == 12 && s[2] == 'i' then Some(INTREKKING) else
    if |s| == 13 then Some(REGISTRATIE) else
    None
  }

  lemma SoortHandelingOfValueInverts(h: SoortHandeling)
    ensures SoortHandelingOfValue(h.Value()) == Some(h)
  {
    match h case _ =>
  }

  /** Two SoortHandeling members with the same value are the same member. */
  lemma SoortHandelingValueInjective(a: SoortHandeling, b: SoortHandeling)
    ensures a.Value() == b.Value() ==> a == b
  {
    SoortHandelingOfValueInverts(a);
    SoortHandelingOfValueInverts(b);
  }

  /** `SoortHandelingFromValue` finds exactly the member whose value is `s`. */
  lemma SoortHandelingFromValueRoundTrip(h: SoortHandeling, s: string)
    ensures SoortHandelingFromValue(s) == Some(h) <==> h.Value() == s
  {
    assert h in AllSoortHandelingen by { match h case _ => }
    if SoortHandelingFromValue(s).Some? {
      SoortHandelingValueInjective(SoortHandelingFromValue(s).value, h);
    }
  }

  ghost function TaalOfValue(s: string): Option<Taal> {
    if |s| == 4 && s[2] == 'n' then Some(NL) else
    if |s| == 4 && s[2] == 'e' then Some(EN) else
    if |s| == 4 && s[2] == 'd' then Some(DE) else
    if |s| == 4 && s[3] == 'r' then Some(FR) else
    if |s| == 4 && s[3] == 'y' then Some(FY) else
    if |s| == 5 then Some(PAP) else
    None
  }

  lemma TaalOfValueInverts(t: Taal)
    ensures TaalOfValue(t.Value()) == Some(t)
  {
    match t case _ =>
  }

  /** Two Taal members with the same value are the same member. */
  lemma TaalValueInjective(a: Taal, b: Taal)
    ensures a.Value() == b.Value() ==> a == b
  {
    TaalOfValueInverts(a);
    TaalOfValueInverts(b);
  }

  /** `TaalFromValue` finds exactly the member whose value is `s`. */
  lemma TaalFromValueRoundTrip(t: Taal, s: string)
    ensures TaalFromValue(s) == Some(t) <==> t.Value() == s
  {
    assert t in AllTalen by { match t case _ => }
    if TaalFromValue(s).Some? {
      TaalValueInjective(TaalFromValue(s).value, t);
    }
  }

  ghost function TaalOfName(s: string): Option<Taal> {
    if |s| == 2 && s[0] == 'N' then Some(NL) else
    if |s| == 2 && s[0] == 'E' then Some(EN) else
    if |s| == 2 && s[0] == 'D' then Some(DE) else
    if |s| == 2 && s[1] == 'R' then Some(FR) else
    if |s| == 2 && s[1] == 'Y' then Some(FY) else
    if |s| == 3 then Some(PAP) else
    None
  }

  lemma TaalOfNameInverts(t: Taal)
    ensures TaalOfName(t.Name()) == Some(t)
  {
    match t case _ =>
  }

  /** Two Taal members with the same name are the same member. */
  lemma TaalNameInjective(a: Taal, b: Taal)
    ensures a.Name() == b.Name() ==> a == b
  {
    TaalOfNameInverts(a);
    TaalOfNameInverts(b);
  }

  /** `TaalFromName` finds exactly the member whose name is `s`. */
  lemma TaalFromNameRoundTrip(t: Taal, s: string)
    ensures TaalFromName(s) == Some(t) <==> t.Name() == s
  {
    assert t in AllTalen by { match t case _ => }
    if TaalFromName(s).Some? {
      TaalNameInjective(TaalFromName(s).value, t);
    }
  }

  ghost function DocumentRelatieOfValue(s: string): Option<DocumentRelatie> {
    if |s| == 10 then Some(VERVANGT) else
    if |s| == 22 && s[8] == 'v' then Some(WORDT_VERVANGEN_DOOR) else
    if |s| == 9 && s[2] == 'w' then Some(WIJZIGT) else
    if |s| == 22 && s[8] == 'g' then Some(WORDT_GEWIJZIGD_DOOR) else
    if |s| == 9 && s[2] == 'i' then Some(INTREKT) else
    if |s| == 24 then Some(WORDT_INGETROKKEN_DOOR) else
    if |s| == 15 then Some(HEEFT_BIJLAGE) else
    if |s| == 16 then Some(IS_BIJLAGE_VAN) else
    None
  }

  lemma DocumentRelatieOfValueInverts(r: DocumentRelatie)
    ensures DocumentRelatieOfValue(r.Value()) == Some(r)
  {
    match r case _ =>
  }

  /** Two DocumentRelatie members with the same value are the same member. */
  lemma DocumentRelatieValueInjective(a: DocumentRelatie, b: DocumentRelatie)
    ensures a.Value() == b.Value() ==> a == b
  {
    DocumentRelatieOfValueInverts(a);
    DocumentRelatieOfValueInverts(b);
  }

  /** `DocumentRelatieFromValue` finds exactly the member whose value is `s`. */
  lemma DocumentRelatieFromValueRoundTrip(r: DocumentRelatie, s: string)
    ensures DocumentRelatieFromValue(s) == Some(r) <==> r.Value() == s
  {
    assert r in AllDocumentRelaties by { match r case _ => }
    if DocumentRelatieFromValue(s).Some? {
      DocumentRelatieValueInjective(DocumentRelatieFromValue(s).value, r);
    }
  }

  ghost function RedenOfValue(s: string): Option<RedenVerwijderingVervanging> {
    if |s| == 21 then Some(ONJUISTE_INFORMATIE) else
    if |s| == 29 then Some(PRIVACYGEVOELIGE_INFORMATIE) else
    if |s| == 17 then Some(TECHNISCHE_FOUT) else
    if |s| == 31 then Some(VERVANGING_DOOR_NIEUWE_VERSIE) else
    None
  }

  lemma RedenOfValueInverts(r: RedenVerwijderingVervanging)
    ensures RedenOfValue(r.Value()) == Some(r)
  {
    match r case _ =>
  }

  /** Two RedenVerwijderingVervanging members with the same value are the same member. */
  lemma RedenValueInjective(a: RedenVerwijderingVervanging, b: RedenVerwijderingVervanging)
    ensures a.Value() == b.Value() ==> a == b
  {
    RedenOfValueInverts(a);
    RedenOfValueInverts(b);
  }

  /** `RedenFromValue` finds exactly the member whose value is `s`. */
  lemma RedenFromValueRoundTrip(r: RedenVerwijderingVervanging, s: string)
    ensures RedenFromValue(s) == Some(r) <==> r.Value() == s
  {
    assert r in AllRedenen by { match r case _ => }
    if RedenFromValue(s).Some? {
      RedenValueInjective(RedenFromValue(s).value, r);
    }
  }

  /**
   * The label tables of DocumentSoort, SoortHandeling and Taal cover every member,
   * so the fallback branch of `Label` is never taken.
   */
  lemma LabelTablesComplete(d: DocumentSoort, h: SoortHandeling, t: Taal)
    ensures d in DocumentSoortLabels && h in SoortHandelingLabels && t in TaalLabels
  {
    match d case _ =>
    match h case _ =>
    match t case _ =>
  }

  /**
   * A relation label is the member name in lower case with spaces for
   * underscores: the name can be read back from the label.
   */
  lemma DocumentRelatieLabelFromName(r: DocumentRelatie)
    ensures Text.ReplaceChar(Text.Upper(r.Label()), ' ', '_') == r.Name()
    ensures |r.Label()| == |r.Name()| && '_' !in r.Label()
  {
    DocumentRelatieNameIsMemberName(r);
    Text.HumanizeRoundTrip(r.Name());
  }

  lemma DocumentRelatieNameIsMemberName(r: DocumentRelatie)
    ensures Text.IsMemberName(r.Name())
  {
    DocumentRelatieNames0();
    DocumentRelatieNames1();
  }

  lemma DocumentRelatieNames0()
    ensures Text.IsMemberName(VERVANGT.Name())
    ensures Text.IsMemberName(WORDT_VERVANGEN_DOOR.Name())
    ensures Text.IsMemberName(WIJZIGT.Name())
    ensures Text.IsMemberName(WORDT_GEWIJZIGD_DOOR.Name())
  {
  }

  lemma DocumentRelatieNames1()
    ensures Text.IsMemberName(INTREKT.Name())
    ensures Text.IsMemberName(WORDT_INGETROKKEN_DOOR.Name())
    ensures Text.IsMemberName(HEEFT_BIJLAGE.Name())
    ensures Text.IsMemberName(IS_BIJLAGE_VAN.Name())
  {
  }

  /** Removal-reason labels are derived from the member name in the same way. */
  lemma RedenLabelFromName(r: RedenVerwijderingVervanging)
    ensures Text.ReplaceChar(Text.Upper(r.Label()), ' ', '_') == r.Name()
    ensures |r.Label()| == |r.Name()| && '_' !in r.Label()
  {
    RedenNameIsMemberName(r);
    Text.HumanizeRoundTrip(r.Name());
  }

  lemma RedenNameIsMemberName(r: RedenVerwijderingVervanging)
    ensures Text.IsMemberName(r.Name())
  {
    RedenNames0();
    RedenNames1();
  }

  lemma RedenNames0()
    ensures Text.IsMemberName(ONJUISTE_INFORMATIE.Name())
    ensures Text.IsMemberName(PRIVACYGEVOELIGE_INFORMATIE.Name())
  {
  }

  lemma RedenNames1()
    ensures Text.IsMemberName(TECHNISCHE_FOUT.Name())
    ensures Text.IsMemberName(VERVANGING_DOOR_NIEUWE_VERSIE.Name())
  {
  }
}

=== FILE: instruction_loader.dfy ===
/**
 * Rendering of the LLM instructions: placeholders `{{key}}` filled from a
 * context, and the schema configuration (a parsed TOML document) written out
 * as a Markdown prompt, line by line.
 */
module InstructionLoader {
  import opened Wrappers
  import opened Text

  // ---------------------------------------------------------------------------
  // Placeholders
  // ---------------------------------------------------------------------------

  /** The placeholder a context key stands for. */
  function Placeholder(key: string): (p: string)
    ensures |p| == |key| + 4 && p[..2] == "{{" && p[|p| - 2..] == "}}"
  {
    "{{" + key + "}}"
  }

  /** Each pair in turn replaces every occurrence of its placeholder in the text the previous pairs left. */
  function SubstituteAll(text: string, context: seq<(string, string)>): string
    decreases |context|
  {
    if context == [] then text
    else SubstituteAll(ReplaceAll(text, Placeholder(context[0].0), context[0].1), context[1..])
  }

  /** `format_instruction_with_context`: no context leaves the instruction as it is. */
  method FormatInstructionWithContext(instruction: string, context: Option<seq<(string, string)>>) returns (r: string)
    ensures context.None? ==> r == instruction
    ensures context.Some? ==> r == SubstituteAll(instruction, context.value)
  {
    if context.None? {
      return instruction;
    }
    var pairs := context.value;
    r := instruction;
    var i := 0;
    while i < |pairs|
      invariant 0 <= i <= |pairs|
      invariant SubstituteAll(r, pairs[i..]) == SubstituteAll(instruction, pairs)
    {
      assert pairs[i..][1..] == pairs[i + 1..];
      r := ReplaceAll(r, Placeholder(pairs[i].0), pairs[i].1);
      i := i + 1;
    }
  }

  /** An empty context changes nothing. */
  lemma EmptyContextIsIdentity(text: string)
    ensures SubstituteAll(text, []) == text
  {
  }

  /** Substituting a context in two parts is substituting the first part, then the second on its result. */
  lemma {:induction false} SubstituteAllSplits(text: string, first: seq<(string, string)>, second: seq<(string, string)>)
    ensures SubstituteAll(text, first + second) == SubstituteAll(SubstituteAll(text, first), second)
    decreases |first|
  {
    if first != [] {
      assert (first + second)[0] == first[0];
      assert (first + second)[1..] == first[1..] + second;
      SubstituteAllSplits(ReplaceAll(text, Placeholder(first[0].0), first[0].1), first[1..], second);
    } else {
      assert first + second == second;
    }
  }

  /** A later pair sees the text produced by an earlier one: a value may itself contain a later placeholder. */
  lemma LaterSeesEarlier(text: string, k1: string, v1: string, k2: string, v2: string)
    ensures SubstituteAll(text, [(k1, v1), (k2, v2)]) ==
            ReplaceAll(ReplaceAll(text, Placeholder(k1), v1), Placeholder(k2), v2)
  {
    var r1 := ReplaceAll(text, Placeholder(k1), v1);
    var r2 := ReplaceAll(r1, Placeholder(k2), v2);
    assert [(k1, v1), (k2, v2)][1..] == [(k2, v2)];
    assert [(k2, v2)][1..] == [];
    assert SubstituteAll(r2, []) == r2;
    assert SubstituteAll(r1, [(k2, v2)]) == r2;
  }

  /** Replacing a non-empty pattern that does not occur changes nothing. */
  lemma {:induction false} ReplaceAllAbsent(s: string, pat: string, rep: string)
    requires |pat| > 0 && !Contains(s, pat)
    ensures ReplaceAll(s, pat, rep) == s
    decreases |s|
  {
    if |s| >= |pat| {
      assert !OccursAt(s, 0, pat);
      assert !Contains(s[1..], pat) by {
        forall k | 0 <= k <= |s[1..]|
          ensures !OccursAt(s[1..], k, pat)
        {
          if OccursAt(s[1..], k, pat) {
            assert s[1 + k..1 + k + |pat|] == s[1..][k..k + |pat|];
            assert OccursAt(s, 1 + k, pat);
          }
        }
      }
      ReplaceAllAbsent(s[1..], pat, rep);
      assert s == [s[0]] + s[1..];
    }
  }

  /** A context none of whose placeholders occurs leaves the text unchanged. */
  lemma {:induction false} AbsentPlaceholdersKeepText(text: string, context: seq<(string, string)>)
    requires forall i :: 0 <= i < |context| ==> !Contains(text, Placeholder(context[i].0))
    ensures SubstituteAll(text, context) == text
    decreases |context|
  {
    if context != [] {
      ReplaceAllAbsent(text, Placeholder(context[0].0), context[0].1);
      assert forall i :: 0 <= i < |context[1..]| ==> context[1..][i] == context[i + 1];
      AbsentPlaceholdersKeepText(text, context[1..]);
    }
  }

  // ---------------------------------------------------------------------------
  // TOML values
  // ---------------------------------------------------------------------------

  /**
   * A parsed TOML value: text, integers, booleans, tables (with their keys
   * in order), arrays, and any other value (a float or a date) by the text
   * Python prints for it and its truth value.
   */
  datatype Toml =
    | TStr(s: string)
    | TInt(i: int)
    | TBool(b: bool)
    | TTable(entries: seq<Entry>)
    | TArray(items: seq<Toml>)
    | TOther(text: string, truthy: bool)

  /** A key of a table and its value. */
  datatype Entry = Entry(key: string, value: Toml)

  /** Python truthiness of a TOML value. */
  predicate Truthy(v: Toml) {
    match v
    case TStr(s) => s != []
    case TInt(i) => i != 0
    case TBool(b) => b
    case TTable(es) => es != []
    case TArray(xs) => xs != []
    case TOther(_, t) => t
  }

  /** `table.get(key, default)` on the entries of a table. */
  function Lookup(entries: seq<Entry>, key: string, default: Toml): Toml {
    if entries == [] then default
    else if entries[0].key == key then entries[0].value
    else Lookup(entries[1..], key, default)
  }

  /** A missing key gives the default. */
  lemma {:induction false} LookupMissing(entries: seq<Entry>, key: string, default: Toml)
    requires !HasKey(entries, key)
    ensures Lookup(entries, key, default) == default
  {
    if entries != [] {
      LookupMissing(entries[1..], key, default);
    }
  }

  /** A key that is present gives the value of its first entry. */
  lemma {:induction false} LookupFindsFirst(entries: seq<Entry>, key: string, default: Toml)
    requires HasKey(entries, key)
    ensures exists i :: 0 <= i < |entries| && entries[i] == Entry(key, Lookup(entries, key, default)) &&
                        forall j :: 0 <= j < i ==> entries[j].key != key
  {
    if entries[0].key != key {
      var k :| 0 <= k < |entries| && entries[k].key == key;
      assert entries[1..][k - 1].key == key;
      LookupFindsFirst(entries[1..], key, default);
      var i :| 0 <= i < |entries[1..]| && entries[1..][i] == Entry(key, Lookup(entries[1..], key, default)) &&
               forall j :: 0 <= j < i ==> entries[1..][j].key != key;
      assert entries[i + 1] == Entry(key, Lookup(entries, key, default));
      assert forall j :: 0 <= j < i + 1 ==> entries[j].key != key by {
        forall j | 0 <= j < i + 1
          ensures entries[j].key != key
        {
          if j > 0 {
            assert entries[j] == entries[1..][j - 1];
          }
        }
      }
    } else {
      assert entries[0] == Entry(key, Lookup(entries, key, default));
    }
  }

  predicate HasKey(entries: seq<Entry>, key: string) {
    exists i :: 0 <= i < |entries| && entries[i].key == key
  }

  /**
   * Python's `repr` of a value inside a container: text in single quotes,
   * containers written out element by element.
   */
  function Repr(v: Toml): string {
    match v
    case TStr(s) => "'" + s + "'"
    case TInt(i) => IntToString(i)
    case TBool(b) => if b then "True" else "False"
    case TTable(es) => "{" + Join(ReprEntries(es), ", ") + "}"
    case TArray(xs) => "[" + Join(ReprItems(xs), ", ") + "]"
    case TOther(text, _) => text
  }

  function ReprEntries(es: seq<Entry>): seq<string> {
    if es == [] then []
    else
      var e := es[0];
      assert e in es;
      ["'" + e.key + "': " + Repr(e.value)] + ReprEntries(es[1..])
  }

  function ReprItems(xs: seq<Toml>): seq<string> {
    if xs == [] then [] else [Repr(xs[0])] + ReprItems(xs[1..])
  }

  /** How a value is written by an f-string: text as it is, anything else as Python prints it. */
  function Render(v: Toml): (r: string)
    ensures v.TStr? ==> r == v.s
    ensures v.TInt? ==> r == IntToString(v.i)
  {
    if v.TStr? then v.s else Repr(v)
  }

  // ---------------------------------------------------------------------------
  // The configuration as a prompt
  // ---------------------------------------------------------------------------

  const DefaultSchemaName: string := "DIWOO"
  const DefaultSchemaVersion: string := "0.9.8"
  const DefaultDateFormat: string := "YYYY-MM-DD"
  const DefaultMinCategories: int := 1

  const CategoryHeading: string := "## Information Categories (Article 3.3 Woo)"
  const CategoryTableHeader: string := "| Code | Resource URI | Label | Use When |"
  const CategoryTableRule: string := "|------|-------------|-------|----------|"

  /** The table under `key` (an empty one by default); a value that is not a table has no `get`. */
  function TableAt(config: seq<Entry>, key: string): (r: Result<seq<Entry>, string>)
    ensures !HasKey(config, key) ==> r == Success([])
    ensures r.Success? <==> Lookup(config, key, TTable([])).TTable?
  {
    var v := Lookup(config, key, TTable([]));
    assert !HasKey(config, key) ==> v == TTable([]) by {
      if !HasKey(config, key) {
        LookupMissing(config, key, TTable([]));
      }
    }
    if v.TTable? then Success(v.entries) else Failure(key + " is not a table")
  }

  /** The title line: the schema's name and version, by default DIWOO and 0.9.8. */
  function TitleLine(meta: seq<Entry>): string {
    "# " + Render(Lookup(meta, "name", TStr(DefaultSchemaName))) +
    " Schema (v" + Render(Lookup(meta, "version", TStr(DefaultSchemaVersion))) + ")"
  }

  /** The lines that are always there: title, description and the output rules. */
  function HeadLines(meta: seq<Entry>, rules: seq<Entry>): (ls: seq<string>)
    ensures |ls| == 6 && ls[0] == TitleLine(meta) && ls[2] == "## Output Rules"
    ensures ls[3] == "- " + Render(Lookup(rules, "response_format", TStr("")))
    ensures ls[4] == "- Date format: " + Render(Lookup(rules, "date_format", TStr(DefaultDateFormat)))
    ensures ls[5] == "- Minimum categories: " + Render(Lookup(rules, "min_categories", TInt(DefaultMinCategories))) + "\n"
  {
    [TitleLine(meta),
     "\n" + Render(Lookup(meta, "description", TStr(""))) + "\n",
     "## Output Rules",
     "- " + Render(Lookup(rules, "response_format", TStr(""))),
     "- Date format: " + Render(Lookup(rules, "date_format", TStr(DefaultDateFormat))),
     "- Minimum categories: " + Render(Lookup(rules, "min_categories", TInt(DefaultMinCategories))) + "\n"]
  }

  /** Without the keys, the title names DIWOO 0.9.8, dates are YYYY-MM-DD and at least one category is asked for. */
  lemma HeadLineDefaults(meta: seq<Entry>, rules: seq<Entry>)
    requires !HasKey(meta, "name") && !HasKey(meta, "version")
    requires !HasKey(rules, "date_format") && !HasKey(rules, "min_categories")
    ensures HeadLines(meta, rules)[0] == "# " + DefaultSchemaName + " Schema (v" + DefaultSchemaVersion + ")"
    ensures HeadLines(meta, rules)[4] == "- Date format: " + DefaultDateFormat
    ensures HeadLines(meta, rules)[5] == "- Minimum categories: 1\n"
  {
    LookupMissing(meta, "name", TStr(DefaultSchemaName));
    LookupMissing(meta, "version", TStr(DefaultSchemaVersion));
    LookupMissing(rules, "date_format", TStr(DefaultDateFormat));
    LookupMissing(rules, "min_categories", TInt(DefaultMinCategories));
    assert IntToString(DefaultMinCategories) == "1";
  }

  /** The kinds of listed section, each with its heading lines and its line per entry. */
  datatype Section = Extraction | Categories | DocumentTypes | Handlings | Relations {
    function Key(): string {
      match this
      case Extraction => "extraction"
      case Categories => "categories"
      case DocumentTypes => "documentsoorten"
      case Handlings => "handelingen"
      case Relations => "relaties"
    }

    function Heading(): (ls: seq<string>)
      ensures |ls| >= 1
    {
      match this
      case Extraction => ["## Extraction Instructions"]
      case Categories => [CategoryHeading, CategoryTableHeader, CategoryTableRule]
      case DocumentTypes => ["## Document Types"]
      case Handlings => ["## Handling Types"]
      case Relations => ["## Document Relations"]
    }

    /** The line of one entry; an entry of a listing that is not a table has no `get`. */
    function Line(entry: Entry): (r: Result<string, string>)
      ensures this == Extraction ==> r == Success(InstructionLine(entry.key, entry.value))
      ensures this != Extraction ==> (r.Success? <==> entry.value.TTable?)
      ensures this == Categories && entry.value.TTable? ==> r == Success(CategoryRow(entry.key, entry.value.entries))
      ensures this != Extraction && this != Categories && entry.value.TTable? ==>
                r == Success(ResourceLine(entry.key, entry.value.entries))
    {
      if this == Extraction then Success(InstructionLine(entry.key, entry.value))
      else if !entry.value.TTable? then Failure(entry.key + " is not a table")
      else if this == Categories then Success(CategoryRow(entry.key, entry.value.entries))
      else Success(ResourceLine(entry.key, entry.value.entries))
    }
  }

  /** An extraction instruction: the field name in bold, then the instruction. */
  function InstructionLine(field: string, instruction: Toml): string {
    "- **" + field + "**: " + Render(instruction)
  }

  /** A row of the category table: code, resource URI as code, label and when to use it. */
  function CategoryRow(code: string, cat: seq<Entry>): string {
    "| " + code + " | `" + Render(Lookup(cat, "resource", TStr(""))) + "` | " +
    Render(Lookup(cat, "label", TStr(""))) + " | " +
    Render(Lookup(cat, "use_when", TStr(""))) + " |"
  }

  /** A document type, handling or relation: code, resource URI as code, and label. */
  function ResourceLine(code: string, item: seq<Entry>): string {
    "- " + code + ": `" + Render(Lookup(item, "resource", TStr(""))) + "` - " +
    Render(Lookup(item, "label", TStr("")))
  }

  const Sections: seq<Section> := [Extraction, Categories, DocumentTypes, Handlings, Relations]

  /** One line per entry, in order, or the failure of the first entry that has none. */
  function EntryLines(section: Section, entries: seq<Entry>): (r: Result<seq<string>, string>)
    ensures r.Success? ==> |r.value| == |entries|
    ensures r.Success? ==> forall i :: 0 <= i < |entries| ==> section.Line(entries[i]) == Success(r.value[i])
    decreases |entries|
  {
    if entries == [] then Success([])
    else
      var init := entries[..|entries| - 1];
      match EntryLines(section, init)
      case Failure(e) => Failure(e)
      case Success(ls) =>
        match section.Line(entries[|entries| - 1])
        case Failure(e) => Failure(e)
        case Success(l) =>
          assert forall i :: 0 <= i < |init| ==> init[i] == entries[i];
          Success(ls + [l])
  }

  /** The lines of the entries render exactly when every entry has a line. */
  lemma {:induction false} EntryLinesSucceed(section: Section, entries: seq<Entry>)
    ensures EntryLines(section, entries).Success? <==> forall i :: 0 <= i < |entries| ==> section.Line(entries[i]).Success?
    decreases |entries|
  {
    if entries != [] {
      var init := entries[..|entries| - 1];
      EntryLinesSucceed(section, init);
      assert forall i :: 0 <= i < |init| ==> init[i] == entries[i];
    }
  }

  /**
   * A listed section: nothing when its value is falsy; otherwise the value
   * must be a table, and the section is its heading, one line per entry and
   * an empty line.
   */
  function SectionLines(section: Section, config: seq<Entry>): Result<seq<string>, string> {
    var v := Lookup(config, section.Key(), TTable([]));
    if !Truthy(v) then Success([])
    else if !v.TTable? then Failure(section.Key() + " is not a table")
    else
      match EntryLines(section, v.entries)
      case Failure(e) => Failure(e)
      case Success(ls) => Success(section.Heading() + ls + [""])
  }

  /**
   * The XML example: present only when `template` is truthy and holds "xml",
   * fenced as an XML code block around the stripped text. Looking for "xml"
   * in text or in a list and then indexing it by "xml" fails, and so does
   * looking in a value that holds nothing.
   */
  function TemplateLines(config: seq<Entry>): (r: Result<seq<string>, string>)
    ensures r.Success? && r.value != [] ==>
      var t := Lookup(config, "template", TTable([]));
      t.TTable? && HasKey(t.entries, "xml") && Lookup(t.entries, "xml", TStr("")).TStr? &&
      r.value == ["## XML Template Example", "```xml", Strip(Lookup(t.entries, "xml", TStr("")).s), "```"]
    ensures !Truthy(Lookup(config, "template", TTable([]))) ==> r == Success([])
    ensures var t := Lookup(config, "template", TTable([]));
      t.TTable? && HasKey(t.entries, "xml") ==> (r.Success? <==> Lookup(t.entries, "xml", TStr("")).TStr?)
  {
    var t := Lookup(config, "template", TTable([]));
    if !Truthy(t) then Success([])
    else
      match t
      case TTable(es) =>
        if !HasKey(es, "xml") then Success([])
        else
          var x := Lookup(es, "xml", TStr(""));
          if x.TStr? then Success(["## XML Template Example", "```xml", Strip(x.s), "```"])
          else Failure("template.xml has no strip")
      case TStr(s) => if Contains(s, "xml") then Failure("string indices must be integers") else Success([])
      case TArray(xs) => if TStr("xml") in xs then Failure("list indices must be integers") else Success([])
      case _ => Failure("template is not iterable")
  }

  /** The lines of the first `n` listed sections, in their fixed order. */
  function SectionsUpTo(n: nat, config: seq<Entry>): Result<seq<string>, string>
    requires n <= |Sections|
  {
    if n == 0 then Success([])
    else
      match SectionsUpTo(n - 1, config)
      case Failure(e) => Failure(e)
      case Success(done) =>
        match SectionLines(Sections[n - 1], config)
        case Failure(e) => Failure(e)
        case Success(ls) => Success(done + ls)
  }

  /** Every line of the prompt, in order, or the error that stops the rendering. */
  function PromptLines(config: seq<Entry>): Result<seq<string>, string> {
    match TableAt(config, "metadata")
    case Failure(e) => Failure(e)
    case Success(meta) =>
      match TableAt(config, "rules")
      case Failure(e) => Failure(e)
      case Success(rules) =>
        match SectionsUpTo(|Sections|, config)
        case Failure(e) => Failure(e)
        case Success(body) =>
          match TemplateLines(config)
          case Failure(e) => Failure(e)
          case Success(tail) => Success(HeadLines(meta, rules) + body + tail)
  }

  /** The line of each entry appended to `lines`, in order, stopping at the first entry that has none. */
  method AppendEntries(lines: seq<string>, section: Section, entries: seq<Entry>) returns (r: Result<seq<string>, string>)
    ensures EntryLines(section, entries).Failure? ==> r == Failure(EntryLines(section, entries).error)
    ensures EntryLines(section, entries).Success? ==> r == Success(lines + EntryLines(section, entries).value)
  {
    var out := lines;
    var i := 0;
    while i < |entries|
      invariant 0 <= i <= |entries|
      invariant EntryLines(section, entries[..i]).Success?
      invariant out == lines + EntryLines(section, entries[..i]).value
    {
      assert entries[..i + 1][..i] == entries[..i];
      var line := section.Line(entries[i]);
      if line.Failure? {
        EntryLinesFailureSticks(section, entries, i + 1);
        return Failure(line.error);
      }
      out := out + [line.value];
      i := i + 1;
    }
    assert entries[..i] == entries;
    r := Success(out);
  }

  /** The lines of one listed section appended to `lines`. */
  method AppendSection(lines: seq<string>, section: Section, config: seq<Entry>) returns (r: Result<seq<string>, string>)
    ensures SectionLines(section, config).Failure? ==> r == Failure(SectionLines(section, config).error)
    ensures SectionLines(section, config).Success? ==> r == Success(lines + SectionLines(section, config).value)
  {
    var v := Lookup(config, section.Key(), TTable([]));
    if !Truthy(v) {
      assert lines + [] == lines;
      return Success(lines);
    }
    if !v.TTable? {
      return Failure(section.Key() + " is not a table");
    }
    var withEntries := AppendEntries(lines + section.Heading(), section, v.entries);
    if withEntries.Failure? {
      return withEntries;
    }
    assert withEntries.value + [""] == lines + (section.Heading() + EntryLines(section, v.entries).value + [""]);
    r := Success(withEntries.value + [""]);
  }

  /** Once the lines of a prefix of the entries fail, the lines of all of them fail the same way. */
  lemma {:induction false} EntryLinesFailureSticks(section: Section, entries: seq<Entry>, n: nat)
    requires n <= |entries| && EntryLines(section, entries[..n]).Failure?
    ensures EntryLines(section, entries) == EntryLines(section, entries[..n])
    decreases |entries| - n
  {
    if n < |entries| {
      assert entries[..n + 1][..n] == entries[..n];
      EntryLinesFailureSticks(section, entries, n + 1);
    } else {
      assert entries[..n] == entries;
    }
  }

  lemma AppendAssociates<T>(a: seq<T>, b: seq<T>, c: seq<T>)
    ensures (a + b) + c == a + (b + c)
  {
  }

  /** An element of the end of a sequence is an element of the sequence. */
  lemma InEnd<T>(front: seq<T>, part: seq<T>, x: T)
    requires x in part
    ensures x in front + part
  {
    var i :| 0 <= i < |part| && part[i] == x;
    assert (front + part)[|front| + i] == x;
  }

  /** An element of a prefix of a sequence is an element of the sequence. */
  lemma InPrefix<T>(part: seq<T>, whole: seq<T>, x: T)
    requires x in part && part <= whole
    ensures x in whole
  {
    var i :| 0 <= i < |part| && part[i] == x;
    assert whole[i] == x;
  }

  /** The first `n + 1` sections are the first `n` followed by the next one. */
  lemma SectionsStep(n: nat, config: seq<Entry>)
    requires n < |Sections| && SectionsUpTo(n, config).Success?
    ensures SectionLines(Sections[n], config).Failure? ==>
              SectionsUpTo(n + 1, config) == Failure(SectionLines(Sections[n], config).error)
    ensures SectionLines(Sections[n], config).Success? ==>
              SectionsUpTo(n + 1, config) == Success(SectionsUpTo(n, config).value + SectionLines(Sections[n], config).value)
  {
  }

  /** Once the first `n` sections fail, all of them fail the same way. */
  lemma {:induction false} SectionsFailureSticks(n: nat, config: seq<Entry>)
    requires n <= |Sections| && SectionsUpTo(n, config).Failure?
    ensures SectionsUpTo(|Sections|, config) == SectionsUpTo(n, config)
    decreases |Sections| - n
  {
    if n < |Sections| {
      SectionsFailureSticks(n + 1, config);
    }
  }

  /** The lines of the first `n` sections begin the lines of the first `m`. */
  lemma {:induction false} SectionsGrow(n: nat, m: nat, config: seq<Entry>)
    requires n <= m <= |Sections| && SectionsUpTo(m, config).Success?
    ensures SectionsUpTo(n, config).Success? && SectionsUpTo(n, config).value <= SectionsUpTo(m, config).value
    decreases m - n
  {
    if n < m {
      SectionsGrow(n, m - 1, config);
    }
  }

  /** `_format_toml_config_to_prompt`: the lines, built up in order, joined by line breaks. */
  method FormatTomlConfigToPrompt(config: seq<Entry>) returns (r: Result<string, string>)
    ensures PromptLines(config).Failure? ==> r == Failure(PromptLines(config).error)
    ensures PromptLines(config).Success? ==> r == Success(Join(PromptLines(config).value, "\n"))
  {
    var meta := TableAt(config, "metadata");
    if meta.Failure? {
      return Failure(meta.error);
    }
    var rules := TableAt(config, "rules");
    if rules.Failure? {
      return Failure(rules.error);
    }
    var head := HeadLines(meta.value, rules.value);
    var lines := head;
    var n := 0;
    while n < |Sections|
      invariant 0 <= n <= |Sections|
      invariant SectionsUpTo(n, config).Success?
      invariant lines == head + SectionsUpTo(n, config).value
    {
      var next := AppendSection(lines, Sections[n], config);
      if next.Failure? {
        SectionsStep(n, config);
        SectionsFailureSticks(n + 1, config);
        return Failure(next.error);
      }
      SectionsStep(n, config);
      ghost var done := SectionsUpTo(n, config).value;
      ghost var added := SectionLines(Sections[n], config).value;
      assert next.value == lines + added;
      AppendAssociates(head, done, added);
      lines := next.value;
      n := n + 1;
    }
    var tail := TemplateLines(config);
    if tail.Failure? {
      return Failure(tail.error);
    }
    r := Success(Join(lines + tail.value, "\n"));
  }

  /** An empty configuration gives exactly the six default head lines. */
  lemma EmptyConfigPrompt()
    ensures PromptLines([]) == Success(HeadLines([], []))
  {
    assert TableAt([], "metadata") == Success([]) && TableAt([], "rules") == Success([]);
    assert TemplateLines([]) == Success([]);
    NoSectionLines(|Sections|);
    assert HeadLines([], []) + [] + [] == HeadLines([], []);
  }

  /** Without any keys, no listed section has a line. */
  lemma {:induction false} NoSectionLines(n: nat)
    requires n <= |Sections|
    ensures SectionsUpTo(n, []) == Success([])
  {
    if n > 0 {
      NoSectionLines(n - 1);
      assert SectionLines(Sections[n - 1], []) == Success([]);
      var none: seq<string> := [];
      assert none + none == none;
    }
  }

  /** A rendered prompt begins with the head lines and ends with the XML example when there is one. */
  lemma PromptFrame(config: seq<Entry>)
    requires PromptLines(config).Success?
    ensures TableAt(config, "metadata").Success? && TableAt(config, "rules").Success?
    ensures PromptLines(config).value[..6] ==
            HeadLines(TableAt(config, "metadata").value, TableAt(config, "rules").value)
    ensures TemplateLines(config).Success?
    ensures var ls := PromptLines(config).value;
      |ls| >= 6 + |TemplateLines(config).value| &&
      ls[|ls| - |TemplateLines(config).value|..] == TemplateLines(config).value
  {
  }

  /** Each entry of a truthy listed section has its line among the section's lines. */
  lemma SectionHasEntryLine(section: Section, config: seq<Entry>, i: nat)
    requires SectionLines(section, config).Success?
    requires var v := Lookup(config, section.Key(), TTable([]));
      Truthy(v) && v.TTable? && i < |v.entries|
    ensures var entry := Lookup(config, section.Key(), TTable([])).entries[i];
      section.Line(entry).Success? && section.Line(entry).value in SectionLines(section, config).value
  {
    var v := Lookup(config, section.Key(), TTable([]));
    var entryLines := EntryLines(section, v.entries).value;
    var ls := SectionLines(section, config).value;
    var h := section.Heading();
    assert ls == h + entryLines + [""];
    assert section.Line(v.entries[i]) == Success(entryLines[i]);
    assert ls[|h| + i] == entryLines[i];
  }

  /** When all the sections render, each one does. */
  lemma SectionRenders(config: seq<Entry>, n: nat)
    requires n < |Sections| && SectionsUpTo(|Sections|, config).Success?
    ensures SectionLines(Sections[n], config).Success?
  {
    SectionsGrow(n + 1, |Sections|, config);
    SectionsGrow(n, |Sections|, config);
    SectionsStep(n, config);
  }

  /** Every line of a section is a line of all the sections. */
  lemma SectionLinesInBody(config: seq<Entry>, n: nat, line: string)
    requires n < |Sections| && SectionsUpTo(|Sections|, config).Success?
    requires SectionLines(Sections[n], config).Success? && line in SectionLines(Sections[n], config).value
    ensures line in SectionsUpTo(|Sections|, config).value
  {
    SectionsGrow(n + 1, |Sections|, config);
    SectionsStep(n, config);
    var done := SectionsUpTo(n, config).value;
    var added := SectionLines(Sections[n], config).value;
    InEnd(done, added, line);
    InPrefix(done + added, SectionsUpTo(|Sections|, config).value, line);
  }

  /** Each entry of a truthy listed section has its line in the prompt. */
  lemma PromptListsEntries(config: seq<Entry>, n: nat, i: nat)
    requires PromptLines(config).Success? && n < |Sections|
    requires var v := Lookup(config, Sections[n].Key(), TTable([]));
      Truthy(v) && v.TTable? && i < |v.entries|
    ensures var entry := Lookup(config, Sections[n].Key(), TTable([])).entries[i];
      Sections[n].Line(entry).Success? && Sections[n].Line(entry).value in PromptLines(config).value
  {
    var entry := Lookup(config, Sections[n].Key(), TTable([])).entries[i];
    var all := SectionsUpTo(|Sections|, config);
    assert all.Success?;
    SectionRenders(config, n);
    SectionHasEntryLine(Sections[n], config, i);
    SectionLinesInBody(config, n, Sections[n].Line(entry).value);
    var meta := TableAt(config, "metadata").value;
    var rules := TableAt(config, "rules").value;
    var tail := TemplateLines(config).value;
    var line := Sections[n].Line(entry).value;
    InEnd(HeadLines(meta, rules), all.value, line);
    InPrefix(HeadLines(meta, rules) + all.value, HeadLines(meta, rules) + all.value + tail, line);
  }

  /** An entry that is not a table in a truthy table of categories, document types, handlings or relations stops the rendering. */
  lemma PromptRejectsBadEntry(config: seq<Entry>, n: nat, i: nat)
    requires 1 <= n < |Sections|
    requires var v := Lookup(config, Sections[n].Key(), TTable([]));
      Truthy(v) && v.TTable? && i < |v.entries| && !v.entries[i].value.TTable?
    ensures PromptLines(config).Failure?
  {
    var v := Lookup(config, Sections[n].Key(), TTable([]));
    assert !Sections[n].Line(v.entries[i]).Success?;
    EntryLinesSucceed(Sections[n], v.entries);
    assert SectionsUpTo(n + 1, config).Failure?;
    SectionsFailureSticks(n + 1, config);
  }
}

=== FILE: json.dfy ===
/**
 * JSON values as Python's `json.loads` produces them (dicts keep insertion order),
 * with the handful of Python operations the generator applies to them: `dict.get`,
 * truthiness, iteration and the `isinstance(x, (int, float))` test.
 */
module Json {
  import opened Wrappers

  datatype Json =
    | JNull
    | JBool(b: bool)
    | JNumber(n: real)
    | JString(s: string)
    | JArray(items: seq<Json>)
    | JObject(members: seq<(string, Json)>)

  /** The keys of a dict, in insertion order. */
  function Keys(members: seq<(string, Json)>): (ks: seq<string>)
    ensures |ks| == |members|
    ensures forall i :: 0 <= i < |members| ==> ks[i] == members[i].0
  {
    if members == [] then [] else [members[0].0] + Keys(members[1..])
  }

  /** Python `d.get(key)`: the value stored under `key`, if any. */
  function Get(members: seq<(string, Json)>, key: string): (r: Option<Json>)
    ensures r.None? <==> key !in Keys(members)
    ensures r.Some? ==> (key, r.value) in members
  {
    if members == [] then None
    else if members[0].0 == key then Some(members[0].1)
    else Get(members[1..], key)
  }

  /** Python `d.get(key, default)`. */
  function GetOr(members: seq<(string, Json)>, key: string, default: Json): Json {
    Get(members, key).GetOr(default)
  }

  /** Python truthiness: null, false, zero and empty strings, lists and dicts are falsy. */
  predicate Truthy(j: Json) {
    match j
    case JNull => false
    case JBool(b) => b
    case JNumber(n) => n != 0.0
    case JString(s) => s != []
    case JArray(xs) => xs != []
    case JObject(ms) => ms != []
  }

  /**
   * Python `for x in j`: a list yields its items, a string its one-character
   * strings, a dict its keys; any other value raises TypeError (`None` here).
   */
  function Iterate(j: Json): (r: Option<seq<Json>>)
    ensures r.Some? <==> (j.JArray? || j.JString? || j.JObject?)
    ensures j.JArray? ==> r == Some(j.items)
    ensures j.JString? ==> (r.Some? && |r.value| == |j.s| &&
                            forall i :: 0 <= i < |j.s| ==> r.value[i] == JString([j.s[i]]))
    ensures j.JObject? ==> (r.Some? && |r.value| == |j.members| &&
                            forall i :: 0 <= i < |j.members| ==> r.value[i] == JString(j.members[i].0))
  {
    match j
    case JArray(xs) => Some(xs)
    case JString(s) => Some(seq(|s|, i requires 0 <= i < |s| => JString([s[i]])))
    case JObject(ms) => Some(seq(|ms|, i requires 0 <= i < |ms| => JString(ms[i].0)))
    case _ => None
  }

  /**
   * Python `isinstance(j, (int, float))` together with `float(j)`: a bool is an
   * int in Python, so `true` reads as 1.0 and `false` as 0.0.
   */
  function AsNumber(j: Json): (r: Option<real>)
    ensures r.Some? <==> (j.JNumber? || j.JBool?)
  {
    match j
    case JNumber(n) => Some(n)
    case JBool(b) => Some(if b then 1.0 else 0.0)
    case _ => None
  }

  /** No `null` occurs anywhere inside `j`. */
  predicate NoNulls(j: Json) {
    match j
    case JNull => false
    case JArray(xs) => forall i :: 0 <= i < |xs| ==> NoNulls(xs[i])
    case JObject(ms) => forall i :: 0 <= i < |ms| ==> NoNulls(ms[i].1)
    case _ => true
  }

  /**
   * The members of a dict dumped with `exclude_none=True`: each `(key, value)`
   * entry is kept in order, and an entry whose value is absent is dropped.
   */
  function Compact(fields: seq<(string, Option<Json>)>): (ms: seq<(string, Json)>)
    ensures |ms| <= |fields|
    ensures (forall i :: 0 <= i < |fields| && fields[i].1.Some? ==> NoNulls(fields[i].1.value)) ==>
            NoNulls(JObject(ms))
  {
    if fields == [] then []
    else match fields[0].1
      case Some(v) => [(fields[0].0, v)] + Compact(fields[1..])
      case None => Compact(fields[1..])
  }

  /** A key is present after compaction exactly when some entry under it carried a value. */
  lemma {:induction false} CompactKeys(fields: seq<(string, Option<Json>)>, key: string)
    ensures key in Keys(Compact(fields)) <==>
            exists i :: 0 <= i < |fields| && fields[i].0 == key && fields[i].1.Some?
  {
    if fields != [] {
      CompactKeys(fields[1..], key);
      var ks := Keys(Compact(fields));
      if key in Keys(Compact(fields[1..])) {
        var i :| 0 <= i < |fields[1..]| && fields[1..][i].0 == key && fields[1..][i].1.Some?;
        assert fields[i + 1].0 == key && fields[i + 1].1.Some?;
      }
      if exists i :: 0 <= i < |fields| && fields[i].0 == key && fields[i].1.Some? {
        var i :| 0 <= i < |fields| && fields[i].0 == key && fields[i].1.Some?;
        if i > 0 {
          assert fields[1..][i - 1] == fields[i];
        }
      }
    }
  }

  /** When no other entry shares its key, looking the key up after compaction yields the entry's value. */
  lemma {:induction false} CompactGet(fields: seq<(string, Option<Json>)>, i: nat)
    requires i < |fields|
    requires forall j :: 0 <= j < |fields| && j != i ==> fields[j].0 != fields[i].0
    ensures Get(Compact(fields), fields[i].0) == fields[i].1
  {
    if i == 0 {
      if fields[0].1.None? {
        CompactKeys(fields[1..], fields[0].0);
        assert forall k :: 0 <= k < |fields[1..]| ==> fields[1..][k] == fields[k + 1];
      }
    } else {
      assert fields[1..][i - 1] == fields[i];
      assert forall j :: 0 <= j < |fields[1..]| ==> fields[1..][j] == fields[j + 1];
      CompactGet(fields[1..], i - 1);
    }
  }
}

=== FILE: metadata_generator.dfy ===
/**
 * The metadata generator: it builds the prompts, asks the LLM for JSON,
 * turns that JSON into a DIWOO record (normalising category and document
 * type names, filling in the publisher and a single registration event) and
 * collects the confidence scores. Every failure along the way ends in a
 * response with `success` false, never in an exception.
 *
 * The LLM's JSON is a dynamic value: where Python would raise because a value
 * has the wrong type (a method missing, a value not iterable), the model
 * fails with `Raised`; where a record's field check rejects a value, with
 * `Invalid`.
 */
module Generator {
  import opened Wrappers
  import opened Text
  import opened Enums
  import opened Json
  import opened Diwoo
  import opened Requests
  import opened Responses
  import opened Config
  import opened Retry
  import opened OpenRouter
  import opened PromptTemplates

  const PlaceholderPublisherUri: string := "https://identifier.overheid.nl/tooi/id/organisatie/placeholder"
  const UnknownPublisher: string := "Onbekende organisatie"
  const UnknownTitle: string := "Onbekende titel"
  const MaxTitleLength: int := 2000
  const DefaultConfidence: real := 0.7

  /** Why a generation failed. */
  datatype GenerationError =
    | InvalidJson(detail: string)      // the LLM's reply is not JSON
    | Invalid(error: ValidationError)  // a record's field check rejected a value
    | Raised(message: string)          // any other error, with its message

  // ---------------------------------------------------------------------------
  // Collecting entries in a loop
  // ---------------------------------------------------------------------------

  /**
   * What a loop over `items` collects when each item either stops the loop
   * with an error, is skipped, or appends one entry: the entries in item
   * order, or the first error.
   */
  function CollectAll<A, T>(items: seq<A>, step: A -> Result<Option<T>, GenerationError>): (r: Result<seq<T>, GenerationError>)
    ensures r.Success? ==> |r.value| <= |items|
    decreases |items|
  {
    if items == [] then Success([])
    else
      match CollectAll(items[..|items| - 1], step)
      case Failure(e) => Failure(e)
      case Success(xs) =>
        match step(items[|items| - 1])
        case Failure(e) => Failure(e)
        case Success(None) => Success(xs)
        case Success(Some(x)) => Success(xs + [x])
  }

  /** Collection succeeds exactly when no item's step fails. */
  lemma {:induction false} CollectAllSucceeds<A, T>(items: seq<A>, step: A -> Result<Option<T>, GenerationError>)
    ensures CollectAll(items, step).Success? <==> forall i :: 0 <= i < |items| ==> step(items[i]).Success?
  {
    if items != [] {
      var init := items[..|items| - 1];
      CollectAllSucceeds(init, step);
      assert forall i :: 0 <= i < |init| ==> init[i] == items[i];
    }
  }

  /** An entry is collected exactly when some item's step appends it. */
  lemma {:induction false} CollectAllMembers<A, T>(items: seq<A>, step: A -> Result<Option<T>, GenerationError>, x: T)
    requires CollectAll(items, step).Success?
    ensures x in CollectAll(items, step).value <==> exists i :: 0 <= i < |items| && step(items[i]) == Success(Some(x))
  {
    if items != [] {
      var init := items[..|items| - 1];
      var last := |items| - 1;
      CollectAllMembers(init, step, x);
      assert forall i :: 0 <= i < |init| ==> init[i] == items[i];
      if exists i :: 0 <= i < |items| && step(items[i]) == Success(Some(x)) {
        var i :| 0 <= i < |items| && step(items[i]) == Success(Some(x));
        if i < last {
          assert step(init[i]) == Success(Some(x));
        }
      }
    }
  }

  /** Once a prefix of the items has failed, the whole collection fails with the same error. */
  lemma {:induction false} CollectAllFailureSticks<A, T>(items: seq<A>, step: A -> Result<Option<T>, GenerationError>, n: nat)
    requires n <= |items| && CollectAll(items[..n], step).Failure?
    ensures CollectAll(items, step) == CollectAll(items[..n], step)
    decreases |items| - n
  {
    if n < |items| {
      var m := n + 1;
      assert items[..m][..n] == items[..n];
      CollectAllFailureSticks(items, step, m);
    } else {
      assert items[..n] == items;
    }
  }

  /** The loop itself: goes through the items in order, stopping at the first error. */
  method Accumulate<A, T>(items: seq<A>, step: A -> Result<Option<T>, GenerationError>) returns (r: Result<seq<T>, GenerationError>)
    ensures r == CollectAll(items, step)
  {
    var acc: seq<T> := [];
    var i := 0;
    while i < |items|
      invariant 0 <= i <= |items|
      invariant CollectAll(items[..i], step) == Success(acc)
    {
      assert items[..i + 1][..i] == items[..i];
      var entry := step(items[i]);
      if entry.Failure? {
        CollectAllFailureSticks(items, step, i + 1);
        return Failure(entry.error);
      }
      if entry.value.Some? {
        acc := acc + [entry.value.value];
      }
      i := i + 1;
    }
    assert items[..i] == items;
    r := Success(acc);
  }

  // ---------------------------------------------------------------------------
  // The publisher, the title and the simple fields
  // ---------------------------------------------------------------------------

  /** The publisher: the hint's URI (or the placeholder) and name, or the unknown organisation. */
  function PublisherOf(hint: Option<PublisherHint>): (o: Organisatie)
    ensures hint.Some? ==> o.labelText == hint.value.name
    ensures hint.Some? && hint.value.tooiUri.Some? ==> o.resource == hint.value.tooiUri.value
    ensures hint.Some? && hint.value.tooiUri.None? ==> o.resource == PlaceholderPublisherUri
    ensures hint.None? ==> o == Organisatie(PlaceholderPublisherUri, UnknownPublisher)
  {
    match hint
    case Some(h) => Organisatie(h.tooiUri.GetOr(PlaceholderPublisherUri), h.name)
    case None => Organisatie(PlaceholderPublisherUri, UnknownPublisher)
  }

  predicate AllStrings(xs: seq<Json>) {
    forall i :: 0 <= i < |xs| ==> xs[i].JString?
  }

  function StringsOf(xs: seq<Json>): (r: seq<string>)
    requires AllStrings(xs)
    ensures |r| == |xs| && forall i :: 0 <= i < |xs| ==> r[i] == xs[i].s
  {
    seq(|xs|, i requires 0 <= i < |xs| => xs[i].s)
  }

  /**
   * Validation of a field typed "list of strings or nothing": an absent or null
   * value is nothing, a list of strings is kept, anything else is rejected
   * under the field's name.
   */
  function StringListField(name: string, j: Option<Json>): (r: Result<Option<seq<string>>, GenerationError>)
    ensures r.Success? <==> (j.None? || j.value.JNull? || (j.value.JArray? && AllStrings(j.value.items)))
    ensures r.Success? && r.value.Some? ==> j.Some? && j.value.JArray? && r.value.value == StringsOf(j.value.items)
    ensures r.Failure? ==> r.error == Invalid(ValidationError(name))
  {
    if j.None? || j.value.JNull? then Success(None)
    else if j.value.JArray? && AllStrings(j.value.items) then Success(Some(StringsOf(j.value.items)))
    else Failure(Invalid(ValidationError(name)))
  }

  /**
   * The title collection: `officiele_titel` (by default the unknown title)
   * cut to 2000 characters, with `verkorte_titels` as given. A value that
   * cannot be sliced fails; the record's check then rejects, in field order,
   * a sliced list or an empty title and afterwards malformed short titles.
   */
  function TitleOf(ms: seq<(string, Json)>): (r: Result<TitelCollectie, GenerationError>)
    ensures var raw := GetOr(ms, "officiele_titel", JString(UnknownTitle));
      r.Success? <==>
        raw.JString? && raw.s != [] && StringListField("verkorteTitels", Get(ms, "verkorte_titels")).Success?
    ensures (r.Failure? && r.error.Raised?) <==>
              !(GetOr(ms, "officiele_titel", JString(UnknownTitle)).JString? ||
                GetOr(ms, "officiele_titel", JString(UnknownTitle)).JArray?)
    ensures var raw := GetOr(ms, "officiele_titel", JString(UnknownTitle));
      r.Failure? && !r.error.Raised? ==>
        r.error == Invalid(ValidationError(if raw.JString? && raw.s != [] then "verkorteTitels" else "officieleTitel"))
    ensures r.Success? ==> r.value.Valid()
    ensures r.Success? ==> var raw := GetOr(ms, "officiele_titel", JString(UnknownTitle));
      raw.JString? && r.value.officieleTitel == SliceTo(raw.s, MaxTitleLength) && r.value.alternatieveTitels.None?
    ensures r.Success? ==> Success(r.value.verkorteTitels) == StringListField("verkorteTitels", Get(ms, "verkorte_titels"))
  {
    var raw := GetOr(ms, "officiele_titel", JString(UnknownTitle));
    if !(raw.JString? || raw.JArray?) then Failure(Raised("officiele_titel cannot be sliced"))
    else if raw.JArray? then Failure(Invalid(ValidationError("officieleTitel")))
    else
      var titel := SliceTo(raw.s, MaxTitleLength);
      var verkort := StringListField("verkorteTitels", Get(ms, "verkorte_titels"));
      if titel == [] then Failure(Invalid(ValidationError("officieleTitel")))
      else if verkort.Failure? then Failure(verkort.error)
      else Success(TitelCollectie(titel, verkort.value, None))
  }

  /** How a name from the LLM is normalised before lookup: upper case, spaces as underscores. */
  function NormaliseName(s: string): string {
    ReplaceChar(Upper(s), ' ', '_')
  }

  /**
   * One entry of `informatiecategorieen`: it must be an object whose
   * `categorie` (empty by default) is text; a known name gives the category,
   * an unknown one is skipped.
   */
  function CategoryStep(item: Json): (r: Result<Option<InformatieCategorieMeta>, GenerationError>)
    ensures r.Success? <==> item.JObject? && GetOr(item.members, "categorie", JString("")).JString?
    ensures r.Success? ==> r.value == match CategorieFromName(NormaliseName(GetOr(item.members, "categorie", JString("")).s))
                                      case Some(c) => Some(InformatieCategorieMeta(c))
                                      case None => None
  {
    if !item.JObject? then Failure(Raised("informatiecategorieen entry is not an object"))
    else
      var raw := GetOr(item.members, "categorie", JString(""));
      if !raw.JString? then Failure(Raised("categorie is not text"))
      else
        match CategorieFromName(NormaliseName(raw.s))
        case Some(c) => Success(Some(InformatieCategorieMeta(c)))
        case None => Success(None)
  }

  /** One entry of `documentsoorten`: it must be text; a known name gives the type, an unknown one is skipped. */
  function SoortStep(item: Json): (r: Result<Option<DocumentSoortMeta>, GenerationError>)
    ensures r.Success? <==> item.JString?
    ensures r.Success? ==> r.value == match DocumentSoortFromName(NormaliseName(item.s))
                                      case Some(d) => Some(DocumentSoortMeta(d))
                                      case None => None
  {
    if !item.JString? then Failure(Raised("documentsoort is not text"))
    else
      match DocumentSoortFromName(NormaliseName(item.s))
      case Some(d) => Success(Some(DocumentSoortMeta(d)))
      case None => Success(None)
  }

  /** The items a `for` loop visits in the value stored under `key` (by default an empty list). */
  function ItemsUnder(ms: seq<(string, Json)>, key: string): Option<seq<Json>> {
    Iterate(GetOr(ms, key, JArray([])))
  }

  /** The categories the entries name, or OVERIGE_BESLUITEN_AS alone when they name none. */
  function CategoriesOf(ms: seq<(string, Json)>): (r: Result<seq<InformatieCategorieMeta>, GenerationError>)
    ensures r.Success? ==> |r.value| >= 1
  {
    match ItemsUnder(ms, "informatiecategorieen")
    case None => Failure(Raised("informatiecategorieen is not iterable"))
    case Some(items) =>
      match CollectAll(items, CategoryStep)
      case Failure(e) => Failure(e)
      case Success(cs) => Success(if cs == [] then [InformatieCategorieMeta(OVERIGE_BESLUITEN_AS)] else cs)
  }

  /** The document types: nothing unless `documentsoorten` is truthy, and nothing when no known type remains. */
  function SoortenOf(ms: seq<(string, Json)>): (r: Result<Option<seq<DocumentSoortMeta>>, GenerationError>)
    ensures r.Success? && r.value.Some? ==> r.value.value != []
    ensures (Get(ms, "documentsoorten").None? || !Truthy(Get(ms, "documentsoorten").value)) ==> r == Success(None)
  {
    var raw := Get(ms, "documentsoorten");
    if raw.None? || !Truthy(raw.value) then Success(None)
    else
      match Iterate(raw.value)
      case None => Failure(Raised("documentsoorten is not iterable"))
      case Some(items) =>
        match CollectAll(items, SoortStep)
        case Failure(e) => Failure(e)
        case Success(ds) => Success(if ds == [] then None else Some(ds))
  }

  /** The single handling every generated record carries: registered now, by the publisher. */
  function RegistrationOf(publisher: Organisatie, env: Env): DocumentHandeling {
    DocumentHandeling(SoortHandelingMeta(REGISTRATIE), env.now, Some(publisher))
  }

  /** The creation date: parsed from truthy text, nothing when absent, falsy or unparseable. */
  function CreatiedatumOf(ms: seq<(string, Json)>, env: Env): (r: Result<Option<Date>, GenerationError>)
    ensures r.Failure? <==> Get(ms, "creatiedatum").Some? && Truthy(Get(ms, "creatiedatum").value) &&
                            !Get(ms, "creatiedatum").value.JString?
    ensures r.Success? && r.value.Some? ==> var raw := Get(ms, "creatiedatum");
              raw.Some? && raw.value.JString? && r.value == env.parseDate(raw.value.s)
  {
    var raw := Get(ms, "creatiedatum");
    if raw.None? || !Truthy(raw.value) then Success(None)
    else if raw.value.JString? then Success(env.parseDate(raw.value.s))
    else Failure(Raised("creatiedatum is not text"))
  }

  /** The language: `taal` (NL by default) must be text; an unknown name becomes NL. */
  function TaalOf(ms: seq<(string, Json)>): (r: Result<Taal, GenerationError>)
    ensures r.Success? <==> GetOr(ms, "taal", JString("NL")).JString?
    ensures r.Success? && TaalFromName(Upper(GetOr(ms, "taal", JString("NL")).s)).None? ==> r.value == NL
    ensures r.Success? && TaalFromName(Upper(GetOr(ms, "taal", JString("NL")).s)).Some? ==>
              r.value == TaalFromName(Upper(GetOr(ms, "taal", JString("NL")).s)).value
  {
    var raw := GetOr(ms, "taal", JString("NL"));
    if !raw.JString? then Failure(Raised("taal is not text"))
    else Success(TaalFromName(Upper(raw.s)).GetOr(NL))
  }

  /** The record with every field the LLM output does not set left empty. */
  function Assemble(publisher: Organisatie, titel: TitelCollectie, omschrijvingen: Option<seq<string>>,
                    classificatie: ClassificatieCollectie, creatiedatum: Option<Date>, taal: Taal,
                    handeling: DocumentHandeling): DiWooMetadata {
    DiWooMetadata(
      None, publisher, None, None, None, None, titel, omschrijvingen, classificatie, creatiedatum,
      None, Some(TaalMeta(taal)), None, None, None, None, [handeling], None, None)
  }

  /** The error a step ended with, or none when it succeeded. */
  function ErrorOf<T>(r: Result<T, GenerationError>): (e: Option<GenerationError>)
    ensures e.Some? <==> r.Failure?
    ensures r.Failure? ==> e.value == r.error
  {
    if r.Failure? then Some(r.error) else None
  }

  /** Step `k` is the first of `errs` to fail, and fails with `e`. */
  predicate FirstFailureAt(errs: seq<Option<GenerationError>>, k: int, e: GenerationError) {
    0 <= k < |errs| && errs[k] == Some(e) && forall j :: 0 <= j < k ==> errs[j].None?
  }

  /** The error of the first failing step, or none when every step succeeds. */
  function FirstError(errs: seq<Option<GenerationError>>): (r: Option<GenerationError>)
    ensures r.None? <==> forall k :: 0 <= k < |errs| ==> errs[k].None?
    ensures r.Some? ==> exists k :: FirstFailureAt(errs, k, r.value)
  {
    if errs == [] then None
    else if errs[0].Some? then
      assert FirstFailureAt(errs, 0, errs[0].value);
      errs[0]
    else
      var rest := FirstError(errs[1..]);
      assert forall k :: 1 <= k < |errs| ==> errs[k] == errs[1..][k - 1];
      if rest.Some? then
        var k :| FirstFailureAt(errs[1..], k, rest.value);
        assert FirstFailureAt(errs, k + 1, rest.value);
        rest
      else rest
  }

  /** A step that fails after every earlier one succeeded decides the first error. */
  lemma {:induction false} FirstFailureDecides(errs: seq<Option<GenerationError>>, k: int, e: GenerationError)
    requires FirstFailureAt(errs, k, e)
    ensures FirstError(errs) == Some(e)
    decreases k
  {
    if k > 0 {
      assert forall j :: 0 <= j < k - 1 ==> errs[1..][j] == errs[j + 1];
      assert FirstFailureAt(errs[1..], k - 1, e);
      FirstFailureDecides(errs[1..], k - 1, e);
    }
  }

  /** The first error of seven steps, spelled out. */
  lemma FirstErrorOfSeven(a: Option<GenerationError>, b: Option<GenerationError>, c: Option<GenerationError>,
                          d: Option<GenerationError>, e: Option<GenerationError>, f: Option<GenerationError>,
                          g: Option<GenerationError>)
    ensures FirstError([a, b, c, d, e, f, g]) ==
      if a.Some? then a else if b.Some? then b else if c.Some? then c else if d.Some? then d
      else if e.Some? then e else if f.Some? then f else g
  {
    var errs := [a, b, c, d, e, f, g];
    if a.Some? {
      FirstFailureDecides(errs, 0, a.value);
    } else if b.Some? {
      FirstFailureDecides(errs, 1, b.value);
    } else if c.Some? {
      FirstFailureDecides(errs, 2, c.value);
    } else if d.Some? {
      FirstFailureDecides(errs, 3, d.value);
    } else if e.Some? {
      FirstFailureDecides(errs, 4, e.value);
    } else if f.Some? {
      FirstFailureDecides(errs, 5, f.value);
    } else if g.Some? {
      FirstFailureDecides(errs, 6, g.value);
    }
  }

  /**
   * The steps of the transformation in the order it reads the output: title,
   * categories, document types, keywords, creation date, language and
   * descriptions.
   */
  function StepErrors(ms: seq<(string, Json)>, env: Env): seq<Option<GenerationError>> {
    [ErrorOf(TitleOf(ms)), ErrorOf(CategoriesOf(ms)), ErrorOf(SoortenOf(ms)),
     ErrorOf(StringListField("trefwoorden", Get(ms, "trefwoorden"))), ErrorOf(CreatiedatumOf(ms, env)),
     ErrorOf(TaalOf(ms)), ErrorOf(StringListField("omschrijvingen", Get(ms, "omschrijvingen")))]
  }

  /**
   * The DIWOO record for the LLM's output, built in the order the fields are
   * read: publisher, title, categories, document types, keywords, handling,
   * creation date, language and descriptions; the first failure wins.
   */
  function Transformed(llm: Json, hint: Option<PublisherHint>, env: Env): (r: Result<DiWooMetadata, GenerationError>)
    ensures !llm.JObject? ==> r.Failure? && r.error.Raised?
    ensures llm.JObject? ==> (r.Success? <==> FirstError(StepErrors(llm.members, env)).None?)
    ensures llm.JObject? && r.Failure? ==> FirstError(StepErrors(llm.members, env)) == Some(r.error)
    ensures r.Success? ==> r.value.Valid()
  {
    var publisher := PublisherOf(hint);
    if !llm.JObject? then Failure(Raised("the LLM output is not an object"))
    else
      var ms := llm.members;
      FirstErrorOfSeven(ErrorOf(TitleOf(ms)), ErrorOf(CategoriesOf(ms)), ErrorOf(SoortenOf(ms)),
                        ErrorOf(StringListField("trefwoorden", Get(ms, "trefwoorden"))), ErrorOf(CreatiedatumOf(ms, env)),
                        ErrorOf(TaalOf(ms)), ErrorOf(StringListField("omschrijvingen", Get(ms, "omschrijvingen"))));
      match TitleOf(ms)
      case Failure(e) => Failure(e)
      case Success(titel) =>
        match CategoriesOf(ms)
        case Failure(e) => Failure(e)
        case Success(cats) =>
          match SoortenOf(ms)
          case Failure(e) => Failure(e)
          case Success(soorten) =>
            match StringListField("trefwoorden", Get(ms, "trefwoorden"))
            case Failure(e) => Failure(e)
            case Success(trefwoorden) =>
              var classificatie := NewClassificatieCollectie(cats, soorten, None, trefwoorden).value;
              match CreatiedatumOf(ms, env)
              case Failure(e) => Failure(e)
              case Success(datum) =>
                match TaalOf(ms)
                case Failure(e) => Failure(e)
                case Success(taal) =>
                  match StringListField("omschrijvingen", Get(ms, "omschrijvingen"))
                  case Failure(e) => Failure(e)
                  case Success(omschrijvingen) =>
                    Success(Assemble(publisher, titel, omschrijvingen, classificatie, datum, taal,
                                     RegistrationOf(publisher, env)))
  }

  /** `_transform_to_diwoo`: the categories and document types are gathered by loops. */
  method TransformToDiwoo(llm: Json, hint: Option<PublisherHint>, env: Env) returns (r: Result<DiWooMetadata, GenerationError>)
    ensures r == Transformed(llm, hint, env)
  {
    var publisher := PublisherOf(hint);
    if !llm.JObject? {
      return Failure(Raised("the LLM output is not an object"));
    }
    var ms := llm.members;
    var titel := TitleOf(ms);
    if titel.Failure? {
      return Failure(titel.error);
    }
    var cats: seq<InformatieCategorieMeta>;
    var items := ItemsUnder(ms, "informatiecategorieen");
    if items.None? {
      return Failure(Raised("informatiecategorieen is not iterable"));
    }
    var collected := Accumulate(items.value, CategoryStep);
    if collected.Failure? {
      return Failure(collected.error);
    }
    cats := collected.value;
    if cats == [] {
      cats := [InformatieCategorieMeta(OVERIGE_BESLUITEN_AS)];
    }
    assert CategoriesOf(ms) == Success(cats);
    var soorten: Option<seq<DocumentSoortMeta>> := None;
    var rawSoorten := Get(ms, "documentsoorten");
    if rawSoorten.Some? && Truthy(rawSoorten.value) {
      var soortItems := Iterate(rawSoorten.value);
      if soortItems.None? {
        return Failure(Raised("documentsoorten is not iterable"));
      }
      var ds := Accumulate(soortItems.value, SoortStep);
      if ds.Failure? {
        return Failure(ds.error);
      }
      if ds.value != [] {
        soorten := Some(ds.value);
      }
    }
    assert SoortenOf(ms) == Success(soorten);
    var trefwoorden := StringListField("trefwoorden", Get(ms, "trefwoorden"));
    if trefwoorden.Failure? {
      return Failure(trefwoorden.error);
    }
    var classificatie := NewClassificatieCollectie(cats, soorten, None, trefwoorden.value);
    var handeling := RegistrationOf(publisher, env);
    var datum := CreatiedatumOf(ms, env);
    if datum.Failure? {
      return Failure(datum.error);
    }
    var taal := TaalOf(ms);
    if taal.Failure? {
      return Failure(taal.error);
    }
    var omschrijvingen := StringListField("omschrijvingen", Get(ms, "omschrijvingen"));
    if omschrijvingen.Failure? {
      return Failure(omschrijvingen.error);
    }
    r := Success(Assemble(publisher, titel.value, omschrijvingen.value, classificatie.value, datum.value,
                          taal.value, handeling));
  }

  // ---------------------------------------------------------------------------
  // What the transformation guarantees
  // ---------------------------------------------------------------------------

  /** The entry names a known category once its name is normalised. */
  predicate NamesCategory(item: Json, c: InformatieCategorie) {
    item.JObject? && GetOr(item.members, "categorie", JString("")).JString? &&
    CategorieFromName(NormaliseName(GetOr(item.members, "categorie", JString("")).s)) == Some(c)
  }

  /** The entry is text naming a known document type once normalised. */
  predicate NamesSoort(item: Json, d: DocumentSoort) {
    item.JString? && DocumentSoortFromName(NormaliseName(item.s)) == Some(d)
  }

  /**
   * A category is in the result exactly when some entry names it, or when no
   * entry names any category and it is OVERIGE_BESLUITEN_AS; unknown names
   * are dropped.
   */
  lemma CategoriesOfMembers(ms: seq<(string, Json)>, c: InformatieCategorie)
    requires CategoriesOf(ms).Success?
    ensures var items := ItemsUnder(ms, "informatiecategorieen").value;
      InformatieCategorieMeta(c) in CategoriesOf(ms).value <==>
        (exists i :: 0 <= i < |items| && NamesCategory(items[i], c)) ||
        (c == OVERIGE_BESLUITEN_AS && forall i, k :: 0 <= i < |items| ==> !NamesCategory(items[i], k))
  {
    var items := ItemsUnder(ms, "informatiecategorieen").value;
    var collected := CollectAll(items, CategoryStep).value;
    assert CategoriesOf(ms).value == if collected == [] then [InformatieCategorieMeta(OVERIGE_BESLUITEN_AS)] else collected;
    CollectAllMembers(items, CategoryStep, InformatieCategorieMeta(c));
    forall i | 0 <= i < |items|
      ensures CategoryStep(items[i]) == Success(Some(InformatieCategorieMeta(c))) <==> NamesCategory(items[i], c)
    {
      CategoryStepNames(items[i], c);
    }
    if collected == [] {
      forall i, k | 0 <= i < |items|
        ensures !NamesCategory(items[i], k)
      {
        CollectAllMembers(items, CategoryStep, InformatieCategorieMeta(k));
        CategoryStepNames(items[i], k);
      }
    } else {
      var first := collected[0];
      assert first in collected;
      CollectAllMembers(items, CategoryStep, first);
      var i :| 0 <= i < |items| && CategoryStep(items[i]) == Success(Some(first));
      CategoryStepNames(items[i], first.categorie);
    }
  }

  lemma CategoryStepNames(item: Json, k: InformatieCategorie)
    ensures CategoryStep(item) == Success(Some(InformatieCategorieMeta(k))) <==> NamesCategory(item, k)
  {
  }

  /** When `documentsoorten` is read, a type is in the result exactly when some entry names it. */
  lemma SoortenOfMembers(ms: seq<(string, Json)>, d: DocumentSoort)
    requires SoortenOf(ms).Success? && Get(ms, "documentsoorten").Some? && Truthy(Get(ms, "documentsoorten").value)
    ensures var items := Iterate(Get(ms, "documentsoorten").value).value;
      (SoortenOf(ms).value.Some? && DocumentSoortMeta(d) in SoortenOf(ms).value.value) <==>
        exists i :: 0 <= i < |items| && NamesSoort(items[i], d)
  {
    var items := Iterate(Get(ms, "documentsoorten").value).value;
    CollectAllMembers(items, SoortStep, DocumentSoortMeta(d));
    forall i | 0 <= i < |items|
      ensures SoortStep(items[i]) == Success(Some(DocumentSoortMeta(d))) <==> NamesSoort(items[i], d)
    {
      SoortStepNames(items[i], d);
    }
  }

  lemma SoortStepNames(item: Json, d: DocumentSoort)
    ensures SoortStep(item) == Success(Some(DocumentSoortMeta(d))) <==> NamesSoort(item, d)
  {
  }

  /**
   * A transformed record carries the resolved publisher, exactly one
   * REGISTRATIE handling associated with it at the current time, the title,
   * categories, document types, date and language read from the output, and
   * none of the fields the output does not provide.
   */
  lemma TransformedRecord(llm: Json, hint: Option<PublisherHint>, env: Env)
    requires Transformed(llm, hint, env).Success?
    ensures var m := Transformed(llm, hint, env).value; var ms := llm.members;
      llm.JObject? &&
      m.publisher == PublisherOf(hint) &&
      |m.documenthandelingen| == 1 &&
      m.documenthandelingen[0].soortHandeling.handeling == REGISTRATIE &&
      m.documenthandelingen[0].atTime == env.now &&
      m.documenthandelingen[0].wasAssociatedWith == Some(PublisherOf(hint)) &&
      m.titelcollectie == TitleOf(ms).value &&
      m.classificatiecollectie.informatiecategorieen == CategoriesOf(ms).value &&
      m.classificatiecollectie.documentsoorten == SoortenOf(ms).value &&
      m.classificatiecollectie.themas.None? &&
      m.creatiedatum == CreatiedatumOf(ms, env).value &&
      m.language == Some(TaalMeta(TaalOf(ms).value)) &&
      m.identifiers.None? && m.verantwoordelijke.None? && m.opsteller.None? &&
      m.geldigheid.None? && m.documentrelaties.None? && m.redenVerwijderingVervanging.None?
  {
  }

  /** Every entry of `informatiecategorieen` is an object whose name is text. */
  predicate CategoryEntriesShaped(ms: seq<(string, Json)>) {
    ItemsUnder(ms, "informatiecategorieen").Some? &&
    var items := ItemsUnder(ms, "informatiecategorieen").value;
    forall i :: 0 <= i < |items| ==> CategoryStep(items[i]).Success?
  }

  /** Output the transformation accepted is an object with well-shaped category entries. */
  lemma TransformedShapesEntries(llm: Json, hint: Option<PublisherHint>, env: Env)
    requires Transformed(llm, hint, env).Success?
    ensures llm.JObject? && CategoryEntriesShaped(llm.members)
  {
    var items := ItemsUnder(llm.members, "informatiecategorieen").value;
    CollectAllSucceeds(items, CategoryStep);
  }

  // ---------------------------------------------------------------------------
  // Confidence scores
  // ---------------------------------------------------------------------------

  /**
   * A value read into a float field: numbers as they are, booleans as 1 and
   * 0, text through the float parser; anything else is rejected.
   */
  function FloatOf(j: Json, parseFloat: string -> Option<real>): (r: Option<real>)
    ensures j.JNumber? ==> r == Some(j.n)
    ensures j.JBool? ==> r == Some(if j.b then 1.0 else 0.0)
    ensures j.JString? ==> r == parseFloat(j.s)
    ensures (j.JNull? || j.JArray? || j.JObject?) ==> r.None?
  {
    match j
    case JString(s) => parseFloat(s)
    case _ => AsNumber(j)
  }

  /**
   * One entry of `confidence_scores`: any key but "overall" with a number
   * (or boolean) value gives a field score, which must lie in [0, 1].
   */
  function ScoreStep(entry: (string, Json)): (r: Result<Option<FieldConfidence>, GenerationError>)
    ensures (entry.0 == "overall" || AsNumber(entry.1).None?) ==> r == Success(None)
    ensures r.Success? && r.value.Some? ==>
      r.value.value == FieldConfidence(entry.0, AsNumber(entry.1).value, None) && r.value.value.Valid()
    ensures r.Failure? <==> entry.0 != "overall" && AsNumber(entry.1).Some? && !(0.0 <= AsNumber(entry.1).value <= 1.0)
    ensures entry.0 != "overall" && AsNumber(entry.1).Some? && 0.0 <= AsNumber(entry.1).value <= 1.0 ==>
              r == Success(Some(FieldConfidence(entry.0, AsNumber(entry.1).value, None)))
  {
    if entry.0 != "overall" && AsNumber(entry.1).Some? then
      match NewFieldConfidence(entry.0, AsNumber(entry.1).value, None)
      case Failure(e) => Failure(Invalid(e))
      case Success(f) => Success(Some(f))
    else Success(None)
  }

  /** The name under which a category entry's reasoning is reported. */
  function ReasoningFieldName(categorie: Option<Json>): (r: Option<string>)
    ensures categorie.None? ==> r == Some("informatiecategorie_unknown")
    ensures categorie.Some? && categorie.value.JString? ==> r == Some("informatiecategorie_" + categorie.value.s)
  {
    match categorie
    case None => Some("informatiecategorie_unknown")
    case Some(JString(s)) => Some("informatiecategorie_" + s)
    case Some(_) => None
  }

  /** The confidence of a category entry: `confidence` (by default 0.7) read as a float. */
  function EntryConfidence(cm: seq<(string, Json)>, parseFloat: string -> Option<real>): Option<real> {
    FloatOf(GetOr(cm, "confidence", JNumber(DefaultConfidence)), parseFloat)
  }

  /** The entry's confidence reads as a float in [0, 1]. */
  predicate ConfidenceInRange(cm: seq<(string, Json)>, parseFloat: string -> Option<real>) {
    EntryConfidence(cm, parseFloat).Some? && 0.0 <= EntryConfidence(cm, parseFloat).value <= 1.0
  }

  /** A reasoning `str | None` accepts: text or null. */
  predicate ReasoningAccepted(reasoning: Json) {
    reasoning.JString? || reasoning.JNull?
  }

  /**
   * One entry of `informatiecategorieen` with a "reasoning" key gives a field
   * score: its confidence defaults to 0.7 and must lie in [0, 1], and its
   * reasoning must be text or null; the confidence is reported first, as it
   * is declared first. An entry the transformation rejects (not an object, or
   * a name that is not text) fails here too.
   */
  function ReasoningStep(parseFloat: string -> Option<real>, item: Json): (r: Result<Option<FieldConfidence>, GenerationError>)
    ensures item.JObject? && Get(item.members, "reasoning").None? ==> r == Success(None)
    ensures item.JObject? && Get(item.members, "reasoning").Some? ==>
      (r.Success? <==>
         ReasoningFieldName(Get(item.members, "categorie")).Some? &&
         ConfidenceInRange(item.members, parseFloat) &&
         ReasoningAccepted(Get(item.members, "reasoning").value))
    ensures r.Failure? && r.error.Invalid? ==>
      item.JObject? &&
      r.error.error.loc == (if ConfidenceInRange(item.members, parseFloat) then "reasoning" else "confidence")
    ensures r.Success? && r.value.Some? ==>
      (r.value.value.Valid() && item.JObject? &&
       Get(item.members, "reasoning").Some? &&
       Some(r.value.value.fieldName) == ReasoningFieldName(Get(item.members, "categorie")) &&
       Some(r.value.value.confidence) == EntryConfidence(item.members, parseFloat) &&
       r.value.value.reasoning ==
         (var reasoning := Get(item.members, "reasoning").value;
          if reasoning.JString? then Some(reasoning.s) else None))
  {
    if !item.JObject? then Failure(Raised("informatiecategorieen entry is not an object"))
    else
      var cm := item.members;
      match Get(cm, "reasoning")
      case None => Success(None)
      case Some(reasoning) =>
        match ReasoningFieldName(Get(cm, "categorie"))
        case None => Failure(Raised("categorie is not text"))
        case Some(name) =>
          if !ConfidenceInRange(cm, parseFloat) then Failure(Invalid(ValidationError("confidence")))
          else if !ReasoningAccepted(reasoning) then Failure(Invalid(ValidationError("reasoning")))
          else
            var text := if reasoning.JString? then Some(reasoning.s) else None;
            Success(Some(FieldConfidence(name, EntryConfidence(cm, parseFloat).value, text)))
  }

  /** `ReasoningStep` with the float parser fixed, as the loop applies it. */
  function ReasoningStepWith(parseFloat: string -> Option<real>): Json -> Result<Option<FieldConfidence>, GenerationError> {
    (item: Json) => ReasoningStep(parseFloat, item)
  }

  /** Every entry a loop of valid-entry steps collects is valid. */
  lemma CollectedValid<A>(items: seq<A>, step: A -> Result<Option<FieldConfidence>, GenerationError>)
    requires forall a :: step(a).Success? && step(a).value.Some? ==> step(a).value.value.Valid()
    requires CollectAll(items, step).Success?
    ensures forall k :: 0 <= k < |CollectAll(items, step).value| ==> CollectAll(items, step).value[k].Valid()
  {
    var fs := CollectAll(items, step).value;
    forall k | 0 <= k < |fs|
      ensures fs[k].Valid()
    {
      CollectAllMembers(items, step, fs[k]);
    }
  }

  /** The `confidence_scores` object, by default an empty one. */
  function RawScores(ms: seq<(string, Json)>): Json {
    GetOr(ms, "confidence_scores", JObject([]))
  }

  /** The `overall` score (0.7 by default) reads as a float in [0, 1]. */
  predicate OverallInRange(sm: seq<(string, Json)>, parseFloat: string -> Option<real>) {
    var o := FloatOf(GetOr(sm, "overall", JNumber(DefaultConfidence)), parseFloat);
    o.Some? && 0.0 <= o.value <= 1.0
  }

  /**
   * The confidence scores: `overall` (0.7 by default), then the field scores
   * of `confidence_scores` in order, then one per category entry with a
   * reasoning, in order; every score within [0, 1].
   */
  function ExtractedConfidence(ms: seq<(string, Json)>, parseFloat: string -> Option<real>): (r: Result<ConfidenceScores, GenerationError>)
    requires CategoryEntriesShaped(ms)
    ensures !RawScores(ms).JObject? ==> r.Failure?
    ensures r.Success? <==>
      RawScores(ms).JObject? &&
      CollectAll(RawScores(ms).members, ScoreStep).Success? &&
      CollectAll(ItemsUnder(ms, "informatiecategorieen").value, ReasoningStepWith(parseFloat)).Success? &&
      OverallInRange(RawScores(ms).members, parseFloat)
    ensures r.Success? ==> r.value.Valid()
    ensures r.Success? ==>
      (RawScores(ms).JObject? &&
       Some(r.value.overall) == FloatOf(GetOr(RawScores(ms).members, "overall", JNumber(DefaultConfidence)), parseFloat) &&
       CollectAll(RawScores(ms).members, ScoreStep).Success? &&
       CollectAll(ItemsUnder(ms, "informatiecategorieen").value, ReasoningStepWith(parseFloat)).Success? &&
       r.value.fields == CollectAll(RawScores(ms).members, ScoreStep).value +
                         CollectAll(ItemsUnder(ms, "informatiecategorieen").value, ReasoningStepWith(parseFloat)).value)
  {
    var raw := RawScores(ms);
    if !raw.JObject? then Failure(Raised("confidence_scores is not an object"))
    else
      var overall := GetOr(raw.members, "overall", JNumber(DefaultConfidence));
      match CollectAll(raw.members, ScoreStep)
      case Failure(e) => Failure(e)
      case Success(scored) =>
        match CollectAll(ItemsUnder(ms, "informatiecategorieen").value, ReasoningStepWith(parseFloat))
        case Failure(e) => Failure(e)
        case Success(reasoned) =>
          match FloatOf(overall, parseFloat)
          case None => Failure(Invalid(ValidationError("overall")))
          case Some(o) =>
            CollectedValid(raw.members, ScoreStep);
            CollectedValid(ItemsUnder(ms, "informatiecategorieen").value, ReasoningStepWith(parseFloat));
            match NewConfidenceScores(o, scored + reasoned)
            case Failure(e) => Failure(Invalid(e))
            case Success(scores) => Success(scores)
  }

  /** `_extract_confidence`: the two loops gather the field scores. */
  method ExtractConfidence(ms: seq<(string, Json)>, parseFloat: string -> Option<real>) returns (r: Result<ConfidenceScores, GenerationError>)
    requires CategoryEntriesShaped(ms)
    ensures r == ExtractedConfidence(ms, parseFloat)
  {
    var raw := RawScores(ms);
    if !raw.JObject? {
      return Failure(Raised("confidence_scores is not an object"));
    }
    var overall := GetOr(raw.members, "overall", JNumber(DefaultConfidence));
    var scored := Accumulate(raw.members, ScoreStep);
    if scored.Failure? {
      return Failure(scored.error);
    }
    var reasoned := Accumulate(ItemsUnder(ms, "informatiecategorieen").value, ReasoningStepWith(parseFloat));
    if reasoned.Failure? {
      return Failure(reasoned.error);
    }
    var o := FloatOf(overall, parseFloat);
    if o.None? {
      return Failure(Invalid(ValidationError("overall")));
    }
    CollectedValid(raw.members, ScoreStep);
    CollectedValid(ItemsUnder(ms, "informatiecategorieen").value, ReasoningStepWith(parseFloat));
    var scores := NewConfidenceScores(o.value, scored.value + reasoned.value);
    if scores.Failure? {
      return Failure(Invalid(scores.error));
    }
    r := Success(scores.value);
  }

  // ---------------------------------------------------------------------------
  // Generation and its response
  // ---------------------------------------------------------------------------

  const InvalidJsonPrefix: string := "LLM returned invalid JSON: "
  const ValidationPrefix: string := "Generated metadata validation failed: "
  const NoChoiceMessage: string := "list index out of range"

  /** The response format asked of the LLM: a JSON object. */
  const JsonObjectFormat: Json := JObject([("type", JString("json_object"))])

  /** The error text of a failed response. */
  function ErrorMessage(e: GenerationError): string {
    match e
    case InvalidJson(detail) => InvalidJsonPrefix + detail
    case Invalid(v) => ValidationPrefix + v.loc
    case Raised(message) => message
  }

  /** JSON and validation errors are told apart by the start of the message. */
  lemma ErrorMessagePrefixes(e: GenerationError)
    ensures e.InvalidJson? ==> InvalidJsonPrefix <= ErrorMessage(e) && ErrorMessage(e)[|InvalidJsonPrefix|..] == e.detail
    ensures e.Invalid? ==> ValidationPrefix <= ErrorMessage(e) && ErrorMessage(e)[|ValidationPrefix|..] == e.error.loc
  {
  }

  /**
   * The response for an outcome: a success carries the suggestion and no
   * error, a failure carries the error message and no suggestion.
   */
  function ResponseFor(requestId: string, outcome: Result<MetadataSuggestion, GenerationError>): (r: MetadataGenerationResponse)
    ensures r.requestId == requestId
    ensures r.success <==> outcome.Success?
    ensures r.success ==> r.suggestion == Some(outcome.value) && r.error.None?
    ensures !r.success ==> r.suggestion.None? && r.error == Some(ErrorMessage(outcome.error))
  {
    match outcome
    case Success(suggestion) => MetadataGenerationResponse(true, requestId, Some(suggestion), None)
    case Failure(e) => MetadataGenerationResponse(false, requestId, None, Some(ErrorMessage(e)))
  }

  /** The model asked for: the request's preferred model when non-empty, else the configured default. */
  function ModelFor(request: MetadataGenerationRequest, settings: Settings): (m: string)
    ensures request.preferredModel.Some? && request.preferredModel.value != [] ==> m == request.preferredModel.value
    ensures request.preferredModel.None? || request.preferredModel.value == [] ==> m == settings.defaultModel
  {
    if request.preferredModel.Some? && request.preferredModel.value != [] then request.preferredModel.value
    else settings.defaultModel
  }

  /** The publisher name the prompt mentions. */
  function HintName(request: MetadataGenerationRequest): Option<string> {
    if request.publisherHint.Some? then Some(request.publisherHint.value.name) else None
  }

  /** The two messages sent: the system prompt, then the extraction prompt for the document. */
  function PromptMessages(request: MetadataGenerationRequest, settings: Settings): seq<ChatMessage> {
    [ChatMessage("system", SystemPrompt()),
     ChatMessage("user", BuildExtractionPrompt(request.document.text, HintName(request), settings.maxTextLength))]
  }

  /** The scores when none are asked for: 0.7 overall and no fields. */
  function DefaultScores(): (c: ConfidenceScores)
    ensures c.Valid() && c.overall == DefaultConfidence && c.fields == []
  {
    ScoresWithoutFields(DefaultConfidence).value
  }

  /** The scores of a transformed output, or the default ones when none are asked for. */
  function ScoresFor(request: MetadataGenerationRequest, llm: Json, parseFloat: string -> Option<real>)
    : (r: Result<ConfidenceScores, GenerationError>)
    requires llm.JObject? && CategoryEntriesShaped(llm.members)
    ensures !request.includeConfidence ==> r == Success(DefaultScores())
    ensures request.includeConfidence ==> r == ExtractedConfidence(llm.members, parseFloat)
    ensures r.Success? ==> r.value.Valid()
  {
    if request.includeConfidence then ExtractedConfidence(llm.members, parseFloat) else Success(DefaultScores())
  }

  /**
   * How a generation ends, given what the provider answers on each attempt
   * (`replies`), the retry policy of the client, the JSON and float parsers
   * and the clock: the provider's failure, no choice, JSON that does not
   * parse, or a failure of the transformation or of the scores; otherwise
   * the suggestion.
   */
  function GenerationOutcome(
    settings: Settings, retryConfig: RetryConfig, request: MetadataGenerationRequest, elapsedMs: int, env: Env,
    parseJson: string -> Result<Json, string>, parseFloat: string -> Option<real>, replies: nat -> Attempt<SdkResponse>)
    : (r: Result<MetadataSuggestion, GenerationError>)
    ensures r.Success? ==> r.value.Valid() && r.value.modelUsed == ModelFor(request, settings) &&
                           r.value.processingTimeMs == elapsedMs
    ensures r.Success? && !request.includeConfidence ==> r.value.confidence == DefaultScores()
  {
    ReplyOutcome(settings, request, elapsedMs, env, parseJson, parseFloat, ConvertOutcome(RetryRun(replies, retryConfig).outcome))
  }

  /** How the generation ends once the provider call has ended with `outcome`. */
  function ReplyOutcome(
    settings: Settings, request: MetadataGenerationRequest, elapsedMs: int, env: Env,
    parseJson: string -> Result<Json, string>, parseFloat: string -> Option<real>, outcome: Outcome<ChatCompletionResponse>)
    : (r: Result<MetadataSuggestion, GenerationError>)
    ensures r.Success? ==> r.value.Valid() && r.value.modelUsed == ModelFor(request, settings) &&
                           r.value.processingTimeMs == elapsedMs
    ensures r.Success? && !request.includeConfidence ==> r.value.confidence == DefaultScores()
  {
    if !outcome.Done? then Failure(Raised(outcome.ErrorText()))
    else if outcome.value.choices == [] then Failure(Raised(NoChoiceMessage))
    else
      match parseJson(outcome.value.choices[0].message.content)
      case Failure(detail) => Failure(InvalidJson(detail))
      case Success(llm) =>
        match Transformed(llm, request.publisherHint, env)
        case Failure(e) => Failure(e)
        case Success(metadata) =>
          TransformedShapesEntries(llm, request.publisherHint, env);
          match ScoresFor(request, llm, parseFloat)
          case Failure(e) => Failure(e)
          case Success(confidence) =>
            Success(MetadataSuggestion(metadata, confidence, ModelFor(request, settings), elapsedMs))
  }

  /** The response for the provider's outcome, step by step. */
  method Respond(
    settings: Settings, request: MetadataGenerationRequest, requestId: string, elapsedMs: int, env: Env,
    parseJson: string -> Result<Json, string>, parseFloat: string -> Option<real>, outcome: Outcome<ChatCompletionResponse>)
    returns (resp: MetadataGenerationResponse)
    ensures resp == ResponseFor(requestId, ReplyOutcome(settings, request, elapsedMs, env, parseJson, parseFloat, outcome))
  {
    if !outcome.Done? {
      return ResponseFor(requestId, Failure(Raised(outcome.ErrorText())));
    }
    if outcome.value.choices == [] {
      return ResponseFor(requestId, Failure(Raised(NoChoiceMessage)));
    }
    var parsed := parseJson(outcome.value.choices[0].message.content);
    if parsed.Failure? {
      return ResponseFor(requestId, Failure(InvalidJson(parsed.error)));
    }
    var llm := parsed.value;
    var metadata := TransformToDiwoo(llm, request.publisherHint, env);
    if metadata.Failure? {
      return ResponseFor(requestId, Failure(metadata.error));
    }
    TransformedShapesEntries(llm, request.publisherHint, env);
    var confidence: Result<ConfidenceScores, GenerationError>;
    if request.includeConfidence {
      confidence := ExtractConfidence(llm.members, parseFloat);
    } else {
      confidence := Success(DefaultScores());
    }
    if confidence.Failure? {
      return ResponseFor(requestId, Failure(confidence.error));
    }
    resp := ResponseFor(requestId, Success(MetadataSuggestion(metadata.value, confidence.value, ModelFor(request, settings), elapsedMs)));
  }

  /** A reply whose first choice is not JSON ends in an "invalid JSON" response. */
  lemma InvalidJsonResponse(
    settings: Settings, retryConfig: RetryConfig, request: MetadataGenerationRequest, elapsedMs: int, env: Env,
    parseJson: string -> Result<Json, string>, parseFloat: string -> Option<real>, replies: nat -> Attempt<SdkResponse>,
    requestId: string)
    requires var outcome := RetryRun(replies, retryConfig).outcome;
      outcome.Done? && SdkChoices(outcome.value) != [] &&
      parseJson(ConvertChoice(SdkChoices(outcome.value)[0]).message.content).Failure?
    ensures var resp := ResponseFor(requestId, GenerationOutcome(settings, retryConfig, request, elapsedMs, env, parseJson, parseFloat, replies));
      !resp.success && resp.error.Some? && InvalidJsonPrefix <= resp.error.value
  {
    var o := GenerationOutcome(settings, retryConfig, request, elapsedMs, env, parseJson, parseFloat, replies);
    ErrorMessagePrefixes(o.error);
  }

  /**
   * A reply that parses into an object with an empty `officiele_titel` ends
   * in a failed response reporting the title as the rejected field.
   */
  lemma EmptyTitleResponse(
    settings: Settings, retryConfig: RetryConfig, request: MetadataGenerationRequest, elapsedMs: int, env: Env,
    parseJson: string -> Result<Json, string>, parseFloat: string -> Option<real>, replies: nat -> Attempt<SdkResponse>,
    requestId: string, llm: Json)
    requires var outcome := RetryRun(replies, retryConfig).outcome;
      outcome.Done? && SdkChoices(outcome.value) != [] &&
      parseJson(ConvertChoice(SdkChoices(outcome.value)[0]).message.content) == Success(llm)
    requires llm.JObject? && Get(llm.members, "officiele_titel") == Some(JString(""))
    ensures var resp := ResponseFor(requestId, GenerationOutcome(settings, retryConfig, request, elapsedMs, env, parseJson, parseFloat, replies));
      !resp.success && resp.error == Some(ValidationPrefix + "officieleTitel")
  {
    assert TitleOf(llm.members) == Failure(Invalid(ValidationError("officieleTitel")));
    assert StepErrors(llm.members, env)[0] == Some(Invalid(ValidationError("officieleTitel")));
    FirstFailureDecides(StepErrors(llm.members, env), 0, Invalid(ValidationError("officieleTitel")));
  }

  /**
   * A reply that parses ends in a success exactly when the transformation
   * and the scores succeed, and then carries the transformed record.
   */
  lemma ParsedResponse(
    settings: Settings, retryConfig: RetryConfig, request: MetadataGenerationRequest, elapsedMs: int, env: Env,
    parseJson: string -> Result<Json, string>, parseFloat: string -> Option<real>, replies: nat -> Attempt<SdkResponse>,
    llm: Json)
    requires var outcome := RetryRun(replies, retryConfig).outcome;
      outcome.Done? && SdkChoices(outcome.value) != [] &&
      parseJson(ConvertChoice(SdkChoices(outcome.value)[0]).message.content) == Success(llm)
    ensures var r := GenerationOutcome(settings, retryConfig, request, elapsedMs, env, parseJson, parseFloat, replies);
      r.Success? <==> Transformed(llm, request.publisherHint, env).Success? &&
                      (TransformedShapesEntries(llm, request.publisherHint, env);
                       ScoresFor(request, llm, parseFloat).Success?)
    ensures var r := GenerationOutcome(settings, retryConfig, request, elapsedMs, env, parseJson, parseFloat, replies);
      r.Success? ==> r.value.metadata == Transformed(llm, request.publisherHint, env).value
  {
  }

  /** A provider failure ends in a failed response carrying the provider's error text. */
  lemma ProviderFailureResponse(
    settings: Settings, retryConfig: RetryConfig, request: MetadataGenerationRequest, elapsedMs: int, env: Env,
    parseJson: string -> Result<Json, string>, parseFloat: string -> Option<real>, replies: nat -> Attempt<SdkResponse>,
    requestId: string)
    requires !RetryRun(replies, retryConfig).outcome.Done?
    ensures var resp := ResponseFor(requestId, GenerationOutcome(settings, retryConfig, request, elapsedMs, env, parseJson, parseFloat, replies));
      !resp.success && resp.error == Some(RetryRun(replies, retryConfig).outcome.ErrorText())
  {
  }

  /** The generator; it creates its own provider client on first use unless given one. */
  class MetadataGenerator {
    const settings: Settings
    const ownsClient: bool
    var client: Option<OpenRouterClient>

    /** Without settings, the defaults are used; a generator given no client owns the one it creates. */
    constructor(client: Option<OpenRouterClient>, settings: Option<Settings>)
      ensures this.settings == settings.GetOr(DefaultSettings)
      ensures this.client == client && ownsClient == client.None?
    {
      this.settings := settings.GetOr(DefaultSettings);
      this.client := client;
      ownsClient := client.None?;
    }

    /** The client object, if there is one yet. */
    function ClientObjects(): set<object>
      reads this
    {
      if client.Some? then {client.value} else {}
    }

    /** The client, created from the generator's settings on first use and reused after. */
    method GetClient() returns (c: OpenRouterClient)
      modifies this
      ensures old(client).Some? ==> client == old(client) && c == old(client).value
      ensures old(client).None? ==> fresh(c) && client == Some(c) && c.settings == settings && c.sdk.None?
    {
      if client.None? {
        var created := new OpenRouterClient(settings);
        client := Some(created);
      }
      c := client.value;
    }

    /** Closes the client, but only one the generator created itself. */
    method Close()
      modifies ClientObjects()
      ensures ownsClient && client.Some? ==> client.value.sdk.None?
      ensures !ownsClient ==> unchanged(ClientObjects())
    {
      if ownsClient && client.Some? {
        client.value.Close();
      }
    }

    /**
     * `generate`: asks the LLM for the document's metadata and answers with a
     * response, never an exception. `requestId` and `elapsedMs` stand for the
     * generated identifier and the measured time. Returns the response and
     * the request sent to the provider.
     */
    method Generate(
      request: MetadataGenerationRequest, requestId: string, elapsedMs: int, env: Env,
      parseJson: string -> Result<Json, string>, parseFloat: string -> Option<real>, replies: nat -> Attempt<SdkResponse>)
      returns (resp: MetadataGenerationResponse, sent: SdkRequest)
      modifies this, ClientObjects()
      ensures client.Some? && (old(client).Some? ==> client == old(client))
      ensures old(client).None? ==> fresh(client.value) && client.value.settings == settings
      ensures var oldSdk := if old(client).Some? then old(client.value.sdk) else None;
        var calls := RetryRun(replies, client.value.retryConfig).calls;
        (calls > 0 ==> client.value.sdk.Some? && (oldSdk.Some? ==> client.value.sdk == oldSdk)) &&
        (calls == 0 ==> client.value.sdk == oldSdk)
      ensures sent == SdkRequest(
        ResolveModel(Some(ModelFor(request, settings)), client.value.settings),
        SdkMessages(PromptMessages(request, settings)),
        settings.llmTemperature, DefaultMaxTokens, Some(JsonObjectFormat))
      ensures resp == ResponseFor(requestId, GenerationOutcome(
        settings, client.value.retryConfig, request, elapsedMs, env, parseJson, parseFloat, replies))
    {
      var c := GetClient();
      var messages := PromptMessages(request, settings);
      resp, sent := Complete(c, messages, request, requestId, elapsedMs, env, parseJson, parseFloat, replies);
    }

    /**
     * The provider call of `generate` and the response for how it ended:
     * `messages` go out through `c` in JSON mode, with the request's model and
     * the configured temperature.
     */
    method Complete(
      c: OpenRouterClient, messages: seq<ChatMessage>,
      request: MetadataGenerationRequest, requestId: string, elapsedMs: int, env: Env,
      parseJson: string -> Result<Json, string>, parseFloat: string -> Option<real>, replies: nat -> Attempt<SdkResponse>)
      returns (resp: MetadataGenerationResponse, sent: SdkRequest)
      modifies c
      ensures var calls := RetryRun(replies, c.retryConfig).calls;
        calls > 0 ==> c.sdk.Some? && (old(c.sdk).Some? ==> c.sdk == old(c.sdk))
      ensures RetryRun(replies, c.retryConfig).calls == 0 ==> c.sdk == old(c.sdk)
      ensures sent == SdkRequest(
        ResolveModel(Some(ModelFor(request, settings)), c.settings),
        SdkMessages(messages), settings.llmTemperature, DefaultMaxTokens, Some(JsonObjectFormat))
      ensures resp == ResponseFor(requestId, GenerationOutcome(
        settings, c.retryConfig, request, elapsedMs, env, parseJson, parseFloat, replies))
    {
      var model := ModelFor(request, settings);
      var outcome, calls, delays;
      sent, outcome, calls, delays := c.ChatCompletion(
        messages, Some(model), Some(settings.llmTemperature), DefaultMaxTokens, Some(JsonObjectFormat), replies);
      resp := Respond(settings, request, requestId, elapsedMs, env, parseJson, parseFloat, outcome);
    }
  }
}

=== FILE: openrouter.dfy ===
/**
 * The LLM provider client: it fills in the model and temperature, sends the
 * request through the retry loop, and turns the SDK's reply into the
 * service's own response records. The SDK object is created on first use and
 * dropped on close. What the SDK sends back for each attempt is a script given
 * by the caller.
 */
module OpenRouter {
  import opened Wrappers
  import opened Json
  import opened Config
  import opened Retry

  datatype ChatMessage = ChatMessage(role: string, content: string)

  datatype ChatCompletionChoice = ChatCompletionChoice(index: int, message: ChatMessage, finishReason: Option<string>)

  datatype ChatCompletionUsage = ChatCompletionUsage(promptTokens: int, completionTokens: int, totalTokens: int)

  datatype ChatCompletionResponse = ChatCompletionResponse(
    id: string,
    model: string,
    choices: seq<ChatCompletionChoice>,
    usage: Option<ChatCompletionUsage>)

  /**
   * An SDK message as far as the conversion reads it: the role constant of its
   * class, a role attribute (absent on some message classes) and its content.
   */
  datatype SdkMessage = SdkMessage(roleConstant: Option<string>, role: Option<string>, content: Option<string>)

  datatype SdkChoice = SdkChoice(index: int, message: Option<SdkMessage>, finishReason: Option<string>)

  datatype SdkUsage = SdkUsage(promptTokens: int, completionTokens: int, totalTokens: int)

  datatype SdkResponse = SdkResponse(id: string, model: string, choices: Option<seq<SdkChoice>>, usage: Option<SdkUsage>)

  /** What one request to the SDK carries. */
  datatype SdkRequest = SdkRequest(
    model: string,
    messages: seq<(string, string)>,
    temperature: real,
    maxTokens: int,
    responseFormat: Option<Json>)

  const DefaultRole: string := "assistant"
  const DefaultMaxTokens: int := 4096

  /** The SDK object; only the timeout it is built with is modelled. */
  class SdkClient {
    const timeoutMs: int

    constructor(timeoutMs: int)
      ensures this.timeoutMs == timeoutMs
    {
      this.timeoutMs := timeoutMs;
    }
  }

  /**
   * The message of a choice: a missing message is an empty assistant message;
   * otherwise the role constant when non-empty, else the role attribute,
   * else "assistant", and the content with a missing one read as empty.
   */
  function ConvertMessage(m: Option<SdkMessage>): (r: ChatMessage)
    ensures m.None? ==> r == ChatMessage(DefaultRole, "")
    ensures m.Some? ==> r.content == m.value.content.GetOr("")
    ensures m.Some? && m.value.roleConstant.Some? && m.value.roleConstant.value != [] ==>
              r.role == m.value.roleConstant.value
    ensures m.Some? && (m.value.roleConstant.None? || m.value.roleConstant.value == []) ==>
              r.role == m.value.role.GetOr(DefaultRole)
  {
    match m
    case None => ChatMessage(DefaultRole, "")
    case Some(msg) =>
      var role := if msg.roleConstant.Some? && msg.roleConstant.value != [] then msg.roleConstant.value
                  else msg.role.GetOr(DefaultRole);
      var content := if msg.content.Some? && msg.content.value != [] then msg.content.value else "";
      ChatMessage(role, content)
  }

  /** A converted choice keeps the SDK choice's index and finish reason. */
  function ConvertChoice(c: SdkChoice): (r: ChatCompletionChoice)
    ensures r.index == c.index && r.finishReason == c.finishReason
    ensures r.message == ConvertMessage(c.message)
  {
    ChatCompletionChoice(c.index, ConvertMessage(c.message), c.finishReason)
  }

  /** The SDK's choices, with a missing list read as empty. */
  function SdkChoices(sdk: SdkResponse): seq<SdkChoice> {
    sdk.choices.GetOr([])
  }

  /** The token counts, present exactly when the SDK reports them, and copied unchanged. */
  function ConvertUsage(u: Option<SdkUsage>): (r: Option<ChatCompletionUsage>)
    ensures r.None? <==> u.None?
    ensures r.Some? ==> r.value.promptTokens == u.value.promptTokens &&
                        r.value.completionTokens == u.value.completionTokens &&
                        r.value.totalTokens == u.value.totalTokens
  {
    match u
    case None => None
    case Some(x) => Some(ChatCompletionUsage(x.promptTokens, x.completionTokens, x.totalTokens))
  }

  /** The service's response for an SDK reply: one choice per SDK choice, in order. */
  function ConvertedResponse(sdk: SdkResponse): (r: ChatCompletionResponse)
    ensures r.id == sdk.id && r.model == sdk.model
    ensures |r.choices| == |SdkChoices(sdk)|
    ensures forall i :: 0 <= i < |r.choices| ==> r.choices[i] == ConvertChoice(SdkChoices(sdk)[i])
    ensures r.usage == ConvertUsage(sdk.usage)
  {
    var cs := SdkChoices(sdk);
    ChatCompletionResponse(sdk.id, sdk.model, seq(|cs|, i requires 0 <= i < |cs| => ConvertChoice(cs[i])), ConvertUsage(sdk.usage))
  }

  /** Converts an SDK reply choice by choice. */
  method ConvertResponse(sdk: SdkResponse) returns (r: ChatCompletionResponse)
    ensures r == ConvertedResponse(sdk)
  {
    var choices: seq<ChatCompletionChoice> := [];
    var sdkChoices := SdkChoices(sdk);
    var i := 0;
    while i < |sdkChoices|
      invariant 0 <= i <= |sdkChoices|
      invariant |choices| == i
      invariant forall k :: 0 <= k < i ==> choices[k] == ConvertChoice(sdkChoices[k])
    {
      var choice := sdkChoices[i];
      var role := DefaultRole;
      var content := "";
      if choice.message.Some? {
        var msg := choice.message.value;
        role := if msg.roleConstant.Some? && msg.roleConstant.value != [] then msg.roleConstant.value
                else msg.role.GetOr(DefaultRole);
        content := if msg.content.Some? && msg.content.value != [] then msg.content.value else "";
      }
      choices := choices + [ChatCompletionChoice(choice.index, ChatMessage(role, content), choice.finishReason)];
      i := i + 1;
    }
    var usage: Option<ChatCompletionUsage> := None;
    if sdk.usage.Some? {
      usage := Some(ChatCompletionUsage(sdk.usage.value.promptTokens, sdk.usage.value.completionTokens, sdk.usage.value.totalTokens));
    }
    r := ChatCompletionResponse(sdk.id, sdk.model, choices, usage);
  }

  /** The model asked for, or the configured default when none (or an empty name) is given. */
  function ResolveModel(model: Option<string>, settings: Settings): (r: string)
    ensures model.Some? && model.value != [] ==> r == model.value
    ensures model.None? || model.value == [] ==> r == settings.defaultModel
  {
    if model.Some? && model.value != [] then model.value else settings.defaultModel
  }

  /** The temperature asked for, including zero, or the configured default when none is given. */
  function ResolveTemperature(temperature: Option<real>, settings: Settings): (r: real)
    ensures temperature.Some? ==> r == temperature.value
    ensures temperature.None? ==> r == settings.llmTemperature
  {
    if temperature.Some? then temperature.value else settings.llmTemperature
  }

  /** The messages as role/content pairs, one per message, in order. */
  function SdkMessages(messages: seq<ChatMessage>): (r: seq<(string, string)>)
    ensures |r| == |messages|
    ensures forall i :: 0 <= i < |r| ==> r[i] == (messages[i].role, messages[i].content)
  {
    seq(|messages|, i requires 0 <= i < |messages| => (messages[i].role, messages[i].content))
  }

  /** The retry policy of the client: the configured number of attempts, waits from one to thirty seconds. */
  function ClientRetryConfig(settings: Settings): (c: RetryConfig)
    ensures c.maxAttempts == settings.llmMaxRetries
    ensures c.baseDelayMs == 1000 && c.maxDelayMs == 30000
    ensures c.exponentialBase == DefaultRetryConfig.exponentialBase
    ensures c.retryableStatusCodes == DefaultRetryConfig.retryableStatusCodes
  {
    RetryConfig(settings.llmMaxRetries, 1000, 30000, DefaultRetryConfig.exponentialBase, DefaultRetryConfig.retryableStatusCodes)
  }

  /** The outcome of a run with a successful reply converted. */
  function ConvertOutcome(o: Outcome<SdkResponse>): (r: Outcome<ChatCompletionResponse>)
    ensures r.Done? <==> o.Done?
    ensures r.Done? ==> r.value == ConvertedResponse(o.value)
    ensures !r.Done? ==> r.ErrorText() == o.ErrorText()
  {
    match o
    case Done(v) => Done(ConvertedResponse(v))
    case Reraised(e) => Reraised(e)
    case Exhausted(m, c) => Exhausted(m, c)
  }

  class OpenRouterClient {
    const settings: Settings
    const retryConfig: RetryConfig
    var sdk: Option<SdkClient>

    constructor(settings: Settings)
      ensures this.settings == settings && retryConfig == ClientRetryConfig(settings)
      ensures sdk.None?
    {
      this.settings := settings;
      retryConfig := ClientRetryConfig(settings);
      sdk := None;
    }

    /** The SDK object, created (with the configured timeout) on first use and reused after. */
    method GetClient() returns (c: SdkClient)
      modifies this
      ensures old(sdk).Some? ==> sdk == old(sdk) && c == old(sdk).value
      ensures old(sdk).None? ==> fresh(c) && sdk == Some(c) && c.timeoutMs == settings.llmTimeoutSeconds * 1000
    {
      if sdk.None? {
        var created := new SdkClient(settings.llmTimeoutSeconds * 1000);
        sdk := Some(created);
      }
      c := sdk.value;
    }

    /** Drops the SDK object; the next request creates a new one. */
    method Close()
      modifies this
      ensures sdk.None?
    {
      if sdk.Some? {
        sdk := None;
      }
    }

    /**
     * Sends a chat completion with the model and temperature filled in, retried
     * by the client's policy. `replies` is what the SDK answers on each attempt.
     * Returns the request sent, how the call ended, and the calls and waits made.
     */
    method ChatCompletion(
      messages: seq<ChatMessage>, model: Option<string>, temperature: Option<real>,
      maxTokens: int, responseFormat: Option<Json>, replies: nat -> Attempt<SdkResponse>)
      returns (request: SdkRequest, outcome: Outcome<ChatCompletionResponse>, calls: nat, delays: seq<nat>)
      modifies this
      ensures request == SdkRequest(ResolveModel(model, settings), SdkMessages(messages),
                                    ResolveTemperature(temperature, settings), maxTokens, responseFormat)
      ensures var run := RetryRun(replies, retryConfig);
        outcome == ConvertOutcome(run.outcome) && calls == run.calls && delays == run.delays
      ensures calls > 0 ==> sdk.Some? && (old(sdk).Some? ==> sdk == old(sdk))
      ensures calls == 0 ==> sdk == old(sdk)
    {
      request := SdkRequest(ResolveModel(model, settings), SdkMessages(messages),
                            ResolveTemperature(temperature, settings), maxTokens, responseFormat);
      var o;
      o, calls, delays := WithRetry(replies, retryConfig);
      if calls > 0 {
        var _ := GetClient();
      }
      if o.Done? {
        var converted := ConvertResponse(o.value);
        outcome := Done(converted);
      } else {
        outcome := ConvertOutcome(o);
      }
    }
  }
}

=== FILE: prompt_templates.dfy ===
/**
 * The prompts sent to the LLM: a fixed system prompt listing the information
 * categories, and an extraction prompt made by filling a template with the
 * (possibly truncated) document text, a publisher line and the category
 * options.
 *
 * The fixed texts are written as runs of short literals joined by `+`: the
 * same strings, in a form the verifier handles much more cheaply than one
 * long literal per line.
 */
module PromptTemplates {
  import opened Wrappers
  import opened Text
  import opened Enums

  /** How a category is listed in the system prompt. */
  function CategoryLine(c: InformatieCategorie): string {
    "- " + c.Name() + ": " + c.Label() + " (artikel " + c.Artikel() + ")"
  }

  /** How a category is offered as an option in the extraction prompt. */
  function OptionLine(c: InformatieCategorie): string {
    c.Name() + " = " + c.Label()
  }

  function CategoryLines(): (r: seq<string>)
    ensures |r| == |AllCategories|
    ensures forall i :: 0 <= i < |r| ==> r[i] == CategoryLine(AllCategories[i])
  {
    seq(|AllCategories|, i requires 0 <= i < |AllCategories| => CategoryLine(AllCategories[i]))
  }

  function OptionLines(): (r: seq<string>)
    ensures |r| == |AllCategories|
    ensures forall i :: 0 <= i < |r| ==> r[i] == OptionLine(AllCategories[i])
  {
    seq(|AllCategories|, i requires 0 <= i < |AllCategories| => OptionLine(AllCategories[i]))
  }

  /** The category list of the system prompt: one line per category, in table order. */
  function CategoryList(): string {
    Join(CategoryLines(), "\n")
  }

  /** The category options of the extraction prompt: one line per category, in table order. */
  function CategoryOptions(): string {
    Join(OptionLines(), "\n")
  }

  const SystemPromptHead: string :=
    "Je bent een expert " + "in Nederlandse " + "overheidsmetadata " + "en de Wet open " +
    "overheid (Woo).\n" +
    "Je taak is het " + "analyseren van " + "documentinhoud en " + "het genereren van " +
    "DIWOO-conforme " + "metadata.\n" +
    "\n" +
    "Je hebt kennis van:\n" +
    "- De 17 " + "Woo-informatiecategorieën " + "uit artikel 3.3\n" +
    "- " + "TOOI-waardelijsten " + "voor " + "documentsoorten, " + "thema's en " +
    "organisaties\n" +
    "- DIWOO " + "XSD-schemastructuur " + "en -vereisten\n" +
    "\n" +
    "De 17 " + "Woo-informatiecategorieën " + "zijn:\n"

  const SystemPromptTail: string :=
    "\n" +
    "\n" +
    "Belangrijke regels:\n" +
    "1. Selecteer ALTIJD " + "minimaal één " + "informatiecategorie " + "uit de 17 " +
    "Woo-categorieën\n" +
    "2. Genereer een " + "officiële titel die " + "het document " + "accuraat beschrijft\n" +
    "3. Wees " + "conservatief met " + "confidentiescores - " + "alleen hoog (>0.8) " +
    "bij duidelijk " + "bewijs\n" +
    "4. Alle tekst moet " + "in het Nederlands " + "zijn tenzij het " + "document in een " +
    "andere taal is\n" +
    "5. Gebruik alleen " + "categorieën die " + "echt van toepassing " + "zijn\n" +
    "\n" +
    "Antwoord ALLEEN met " + "valid JSON volgens " + "het gegeven schema. " +
    "Geen markdown, geen " + "uitleg."

  /** The system prompt: fixed text around the category list. */
  function SystemPrompt(): string {
    SystemPromptHead + CategoryList() + SystemPromptTail
  }

  /** A template is literal text with named placeholders between. */
  datatype Piece = Literal(text: string) | Placeholder(name: string)

  /** Every placeholder of the template has a value. */
  predicate Fills(template: seq<Piece>, values: map<string, string>) {
    forall i :: 0 <= i < |template| && template[i].Placeholder? ==> template[i].name in values
  }

  /**
   * `Template.substitute`: every placeholder replaced by its value, and the
   * values themselves not scanned again; a missing value is an error.
   */
  function Substitute(template: seq<Piece>, values: map<string, string>): (r: Option<string>)
    ensures r.Some? <==> Fills(template, values)
  {
    if template == [] then Some("")
    else
      var rest := Substitute(template[1..], values);
      assert Fills(template, values) <==>
        (template[0].Placeholder? ==> template[0].name in values) && Fills(template[1..], values) by {
        if Fills(template[1..], values) && (template[0].Placeholder? ==> template[0].name in values) {
          forall i | 0 <= i < |template| && template[i].Placeholder?
            ensures template[i].name in values
          {
            if i > 0 {
              assert template[1..][i - 1] == template[i];
            }
          }
        }
      }
      match template[0]
      case Literal(t) => if rest.Some? then Some(t + rest.value) else None
      case Placeholder(n) => if n in values && rest.Some? then Some(values[n] + rest.value) else None
  }

  const TemplateHead: string :=
    "Analyseer het " + "volgende " + "documentfragment en " + "genereer " + "DIWOO-conforme " +
    "metadata.\n" +
    "\n" +
    "DOCUMENTINHOUD:\n" +
    "---\n"

  const TemplateAfterText: string :=
    "\n" +
    "---\n"

  const TemplateAfterPublisher: string :=
    "\n" +
    "\n" +
    "Genereer metadata " + "in exact het " + "volgende " + "JSON-formaat:\n" +
    "{\n" +
    "    " + "\"officiele_titel\": " + "\"De officiële titel " + "van het document " +
    "(verplicht, max 200 " + "tekens)\",\n" +
    "    " + "\"verkorte_titels\": " + "[\"Optionele korte " + "titel\"] of null,\n" +
    "    " + "\"omschrijvingen\": " + "[\"Korte " + "beschrijving van de " + "inhoud (max 500 " +
    "tekens)\"] of null,\n" +
    "    " + "\"informatiecategorieen\": " + "[\n" +
    "        {\n" +
    "            " + "\"categorie\": " + "\"NAAM_VAN_CATEGORIE " + "(kies uit de 17 " +
    "categorieën)\",\n" +
    "            " + "\"confidence\": 0.0 " + "tot 1.0,\n" +
    "            " + "\"reasoning\": \"Korte " + "uitleg waarom deze " + "categorie\"\n" +
    "        }\n" +
    "    ],\n" +
    "    " + "\"documentsoorten\": " + "[\"BRIEF\", \"NOTA\", " + "\"RAPPORT\", " +
    "\"BESLUIT\", " + "\"ADVIES\", " + "\"NOTULEN\", " + "\"AGENDA\", " + "\"VERSLAG\", etc.] of " +
    "null,\n" +
    "    \"trefwoorden\": " + "[\"Relevante " + "zoektermen in " + "Nederlands\"],\n" +
    "    \"taal\": \"NL\",\n" +
    "    \"creatiedatum\": " + "\"YYYY-MM-DD indien " + "te bepalen uit " + "document, anders " +
    "null\",\n" +
    "    " + "\"confidence_scores\": " + "{\n" +
    "        \"titel\": " + "0.0 tot 1.0,\n" +
    "        " + "\"informatiecategorie\": " + "0.0 tot 1.0,\n" +
    "        \"overall\": " + "0.0 tot 1.0\n" +
    "    }\n" +
    "}\n" +
    "\n" +
    "Mogelijke " + "informatiecategorieën " + "(kies de juiste " + "naam):\n"

  const TemplateTail: string :=
    "\n" +
    "\n" +
    "Mogelijke " + "documentsoorten:\n" +
    "BRIEF, NOTA, " + "RAPPORT, BESLUIT, " + "ADVIES, NOTULEN, " + "AGENDA, VERSLAG, " +
    "CONVENANT, " + "OVEREENKOMST, " + "BELEIDSREGEL, " + "CIRCULAIRE, " + "BESCHIKKING, " +
    "WOO_BESLUIT, " + "ONDERZOEKSRAPPORT, " + "JAARVERSLAG, " + "JAARPLAN, " + "KLACHTOORDEEL, " +
    "MEMORIE_VAN_TOELICHTING, " + "AMENDEMENT, MOTIE\n" +
    "\n" +
    "Tips voor analyse:\n" +
    "- Kijk naar " + "briefhoofden, " + "ondertekeningen en " + "referentienummers\n" +
    "- Let op " + "datumnotaties en " + "tijdsaanduidingen\n" +
    "- Identificeer " + "juridische termen " + "die wijzen op " + "specifieke " +
    "documentsoorten\n" +
    "- Bij twijfel: " + "lagere confidence " + "score en meerdere " + "mogelijke " + "categorieën"

  const TruncationMarker: string := "\n\n[... TEKST AFGEKAPT WEGENS LENGTE ...]"

  /**
   * The document text as embedded: the first `maxTextLength` characters and a
   * marker when the text is longer, the whole text otherwise.
   */
  function TruncateText(text: string, maxTextLength: int): (r: string)
    ensures 0 <= maxTextLength < |text| ==> r == text[..maxTextLength] + TruncationMarker
    ensures |text| <= maxTextLength ==> r == text
    ensures maxTextLength < 0 ==> r == SliceTo(text, maxTextLength) + TruncationMarker
  {
    var truncated := SliceTo(text, maxTextLength);
    if |text| > maxTextLength then truncated + TruncationMarker else truncated
  }

  /** The publisher line: nothing without a (non-empty) hint. */
  function PublisherSection(hint: Option<string>): (r: string)
    ensures hint.None? || hint.value == [] ==> r == ""
    ensures hint.Some? && hint.value != [] ==> r == "\nPUBLISHER: Dit document is afkomstig van: " + hint.value + "\n"
  {
    if hint.Some? && hint.value != [] then "\nPUBLISHER: Dit document is afkomstig van: " + hint.value + "\n" else ""
  }

  /** A template of three placeholders between four literal pieces. */
  function ThreeHoles(a: string, x: string, b: string, y: string, c: string, z: string, d: string): seq<Piece> {
    [Literal(a), Placeholder(x), Literal(b), Placeholder(y), Literal(c), Placeholder(z), Literal(d)]
  }

  /** Filling such a template puts each value in the place of its placeholder and keeps the literals. */
  lemma SubstituteThreeHoles(a: string, x: string, b: string, y: string, c: string, z: string, d: string,
                             values: map<string, string>)
    requires x in values && y in values && z in values
    ensures Substitute(ThreeHoles(a, x, b, y, c, z, d), values) == Some(a + values[x] + b + values[y] + c + values[z] + d)
  {
    var t := ThreeHoles(a, x, b, y, c, z, d);
    var s6 := d;
    var s5 := values[z] + s6;
    var s4 := c + s5;
    var s3 := values[y] + s4;
    var s2 := b + s3;
    var s1 := values[x] + s2;
    assert Substitute(t[6..], values) == Some(s6) by { assert t[6..] == [Literal(d)] && t[6..][1..] == [] && d + "" == d; }
    assert Substitute(t[5..], values) == Some(s5) by { assert t[5..][0] == Placeholder(z) && t[5..][1..] == t[6..]; }
    assert Substitute(t[4..], values) == Some(s4) by { assert t[4..][0] == Literal(c) && t[4..][1..] == t[5..]; }
    assert Substitute(t[3..], values) == Some(s3) by { assert t[3..][0] == Placeholder(y) && t[3..][1..] == t[4..]; }
    assert Substitute(t[2..], values) == Some(s2) by { assert t[2..][0] == Literal(b) && t[2..][1..] == t[3..]; }
    assert Substitute(t[1..], values) == Some(s1) by { assert t[1..][0] == Placeholder(x) && t[1..][1..] == t[2..]; }
    assert a + s1 == a + values[x] + b + values[y] + c + values[z] + d;
  }

  /** Filling the three placeholders of such a template with three distinct names. */
  lemma SubstituteThreeValues(a: string, x: string, b: string, y: string, c: string, z: string, d: string,
                              vx: string, vy: string, vz: string)
    requires x != y && x != z && y != z
    ensures Substitute(ThreeHoles(a, x, b, y, c, z, d), map[x := vx, y := vy, z := vz]) ==
            Some(a + vx + b + vy + c + vz + d)
  {
    var values := map[x := vx, y := vy, z := vz];
    assert values[x] == vx && values[y] == vy && values[z] == vz;
    SubstituteThreeHoles(a, x, b, y, c, z, d, values);
  }

  /** The extraction template with its three placeholders. */
  function ExtractionTemplate(): seq<Piece> {
    ThreeHoles(TemplateHead, "document_text", TemplateAfterText, "publisher_hint",
               TemplateAfterPublisher, "category_options", TemplateTail)
  }

  /** The values the extraction template is filled with. */
  function PromptValues(documentText: string, publisherHint: Option<string>, maxTextLength: int): map<string, string> {
    map[
      "document_text" := TruncateText(documentText, maxTextLength),
      "publisher_hint" := PublisherSection(publisherHint),
      "category_options" := CategoryOptions()]
  }

  /** The extraction prompt for a document. */
  function BuildExtractionPrompt(documentText: string, publisherHint: Option<string>, maxTextLength: int): string {
    var values := PromptValues(documentText, publisherHint, maxTextLength);
    SubstituteThreeHoles(TemplateHead, "document_text", TemplateAfterText, "publisher_hint",
                         TemplateAfterPublisher, "category_options", TemplateTail, values);
    Substitute(ExtractionTemplate(), values).value
  }

  /**
   * The extraction prompt is the template's text with the three values put in
   * place of the placeholders, and every other character taken literally.
   */
  lemma PromptLayout(documentText: string, publisherHint: Option<string>, maxTextLength: int)
    ensures BuildExtractionPrompt(documentText, publisherHint, maxTextLength) ==
      TemplateHead + TruncateText(documentText, maxTextLength) +
      TemplateAfterText + PublisherSection(publisherHint) +
      TemplateAfterPublisher + CategoryOptions() + TemplateTail
  {
    assert |"document_text"| == 13 && |"publisher_hint"| == 14 && |"category_options"| == 16;
    SubstituteThreeValues(TemplateHead, "document_text", TemplateAfterText, "publisher_hint",
                          TemplateAfterPublisher, "category_options", TemplateTail,
                          TruncateText(documentText, maxTextLength), PublisherSection(publisherHint), CategoryOptions());
  }

  /** The second of seven concatenated strings sits right after the first. */
  lemma SecondOfSeven(a: string, b: string, c: string, d: string, e: string, f: string, g: string)
    ensures |a| + |b| <= |a + b + c + d + e + f + g|
    ensures (a + b + c + d + e + f + g)[|a|..|a| + |b|] == b
  {
    var p := a + b + c + d + e + f + g;
    assert p == (a + b) + (c + d + e + f + g);
    assert (a + b)[|a|..] == b;
  }

  /** The document text (cut when too long) can be read back from the prompt, right after the head. */
  lemma PromptEmbedsText(documentText: string, publisherHint: Option<string>, maxTextLength: int)
    ensures var p := BuildExtractionPrompt(documentText, publisherHint, maxTextLength);
      var embedded := TruncateText(documentText, maxTextLength);
      |TemplateHead| + |embedded| <= |p| &&
      p[|TemplateHead|..|TemplateHead| + |embedded|] == embedded &&
      (|documentText| <= maxTextLength ==> embedded == documentText)
  {
    PromptLayout(documentText, publisherHint, maxTextLength);
    SecondOfSeven(TemplateHead, TruncateText(documentText, maxTextLength), TemplateAfterText,
                  PublisherSection(publisherHint), TemplateAfterPublisher, CategoryOptions(), TemplateTail);
  }

  /** The system prompt lists every category as "- NAME: label (artikel X)". */
  lemma SystemPromptListsCategory(c: InformatieCategorie)
    ensures Contains(SystemPrompt(), CategoryLine(c))
  {
    var i := CategoryListed(c);
    PartOccursInJoin(SystemPromptHead, CategoryLines(), "\n", SystemPromptTail, i);
  }

  /** The extraction prompt offers every category as a "NAME = label" line. */
  lemma PromptListsOption(documentText: string, publisherHint: Option<string>, maxTextLength: int,
                          c: InformatieCategorie)
    ensures Contains(BuildExtractionPrompt(documentText, publisherHint, maxTextLength), OptionLine(c))
  {
    var i := CategoryListed(c);
    var head := TemplateHead + TruncateText(documentText, maxTextLength) +
      TemplateAfterText + PublisherSection(publisherHint) + TemplateAfterPublisher;
    PartOccursInJoin(head, OptionLines(), "\n", TemplateTail, i);
    assert OptionLines()[i] == OptionLine(c);
    PromptLayout(documentText, publisherHint, maxTextLength);
  }
}

=== FILE: requests.dfy ===
/**
 * The request records of the metadata API: the publisher hint, the document
 * content and the generation request, with their constraints and defaults.
 */
module Requests {
  import opened Wrappers
  import opened Diwoo

  /** The organisation a document is said to come from; its TOOI URI is optional. */
  datatype PublisherHint = PublisherHint(name: string, tooiUri: Option<string>) {
    predicate Valid() { |name| >= 1 }
  }

  /** The extracted text of a document, with its optional file name and origin. */
  datatype DocumentContent = DocumentContent(text: string, filename: Option<string>, sourceUrl: Option<string>) {
    predicate Valid() { 10 <= |text| <= 100000 }
  }

  datatype MetadataGenerationRequest = MetadataGenerationRequest(
    document: DocumentContent,
    publisherHint: Option<PublisherHint>,
    preferredModel: Option<string>,
    includeConfidence: bool)
  {
    predicate Valid() {
      document.Valid() && (publisherHint.Some? ==> publisherHint.value.Valid())
    }
  }

  /**
   * Builds a hint, rejecting an empty organisation name and a TOOI URI that is
   * not a URL; the name is reported first.
   */
  function NewPublisherHint(name: string, tooiUri: Option<string>, isUrl: UrlCheck)
    : (r: Result<PublisherHint, ValidationError>)
    ensures r.Success? <==> name != [] && (tooiUri.Some? ==> isUrl(tooiUri.value))
    ensures r.Failure? ==> r.error.loc == (if name == [] then "name" else "tooi_uri")
    ensures r.Success? ==> r.value.Valid() && r.value.name == name && r.value.tooiUri == tooiUri
  {
    if |name| < 1 then Failure(ValidationError("name"))
    else if tooiUri.Some? && !isUrl(tooiUri.value) then Failure(ValidationError("tooi_uri"))
    else Success(PublisherHint(name, tooiUri))
  }

  /**
   * Builds document content, rejecting a text shorter than 10 or longer than
   * 100000 characters and a source URL that is not a URL; the text is
   * reported first.
   */
  function NewDocumentContent(text: string, filename: Option<string>, sourceUrl: Option<string>, isUrl: UrlCheck)
    : (r: Result<DocumentContent, ValidationError>)
    ensures r.Success? <==> 10 <= |text| <= 100000 && (sourceUrl.Some? ==> isUrl(sourceUrl.value))
    ensures r.Failure? ==> r.error.loc == (if 10 <= |text| <= 100000 then "source_url" else "text")
    ensures r.Success? ==> r.value.Valid() && r.value.text == text &&
                           r.value.filename == filename && r.value.sourceUrl == sourceUrl
  {
    if !(10 <= |text| <= 100000) then Failure(ValidationError("text"))
    else if sourceUrl.Some? && !isUrl(sourceUrl.value) then Failure(ValidationError("source_url"))
    else Success(DocumentContent(text, filename, sourceUrl))
  }

  /**
   * A request that names only its document: no publisher hint, no preferred
   * model, and confidence scores requested.
   */
  function NewRequest(document: DocumentContent): (r: MetadataGenerationRequest)
    ensures r.document == document
    ensures r.publisherHint.None? && r.preferredModel.None? && r.includeConfidence
    ensures document.Valid() ==> r.Valid()
  {
    MetadataGenerationRequest(document, None, None, true)
  }
}

=== FILE: responses.dfy ===
/**
 * The response records of the metadata API: confidence scores bounded to
 * [0, 1], the generated suggestion, the generation response and the
 * description of an information category.
 */
module Responses {
  import opened Wrappers
  import opened Enums
  import opened Diwoo

  /** How sure the model is of one field, between 0 and 1. */
  datatype FieldConfidence = FieldConfidence(fieldName: string, confidence: real, reasoning: Option<string>) {
    predicate Valid() { 0.0 <= confidence <= 1.0 }
  }

  datatype ConfidenceScores = ConfidenceScores(overall: real, fields: seq<FieldConfidence>) {
    predicate Valid() {
      0.0 <= overall <= 1.0 && forall i :: 0 <= i < |fields| ==> fields[i].Valid()
    }
  }

  datatype MetadataSuggestion = MetadataSuggestion(
    metadata: DiWooMetadata,
    confidence: ConfidenceScores,
    modelUsed: string,
    processingTimeMs: int)
  {
    predicate Valid() { metadata.Valid() && confidence.Valid() }
  }

  /** Whether generation worked, with either a suggestion or an error message. */
  datatype MetadataGenerationResponse = MetadataGenerationResponse(
    success: bool,
    requestId: string,
    suggestion: Option<MetadataSuggestion>,
    error: Option<string>)

  /** One information category as the category listing describes it. */
  datatype CategoryInfo = CategoryInfo(code: string, labelText: string, artikel: string, tooiUri: string)

  /** Builds a field confidence, rejecting a score outside [0, 1]. */
  function NewFieldConfidence(fieldName: string, confidence: real, reasoning: Option<string>)
    : (r: Result<FieldConfidence, ValidationError>)
    ensures r.Success? <==> 0.0 <= confidence <= 1.0
    ensures r.Success? ==> r.value.Valid() && r.value == FieldConfidence(fieldName, confidence, reasoning)
  {
    if 0.0 <= confidence <= 1.0 then Success(FieldConfidence(fieldName, confidence, reasoning))
    else Failure(ValidationError("confidence"))
  }

  /** Builds confidence scores from validated fields, rejecting an overall score outside [0, 1]. */
  function NewConfidenceScores(overall: real, fields: seq<FieldConfidence>)
    : (r: Result<ConfidenceScores, ValidationError>)
    requires forall i :: 0 <= i < |fields| ==> fields[i].Valid()
    ensures r.Success? <==> 0.0 <= overall <= 1.0
    ensures r.Success? ==> r.value.Valid() && r.value.overall == overall && r.value.fields == fields
  {
    if 0.0 <= overall <= 1.0 then Success(ConfidenceScores(overall, fields))
    else Failure(ValidationError("overall"))
  }

  /** Scores built from an overall value alone carry no per-field entries. */
  function ScoresWithoutFields(overall: real): (r: Result<ConfidenceScores, ValidationError>)
    ensures r.Success? <==> 0.0 <= overall <= 1.0
    ensures r.Success? ==> r.value.fields == []
  {
    NewConfidenceScores(overall, [])
  }

  /** The listing entry of a category: its member name, label, article and TOOI URI. */
  function CategoryInfoOf(c: InformatieCategorie): (r: CategoryInfo)
    ensures CategorieFromName(r.code) == Some(c)
    ensures r.labelText == c.Label() && r.artikel == c.Artikel()
    ensures r.tooiUri == TooiPrefix + c.Value()
  {
    CategorieFromNameRoundTrip(c, c.Name());
    CategoryInfo(c.Name(), c.Label(), c.Artikel(), c.TooiUri())
  }

  /** The category listing: one entry per category, in article order, each naming its own category. */
  function CategoryListing(): (r: seq<CategoryInfo>)
    ensures |r| == 17
    ensures forall i :: 0 <= i < |r| ==> CategorieFromName(r[i].code) == Some(AllCategories[i])
  {
    CategoriesComplete();
    seq(|AllCategories|, i requires 0 <= i < |AllCategories| => CategoryInfoOf(AllCategories[i]))
  }
}

=== FILE: retry.dfy ===
/**
 * Running an asynchronous call with capped exponential backoff. The call's
 * successive outcomes are given as a script indexed by attempt number (1, 2,
 * ...), and the waits between attempts are recorded in milliseconds instead of
 * being slept.
 */
module Retry {
  import opened Wrappers
  import opened Text

  /** How often to try and how long to wait; delays in milliseconds. */
  datatype RetryConfig = RetryConfig(
    maxAttempts: int,
    baseDelayMs: nat,
    maxDelayMs: nat,
    exponentialBase: nat,
    retryableStatusCodes: seq<int>)

  const DefaultRetryConfig: RetryConfig := RetryConfig(3, 1000, 30000, 2, [429, 500, 502, 503, 504])

  /** An exception a call can raise, with its text. */
  datatype CallError =
    | HttpStatusError(statusCode: int, message: string)  // the server answered with an error status
    | RequestError(message: string)                      // no answer arrived (connection, timeout)
    | OtherException(message: string)                    // anything else

  /** What one call of the function does. */
  datatype Attempt<T> = Returned(value: T) | Failed(error: CallError)

  /** How the retried call ends. */
  datatype Outcome<T> =
    | Done(value: T)
    | Reraised(error: CallError)                          // propagated unchanged
    | Exhausted(message: string, cause: Option<CallError>) // every attempt failed
  {
    /** The text of the exception the call ends with. */
    function ErrorText(): string
      requires !Done?
    {
      if Reraised? then error.message else message
    }
  }

  /** An outcome with the number of calls made and the waits slept between them. */
  datatype Run<T> = Run(outcome: Outcome<T>, calls: nat, delays: seq<nat>)

  /** An error after which the call is tried again while attempts remain. */
  predicate Retryable(config: RetryConfig, e: CallError) {
    e.RequestError? || (e.HttpStatusError? && e.statusCode in config.retryableStatusCodes)
  }

  function Pow(b: nat, e: nat): (r: nat)
    ensures b >= 1 ==> r >= 1
  {
    if e == 0 then 1 else b * Pow(b, e - 1)
  }

  /** The wait after failed attempt `attempt`: base times base-power, capped. */
  function Delay(config: RetryConfig, attempt: nat): (d: nat)
    requires attempt >= 1
    ensures d <= config.maxDelayMs
    ensures d == config.maxDelayMs || d == config.baseDelayMs * Pow(config.exponentialBase, attempt - 1)
    ensures d <= config.baseDelayMs * Pow(config.exponentialBase, attempt - 1)
  {
    var raw := config.baseDelayMs * Pow(config.exponentialBase, attempt - 1);
    if raw < config.maxDelayMs then raw else config.maxDelayMs
  }

  function ExhaustedMessage(config: RetryConfig): string {
    "All " + IntToString(config.maxAttempts) + " attempts failed"
  }

  function Prepend<T>(delays: seq<nat>, run: Run<T>): Run<T> {
    Run(run.outcome, run.calls, delays + run.delays)
  }

  /** The run from attempt `attempt` on, all earlier attempts having failed retryably. */
  function RunFrom<T>(script: nat -> Attempt<T>, config: RetryConfig, attempt: nat): Run<T>
    requires attempt >= 1
    decreases if attempt <= config.maxAttempts then config.maxAttempts - attempt + 1 else 0
  {
    if attempt > config.maxAttempts then Run(Exhausted(ExhaustedMessage(config), None), attempt - 1, [])
    else
      var a := script(attempt);
      if a.Returned? then Run(Done(a.value), attempt, [])
      else if !Retryable(config, a.error) then Run(Reraised(a.error), attempt, [])
      else if attempt == config.maxAttempts then Run(Exhausted(ExhaustedMessage(config), Some(a.error)), attempt, [])
      else Prepend([Delay(config, attempt)], RunFrom(script, config, attempt + 1))
  }

  /** The whole run. */
  function RetryRun<T>(script: nat -> Attempt<T>, config: RetryConfig): Run<T> {
    RunFrom(script, config, 1)
  }

  /**
   * Calls `func` until it returns, fails in a way that is not retried, or the
   * attempts run out, waiting `Delay` between attempts.
   */
  method WithRetry<T>(func: nat -> Attempt<T>, config: RetryConfig)
    returns (outcome: Outcome<T>, calls: nat, delays: seq<nat>)
    ensures Run(outcome, calls, delays) == RetryRun(func, config)
  {
    var last: Option<CallError> := None;
    delays := [];
    calls := 0;
    var attempt := 1;
    while attempt <= config.maxAttempts
      invariant 1 <= attempt && calls == attempt - 1
      invariant attempt <= config.maxAttempts || (attempt == 1 && last.None?)
      invariant RetryRun(func, config) == Prepend(delays, RunFrom(func, config, attempt))
      decreases config.maxAttempts - attempt
    {
      var a := func(attempt);
      calls := attempt;
      if a.Returned? {
        return Done(a.value), calls, delays;
      }
      if !Retryable(config, a.error) {
        return Reraised(a.error), calls, delays;
      }
      last := Some(a.error);
      if attempt == config.maxAttempts {
        break;
      }
      var rest := RunFrom(func, config, attempt + 1);
      assert Prepend(delays, Prepend([Delay(config, attempt)], rest)) == Prepend(delays + [Delay(config, attempt)], rest);
      delays := delays + [Delay(config, attempt)];
      attempt := attempt + 1;
    }
    outcome := Exhausted(ExhaustedMessage(config), last);
  }

  /**
   * How a run from `attempt` ends: the calls made, one wait per call but the
   * last, each wait the backoff of its attempt, and the outcome determined by
   * the first attempt that is not retried (or by the last attempt).
   */
  lemma {:induction false} RunFromShape<T>(script: nat -> Attempt<T>, config: RetryConfig, attempt: nat)
    requires attempt >= 1
    ensures var r := RunFrom(script, config, attempt);
      (attempt > config.maxAttempts ==>
         r == Run(Exhausted(ExhaustedMessage(config), None), attempt - 1, [])) &&
      (attempt <= config.maxAttempts ==>
         attempt <= r.calls <= config.maxAttempts &&
         |r.delays| == r.calls - attempt &&
         (forall k :: 0 <= k < |r.delays| ==> r.delays[k] == Delay(config, attempt + k)) &&
         (forall k :: attempt <= k < r.calls ==> script(k).Failed? && Retryable(config, script(k).error)) &&
         (r.outcome.Done? ==> script(r.calls) == Returned(r.outcome.value)) &&
         (r.outcome.Reraised? ==> script(r.calls) == Failed(r.outcome.error) &&
                                  !Retryable(config, r.outcome.error)) &&
         (r.outcome.Exhausted? ==> r.calls == config.maxAttempts && script(r.calls).Failed? &&
                                   r.outcome == Exhausted(ExhaustedMessage(config), Some(script(r.calls).error)) &&
                                   Retryable(config, script(r.calls).error)))
    decreases if attempt <= config.maxAttempts then config.maxAttempts - attempt + 1 else 0
  {
    if attempt <= config.maxAttempts {
      var a := script(attempt);
      if a.Failed? && Retryable(config, a.error) && attempt < config.maxAttempts {
        RunFromShape(script, config, attempt + 1);
      }
    }
  }

  /**
   * A whole run: at most `maxAttempts` calls (none when it is not positive),
   * a wait after every call but the last, waits following the capped backoff,
   * and an outcome decided by the first attempt that is not retried.
   */
  lemma RetryShape<T>(script: nat -> Attempt<T>, config: RetryConfig)
    ensures var r := RetryRun(script, config);
      (config.maxAttempts <= 0 ==> r == Run(Exhausted(ExhaustedMessage(config), None), 0, [])) &&
      (config.maxAttempts >= 1 ==>
         1 <= r.calls <= config.maxAttempts && |r.delays| == r.calls - 1 &&
         (forall k :: 0 <= k < |r.delays| ==> r.delays[k] == Delay(config, k + 1)) &&
         (forall k :: 1 <= k < r.calls ==> script(k).Failed? && Retryable(config, script(k).error)) &&
         (r.outcome.Done? ==> script(r.calls) == Returned(r.outcome.value)) &&
         (r.outcome.Reraised? ==> script(r.calls) == Failed(r.outcome.error) && !Retryable(config, r.outcome.error)) &&
         (r.outcome.Exhausted? ==> r.calls == config.maxAttempts && script(r.calls).Failed? &&
                                   r.outcome.cause == Some(script(config.maxAttempts).error)))
  {
    RunFromShape(script, config, 1);
  }

  /**
   * The first attempt that is not retried ends the run there: its result is
   * returned (and the function not called again), or its error re-raised,
   * after exactly one wait per earlier attempt.
   */
  lemma RetryStopsAt<T>(script: nat -> Attempt<T>, config: RetryConfig, k: nat)
    requires 1 <= k <= config.maxAttempts
    requires forall j :: 1 <= j < k ==> script(j).Failed? && Retryable(config, script(j).error)
    requires script(k).Returned? || !Retryable(config, script(k).error)
    ensures var r := RetryRun(script, config);
      r.calls == k && |r.delays| == k - 1 &&
      r.outcome == (if script(k).Returned? then Done(script(k).value) else Reraised(script(k).error))
  {
    RunFromShape(script, config, 1);
  }

  /** With a base of at least one the waits never shrink, and none exceeds the cap. */
  lemma DelaysNonDecreasing(config: RetryConfig, i: nat, j: nat)
    requires 1 <= i <= j && config.exponentialBase >= 1
    ensures Delay(config, i) <= Delay(config, j) <= config.maxDelayMs
  {
    PowMonotone(config.exponentialBase, i - 1, j - 1);
    MulMonotone(config.baseDelayMs, Pow(config.exponentialBase, i - 1), Pow(config.exponentialBase, j - 1));
  }

  lemma {:induction false} PowMonotone(b: nat, i: nat, j: nat)
    requires b >= 1 && i <= j
    ensures Pow(b, i) <= Pow(b, j)
    decreases j
  {
    if i < j {
      PowMonotone(b, i, j - 1);
      MulMonotone(Pow(b, j - 1), 1, b);
    }
  }

  lemma MulMonotone(a: nat, x: nat, y: nat)
    requires x <= y
    ensures a * x <= a * y
  {
  }

  /** The default configuration: three attempts, waits of one and then two seconds. */
  lemma DefaultSchedule()
    ensures Delay(DefaultRetryConfig, 1) == 1000 && Delay(DefaultRetryConfig, 2) == 2000
    ensures Delay(DefaultRetryConfig, 6) == 30000
  {
  }
}

=== FILE: text.dfy ===
/**
 * The few Python `str` operations the core relies on, as functions on `string`
 * (a `seq<char>`): `strip`, `upper`/`lower` (ASCII letters only), `replace`,
 * `join` and slicing with a possibly negative end.
 */
module Text {

  /** Python's `str.isspace()` for one character (the Unicode whitespace set). */
  predicate IsSpace(c: char) {
    c == ' ' || ('\t' <= c <= '\r') || ('\U{1c}' <= c <= '\U{1f}') ||
    c == '\U{85}' || c == '\U{a0}' || c == '\U{1680}' ||
    ('\U{2000}' <= c <= '\U{200a}') || c == '\U{2028}' || c == '\U{2029}' ||
    c == '\U{202f}' || c == '\U{205f}' || c == '\U{3000}'
  }

  /** `s` with its leading whitespace removed (Python `lstrip()`). */
  function TrimLeft(s: string): (r: string)
    ensures |r| <= |s| && r == s[|s| - |r|..]
    ensures r == [] || !IsSpace(r[0])
    ensures forall k :: 0 <= k < |s| - |r| ==> IsSpace(s[k])
  {
    if s != [] && IsSpace(s[0]) then TrimLeft(s[1..]) else s
  }

  /** `s` with its trailing whitespace removed (Python `rstrip()`). */
  function TrimRight(s: string): (r: string)
    ensures |r| <= |s| && r == s[..|r|]
    ensures r == [] || !IsSpace(r[|r| - 1])
    ensures forall k :: |r| <= k < |s| ==> IsSpace(s[k])
  {
    if s != [] && IsSpace(s[|s| - 1]) then TrimRight(s[..|s| - 1]) else s
  }

  /** `r` is the slice of `s` from `i` on, and only whitespace lies around it. */
  predicate StrippedAt(s: string, r: string, i: int) {
    0 <= i <= |s| - |r| && r == s[i..i + |r|] &&
    (forall k :: 0 <= k < i ==> IsSpace(s[k])) &&
    (forall k :: i + |r| <= k < |s| ==> IsSpace(s[k]))
  }

  /**
   * Python `str.strip()`: the slice `s[i..i + |r|]` that remains once the
   * whitespace at both ends is dropped; it neither starts nor ends with whitespace.
   */
  function Strip(s: string): (r: string)
    ensures |r| <= |s|
    ensures r == [] || (!IsSpace(r[0]) && !IsSpace(r[|r| - 1]))
    ensures (forall k :: 0 <= k < |s| ==> IsSpace(s[k])) <==> r == []
    ensures exists i :: StrippedAt(s, r, i)
  {
    var left := TrimLeft(s);
    assert StrippedAt(s, TrimRight(left), |s| - |left|);
    TrimRight(left)
  }

  /**
   * One character under Python's `str.upper()`. It is exact for the ASCII
   * letters and for the non-ASCII characters whose upper-case form is ASCII:
   * the dotless i, the long s, the sharp s and the ligatures U+FB00 to U+FB06.
   * Every other character is kept, and then both this and Python's form
   * contain a non-ASCII character. So the two agree on every string whose
   * upper-case form is ASCII, which is all a lookup by member name can match.
   */
  function UpperOf(c: char): (r: string)
    ensures |r| >= 1
  {
    if 'a' <= c <= 'z' then [(c as int - 32) as char]
    else if c == '\U{0131}' then "I"
    else if c == '\U{017F}' then "S"
    else if c == '\U{00DF}' then "SS"
    else if c == '\U{FB00}' then "FF"
    else if c == '\U{FB01}' then "FI"
    else if c == '\U{FB02}' then "FL"
    else if c == '\U{FB03}' then "FFI"
    else if c == '\U{FB04}' then "FFL"
    else if c == '\U{FB05}' || c == '\U{FB06}' then "ST"
    else [c]
  }

  /** Python `str.lower()` restricted to the ASCII letters. */
  function LowerChar(c: char): char {
    if 'A' <= c <= 'Z' then (c as int + 32) as char else c
  }

  /** Python `str.upper()`, exact where the result is ASCII (see `UpperOf`). */
  function Upper(s: string): string {
    if s == [] then [] else UpperOf(s[0]) + Upper(s[1..])
  }

  /** Python `str.lower()`, exact on ASCII strings. */
  function Lower(s: string): string {
    if s == [] then [] else [LowerChar(s[0])] + Lower(s[1..])
  }

  /** Python `s.replace(a, b)` for single characters `a` and `b`. */
  function ReplaceChar(s: string, a: char, b: char): string {
    if s == [] then [] else [if s[0] == a then b else s[0]] + ReplaceChar(s[1..], a, b)
  }

  /** `p` occurs in `s` at index `i`. */
  predicate OccursAt(s: string, i: int, p: string) {
    0 <= i && i + |p| <= |s| && s[i..i + |p|] == p
  }

  /**
   * Python `s.replace(pat, rep)`: every non-overlapping occurrence of `pat`,
   * scanning left to right, is replaced by `rep`; an empty `pat` inserts `rep`
   * before every character and at the end.
   */
  function ReplaceAll(s: string, pat: string, rep: string): (r: string)
    decreases |s|
  {
    if |pat| == 0 then
      (if s == [] then rep else rep + [s[0]] + ReplaceAll(s[1..], pat, rep))
    else if |s| < |pat| then s
    else if s[..|pat|] == pat then rep + ReplaceAll(s[|pat|..], pat, rep)
    else [s[0]] + ReplaceAll(s[1..], pat, rep)
  }

  /** Python `sep.join(parts)`. */
  function Join(parts: seq<string>, sep: string): string {
    if |parts| == 0 then ""
    else if |parts| == 1 then parts[0]
    else parts[0] + sep + Join(parts[1..], sep)
  }

  /** `p` occurs somewhere in `s`. */
  predicate Contains(s: string, p: string) {
    exists k :: 0 <= k <= |s| && OccursAt(s, k, p)
  }

  lemma OccursShift(a: string, b: string, c: string, k: int, p: string)
    requires OccursAt(b, k, p)
    ensures OccursAt(a + b + c, |a| + k, p)
  {
    assert (a + b + c)[|a| + k..|a| + k + |p|] == b[k..k + |p|];
  }

  /** Each part of a join occurs in it. */
  lemma {:induction false} JoinContains(parts: seq<string>, sep: string, i: nat)
    requires i < |parts|
    ensures Contains(Join(parts, sep), parts[i])
  {
    if |parts| == 1 {
      assert OccursAt(Join(parts, sep), 0, parts[0]);
    } else if i == 0 {
      OccursShift([], parts[0], sep + Join(parts[1..], sep), 0, parts[0]);
      assert parts[0] + sep + Join(parts[1..], sep) == [] + parts[0] + (sep + Join(parts[1..], sep));
    } else {
      JoinContains(parts[1..], sep, i - 1);
      var k :| OccursAt(Join(parts[1..], sep), k, parts[i]);
      OccursShift(parts[0] + sep, Join(parts[1..], sep), [], k, parts[i]);
      assert Join(parts, sep) == parts[0] + sep + Join(parts[1..], sep) + [];
    }
  }

  /** Each part of a join occurs in any text the join is embedded in. */
  lemma PartOccursInJoin(head: string, parts: seq<string>, sep: string, tail: string, i: nat)
    requires i < |parts|
    ensures Contains(head + Join(parts, sep) + tail, parts[i])
  {
    JoinContains(parts, sep, i);
    var k :| 0 <= k <= |Join(parts, sep)| && OccursAt(Join(parts, sep), k, parts[i]);
    OccursShift(head, Join(parts, sep), tail, k, parts[i]);
  }

  /** Python `s[:n]` for any integer `n` (a negative `n` counts from the end). */
  function SliceTo(s: string, n: int): (r: string)
    ensures r <= s
    ensures 0 <= n ==> |r| == if n < |s| then n else |s|
  {
    if n >= 0 then (if n < |s| then s[..n] else s)
    else if |s| + n > 0 then s[..|s| + n] else []
  }

  predicate IsDigit(c: char) {
    '0' <= c <= '9'
  }

  /** Python `str(n)` for a natural number: its decimal digits, without leading zeros. */
  function NatToString(n: nat): (r: string)
    ensures |r| >= 1 && forall k :: 0 <= k < |r| ==> IsDigit(r[k])
    ensures r[0] == '0' ==> n == 0 && r == "0"
  {
    if n < 10 then [(48 + n) as char]
    else NatToString(n / 10) + [(48 + n % 10) as char]
  }

  /** Python `str(i)` for an integer: a minus sign before the digits of a negative number. */
  function IntToString(i: int): (r: string)
    ensures |r| >= 1
    ensures i >= 0 <==> IsDigit(r[0])
    ensures i < 0 <==> r[0] == '-'
  {
    if i < 0 then "-" + NatToString(-i) else NatToString(i)
  }

  /** Upper-case ASCII letters, digits and underscores only, as in a Python enum member name. */
  predicate IsMemberName(s: string) {
    forall k :: 0 <= k < |s| ==> ('A' <= s[k] <= 'Z' || '0' <= s[k] <= '9' || s[k] == '_')
  }

  /**
   * Lower-casing a member name and turning its underscores into spaces loses
   * nothing: upper-casing and turning spaces back into underscores restores it,
   * and the result has neither underscores nor upper-case letters.
   */
  lemma {:induction false} HumanizeRoundTrip(s: string)
    requires IsMemberName(s)
    ensures ReplaceChar(Upper(ReplaceChar(Lower(s), '_', ' ')), ' ', '_') == s
    ensures var h := ReplaceChar(Lower(s), '_', ' ');
            |h| == |s| && forall k :: 0 <= k < |h| ==> h[k] != '_' && !('A' <= h[k] <= 'Z')
  {
    if s != [] {
      HumanizeRoundTrip(s[1..]);
      var h := ReplaceChar(Lower(s), '_', ' ');
      var c := if LowerChar(s[0]) == '_' then ' ' else LowerChar(s[0]);
      assert h == [c] + ReplaceChar(Lower(s[1..]), '_', ' ');
      assert Upper(h) == UpperOf(c) + Upper(h[1..]);
      assert UpperOf(c) == [if s[0] == '_' then ' ' else s[0]];
      var u := Upper(h);
      assert ReplaceChar(u, ' ', '_') == [s[0]] + ReplaceChar(u[1..], ' ', '_');
    }
  }
}

=== FILE: wrappers.dfy ===
/** Failure-compatible wrapper shared by every module of the model. */
module Wrappers {

  /** Python's `X | None`: a value that may be absent. */
  datatype Option<+T> = None | Some(value: T) {

    /** The value, or `default` when absent (Python's `x or default` on a non-falsy x). */
    function GetOr(default: T): T {
      match this
      case Some(v) => v
      case None => default
    }
  }

  /** A value or the error that replaced it (Python's raise, made a value). */
  datatype Result<+T, +E> = Success(value: T) | Failure(error: E)
}

=== FILE: xml_cleaning.dfy ===
/**
 * The string side of the DIWOO XML reader: taking the category code off the
 * end of a TOOI URI, and cutting the document element out of a model's answer
 * (code fences removed, declaration kept or supplied).
 */
module XmlCleaning {
  import opened Wrappers
  import opened Text
  import opened Enums

  // ---------------------------------------------------------------------------
  // Category codes at the end of a URI: the search for `(c_[a-z0-9_]+)$`
  // ---------------------------------------------------------------------------

  /** Where `$` may match: at the very end, or before one final newline. */
  function AnchorEnd(s: string): (e: nat)
    ensures e <= |s|
    ensures e == |s| || (e == |s| - 1 && s[e] == '\n')
  {
    if |s| > 0 && s[|s| - 1] == '\n' then |s| - 1 else |s|
  }

  /** The pattern matches starting at `i`: "c_", then one or more code characters up to the anchor. */
  predicate CodeMatchAt(s: string, i: int) {
    0 <= i && i + 2 < AnchorEnd(s) && s[i] == 'c' && s[i + 1] == '_' &&
    forall k :: i + 2 <= k < AnchorEnd(s) ==> IsCodeChar(s[k])
  }

  /** The leftmost position from `i` on where the pattern matches. */
  function CodeSearch(s: string, i: nat): (r: Option<nat>)
    requires i <= |s|
    ensures r.Some? ==> i <= r.value && CodeMatchAt(s, r.value)
    ensures r.Some? ==> forall j :: i <= j < r.value ==> !CodeMatchAt(s, j)
    ensures r.None? ==> forall j :: i <= j ==> !CodeMatchAt(s, j)
    decreases |s| - i
  {
    if i == |s| then None
    else if CodeMatchAt(s, i) then Some(i)
    else CodeSearch(s, i + 1)
  }

  /**
   * The code at the end of a resource URI, if the URI is present, non-empty and
   * ends (possibly before one newline) with `c_` and code characters.
   */
  function ExtractCategoryCode(resource: Option<string>): (r: Option<string>)
    ensures r.Some? ==> resource.Some? && IsCode(r.value)
    ensures r.Some? ==> exists i :: CodeMatchAt(resource.value, i) && r.value == resource.value[i..AnchorEnd(resource.value)] &&
                                    forall j :: 0 <= j < i ==> !CodeMatchAt(resource.value, j)
    ensures r.None? <==> (resource.None? || forall i :: !CodeMatchAt(resource.value, i))
  {
    match resource
    case None => None
    case Some(s) =>
      if s == [] then None
      else
        match CodeSearch(s, 0)
        case Some(i) => Some(s[i..AnchorEnd(s)])
        case None => None
  }

  /** A TOOI URI of a code gives that code back. */
  lemma {:induction false} ExtractFromTooiUri(code: string)
    requires IsCode(code)
    ensures ExtractCategoryCode(Some(TooiPrefix + code)) == Some(code)
  {
    var s := TooiPrefix + code;
    var p := |TooiPrefix|;
    assert AnchorEnd(s) == |s| by {
      assert s[|s| - 1] == code[|code| - 1];
    }
    assert CodeMatchAt(s, p) by {
      assert s[p..] == code;
      forall k | p + 2 <= k < |s| ensures IsCodeChar(s[k]) {
        assert s[k] == code[k - p];
      }
    }
    forall j | 0 <= j < p ensures !CodeMatchAt(s, j) {
      // the prefix ends with "n/", and its '/' lies inside any match that starts earlier
      assert s[p - 1] == '/' && s[p - 2] == 'n';
    }
    var r := CodeSearch(s, 0);
    assert r == Some(p);
    assert s[p..AnchorEnd(s)] == code;
  }

  /** Reading the code off a category's TOOI URI and looking it up gives the category back. */
  lemma CategoryFromTooiUri(c: InformatieCategorie)
    ensures ExtractCategoryCode(Some(c.TooiUri())).Some?
    ensures CategorieFromValue(ExtractCategoryCode(Some(c.TooiUri())).value) == Some(c)
  {
    CategoryValueIsCode(c);
    ExtractFromTooiUri(c.Value());
    CategorieFromValueRoundTrip(c, c.Value());
  }

  lemma DocumentSoortFromTooiUri(d: DocumentSoort)
    ensures ExtractCategoryCode(Some(d.TooiUri())).Some?
    ensures DocumentSoortFromValue(ExtractCategoryCode(Some(d.TooiUri())).value) == Some(d)
  {
    DocumentSoortValueIsCode(d);
    ExtractFromTooiUri(d.Value());
    DocumentSoortFromValueRoundTrip(d, d.Value());
  }

  lemma SoortHandelingFromTooiUri(h: SoortHandeling)
    ensures ExtractCategoryCode(Some(h.TooiUri())).Some?
    ensures SoortHandelingFromValue(ExtractCategoryCode(Some(h.TooiUri())).value) == Some(h)
  {
    SoortHandelingValueIsCode(h);
    ExtractFromTooiUri(h.Value());
    SoortHandelingFromValueRoundTrip(h, h.Value());
  }

  lemma TaalFromTooiUri(t: Taal)
    ensures ExtractCategoryCode(Some(t.TooiUri())).Some?
    ensures TaalFromValue(ExtractCategoryCode(Some(t.TooiUri())).value) == Some(t)
  {
    TaalValueIsCode(t);
    ExtractFromTooiUri(t.Value());
    TaalFromValueRoundTrip(t, t.Value());
  }

  lemma DocumentRelatieFromTooiUri(r: DocumentRelatie)
    ensures ExtractCategoryCode(Some(r.TooiUri())).Some?
    ensures DocumentRelatieFromValue(ExtractCategoryCode(Some(r.TooiUri())).value) == Some(r)
  {
    DocumentRelatieValueIsCode(r);
    ExtractFromTooiUri(r.Value());
    DocumentRelatieFromValueRoundTrip(r, r.Value());
  }

  // ---------------------------------------------------------------------------
  // Cleaning a model's answer
  // ---------------------------------------------------------------------------

  const XmlFence: string := "```xml"
  const Fence: string := "```"
  const OpenTag: string := "<diwoo:Document"
  const CloseTag: string := "</diwoo:Document>"
  const DeclStart: string := "<?xml"
  const DeclEnd: string := "?>"
  const DefaultDeclaration: string := "<?xml version=\"1.0\" encoding=\"UTF-8\"?>"

  /** The first index from `i` on that is not whitespace. */
  function SkipSpace(s: string, i: nat): (j: nat)
    requires i <= |s|
    ensures i <= j <= |s|
    ensures forall k :: i <= k < j ==> IsSpace(s[k])
    ensures j == |s| || !IsSpace(s[j])
    decreases |s| - i
  {
    if i == |s| || !IsSpace(s[i]) then i else SkipSpace(s, i + 1)
  }

  /** Removes every occurrence of `fence` together with the whitespace after it, scanning left to right. */
  function RemoveFence(s: string, fence: string): (r: string)
    requires fence != []
    ensures |r| <= |s|
    ensures !(exists i :: OccursAt(s, i, fence)) ==> r == s
    decreases |s|
  {
    if |s| < |fence| then s
    else if s[..|fence|] == fence then
      assert OccursAt(s, 0, fence);
      RemoveFence(s[SkipSpace(s, |fence|)..], fence)
    else
      assert forall i :: OccursAt(s[1..], i, fence) ==> OccursAt(s, i + 1, fence) by {
        forall i | OccursAt(s[1..], i, fence) ensures OccursAt(s, i + 1, fence) {
          assert s[1..][i..i + |fence|] == s[i + 1..i + 1 + |fence|];
        }
      }
      [s[0]] + RemoveFence(s[1..], fence)
  }

  /** The fence-free text the search runs on. */
  function StripFences(raw: string): string {
    RemoveFence(RemoveFence(raw, XmlFence), Fence)
  }

  /** The last position at or after `lo` and at or before `hi` where `CloseTag` occurs. */
  function LastClose(s: string, lo: nat, hi: int): (r: Option<nat>)
    ensures r.Some? ==> lo <= r.value <= hi && OccursAt(s, r.value, CloseTag)
    ensures r.Some? ==> forall c :: r.value < c <= hi ==> !OccursAt(s, c, CloseTag)
    ensures r.None? ==> forall c :: lo <= c <= hi ==> !OccursAt(s, c, CloseTag)
    decreases hi - lo
  {
    if hi < lo then None
    else if OccursAt(s, hi, CloseTag) then Some(hi)
    else LastClose(s, lo, hi - 1)
  }

  /** The last closing tag after an opening tag at `o`, which the greedy `.*` runs to. */
  function BodyClose(s: string, o: nat): (r: Option<nat>)
    ensures r.Some? ==> o + |OpenTag| <= r.value && OccursAt(s, r.value, CloseTag)
    ensures r.Some? ==> forall c :: r.value < c ==> !OccursAt(s, c, CloseTag)
    ensures r.None? ==> forall c :: o + |OpenTag| <= c ==> !OccursAt(s, c, CloseTag)
  {
    LastClose(s, o + |OpenTag|, |s| - |CloseTag|)
  }

  /** The document element starts at `o` and a closing tag follows it. */
  predicate BodyAt(s: string, o: nat) {
    OccursAt(s, o, OpenTag) && BodyClose(s, o).Some?
  }

  /**
   * The lazy `.*?` of the declaration: the first `?>` at or after `q` after
   * which optional whitespace and a document element follow.
   */
  function DeclClose(s: string, q: nat): (r: Option<nat>)
    requires q <= |s|
    ensures r.Some? ==> q <= r.value && r.value + 2 <= |s| && OccursAt(s, r.value, DeclEnd)
    ensures r.Some? ==> BodyAt(s, SkipSpace(s, r.value + 2))
    decreases |s| - q
  {
    if q + 2 > |s| then None
    else if OccursAt(s, q, DeclEnd) && BodyAt(s, SkipSpace(s, q + 2)) then Some(q)
    else DeclClose(s, q + 1)
  }

  /** Text running from `<?xml` to `?>`. */
  predicate IsDeclaration(d: string) {
    |d| >= |DeclStart| + |DeclEnd| && d[..|DeclStart|] == DeclStart && d[|d| - |DeclEnd|..] == DeclEnd
  }

  lemma DefaultIsDeclaration()
    ensures IsDeclaration(DefaultDeclaration)
  {
    assert DefaultDeclaration[..|DeclStart|] == DeclStart;
    assert DefaultDeclaration[|DefaultDeclaration| - |DeclEnd|..] == DeclEnd;
  }

  lemma DeclarationSlice(s: string, p: nat, q: nat)
    requires OccursAt(s, p, DeclStart) && p + |DeclStart| <= q && OccursAt(s, q, DeclEnd)
    ensures IsDeclaration(s[p..q + 2])
  {
    var d := s[p..q + 2];
    assert d[..|DeclStart|] == s[p..p + |DeclStart|];
    assert d[|d| - |DeclEnd|..] == s[q..q + 2];
  }

  /** A successful match: the declaration if one was captured, and where the element starts. */
  datatype DocMatch = DocMatch(declaration: Option<string>, bodyStart: nat)

  /**
   * The pattern tried at `p`: first with a declaration `<?xml … ?>`, then
   * without one; either way whitespace may precede the element.
   */
  function MatchAt(s: string, p: nat): (r: Option<DocMatch>)
    requires p <= |s|
    ensures r.Some? ==> BodyAt(s, r.value.bodyStart) && p <= r.value.bodyStart
    ensures r.Some? && r.value.declaration.Some? ==>
              OccursAt(s, p, DeclStart) && IsDeclaration(r.value.declaration.value)
  {
    var viaDecl := if OccursAt(s, p, DeclStart) then DeclClose(s, p + |DeclStart|) else None;
    if viaDecl.Some? then
      var q := viaDecl.value;
      DeclarationSlice(s, p, q);
      Some(DocMatch(Some(s[p..q + 2]), SkipSpace(s, q + 2)))
    else
      var b := SkipSpace(s, p);
      if BodyAt(s, b) then Some(DocMatch(None, b)) else None
  }

  /** `re.search`: the leftmost position from `p` on where the pattern matches. */
  function DocSearch(s: string, p: nat): (r: Option<DocMatch>)
    requires p <= |s|
    ensures r.Some? ==> BodyAt(s, r.value.bodyStart) && p <= r.value.bodyStart <= |s|
    ensures r.Some? && r.value.declaration.Some? ==> IsDeclaration(r.value.declaration.value)
    ensures r.None? ==> forall o :: p <= o <= |s| ==> MatchAt(s, o).None?
    decreases |s| - p
  {
    match MatchAt(s, p)
    case Some(m) => Some(m)
    case None => if p == |s| then None else DocSearch(s, p + 1)
  }

  /** The second, declaration-less search: the leftmost element with a closing tag after it. */
  function BareSearch(s: string, o: nat): (r: Option<nat>)
    requires o <= |s|
    ensures r.Some? ==> o <= r.value && BodyAt(s, r.value)
    ensures r.None? ==> forall k :: o <= k <= |s| ==> !BodyAt(s, k)
    decreases |s| - o
  {
    if BodyAt(s, o) then Some(o)
    else if o == |s| then None
    else BareSearch(s, o + 1)
  }

  /** The element from its opening tag to the end of the last closing tag. */
  function Body(s: string, o: nat): (b: string)
    requires BodyAt(s, o)
    ensures OpenTag <= b
    ensures |b| >= |CloseTag| && b[|b| - |CloseTag|..] == CloseTag
  {
    var c := BodyClose(s, o).value;
    var b := s[o..c + |CloseTag|];
    assert b[..|OpenTag|] == s[o..o + |OpenTag|];
    assert b[|b| - |CloseTag|..] == s[c..c + |CloseTag|];
    b
  }

  /**
   * The answer reduced to an XML document: fences removed; if a document element
   * is found, its declaration (or the default one), a newline and the element;
   * otherwise the fence-free text, trimmed.
   */
  function CleanXmlResponse(raw: string): string {
    var cleaned := StripFences(raw);
    match DocSearch(cleaned, 0)
    case Some(m) => m.declaration.GetOr(DefaultDeclaration) + "\n" + Body(cleaned, m.bodyStart)
    case None =>
      match BareSearch(cleaned, 0)
      case Some(o) => DefaultDeclaration + "\n" + Body(cleaned, o)
      case None => Strip(cleaned)
  }

  /** Wherever the declaration-less pattern matches, the full pattern matches as well. */
  lemma MatchAtBody(s: string, o: nat)
    requires o <= |s| && BodyAt(s, o)
    ensures MatchAt(s, o).Some?
  {
    assert s[o] == '<';
    assert SkipSpace(s, o) == o;
  }

  /** The fallback search can never succeed where the first search failed. */
  lemma BareSearchUnreachable(s: string)
    ensures DocSearch(s, 0).None? ==> BareSearch(s, 0).None?
  {
    if DocSearch(s, 0).None? && BareSearch(s, 0).Some? {
      MatchAtBody(s, BareSearch(s, 0).value);
      assert false;
    }
  }

  /**
   * When the fence-free text holds an opening tag followed by a closing tag,
   * the result is a declaration (the one found or the default), a newline, and
   * the element from an opening tag to the last closing tag.
   */
  lemma CleanXmlResponseFound(raw: string, o: nat) returns (declaration: string, start: nat)
    requires o <= |StripFences(raw)| && BodyAt(StripFences(raw), o)
    ensures start <= |StripFences(raw)| && BodyAt(StripFences(raw), start)
    ensures IsDeclaration(declaration)
    ensures CleanXmlResponse(raw) == declaration + "\n" + Body(StripFences(raw), start)
  {
    var cleaned := StripFences(raw);
    MatchAtBody(cleaned, o);
    assert DocSearch(cleaned, 0).Some?;
    var m := DocSearch(cleaned, 0).value;
    DefaultIsDeclaration();
    declaration := m.declaration.GetOr(DefaultDeclaration);
    start := m.bodyStart;
  }

  /** Otherwise the result is the fence-free text, trimmed. */
  lemma CleanXmlResponseNotFound(raw: string)
    requires forall o :: 0 <= o <= |StripFences(raw)| ==> !BodyAt(StripFences(raw), o)
    ensures CleanXmlResponse(raw) == Strip(StripFences(raw))
  {
    var cleaned := StripFences(raw);
    BareSearchUnreachable(cleaned);
  }
}

=== FILE: xml_parser.dfy ===
/**
 * Reading a DIWOO metadata record out of a parsed XML tree. Every field falls
 * back to a default when its element is missing or unusable, so that the record
 * built always satisfies the schema's constraints. The tokeniser, the XSD
 * schema, ISO date parsing and the clock are supplied from outside.
 */
module XmlParser {
  import opened Wrappers
  import opened Text
  import opened Enums
  import opened Diwoo
  import opened XmlCleaning

  const DiwooNamespace: string := "https://standaarden.overheid.nl/diwoo/metadata/"

  /** The expanded name of `diwoo:local`. */
  function DiwooTag(local: string): string {
    "{" + DiwooNamespace + "}" + local
  }

  /** A parsed element: expanded tag, attributes, direct text and child elements. */
  datatype Element = Element(tag: string, attrs: map<string, string>, text: Option<string>, children: seq<Element>)

  datatype XmlError =
    | InvalidXml                           // the tokeniser rejected the text
    | MissingDiWoo                         // the root has no diwoo:DiWoo child
    | XsdValidationFailed                  // a loaded schema rejected the tree
    | FieldRejected(error: ValidationError) // a value the record is built from failed validation
  {
    /** The error is raised as a parse error (rather than a validation error). */
    predicate IsParseError() { InvalidXml? || MissingDiWoo? }
  }

  const PlaceholderOrganisatieUri: string := "https://identifier.overheid.nl/tooi/id/organisatie/placeholder"
  const UnknownOrganisatie: string := "Onbekende organisatie"
  const UnknownTitel: string := "Onbekende titel"
  const UnknownDocument: string := "Onbekend document"

  // ---------------------------------------------------------------------------
  // Tree access
  // ---------------------------------------------------------------------------

  function FindIn(cs: seq<Element>, tag: string): (r: Option<Element>)
    ensures r.Some? ==> r.value in cs && r.value.tag == tag
    ensures r.None? <==> forall c :: c in cs ==> c.tag != tag
    ensures r.Some? && cs != [] && cs[0].tag == tag ==> r.value == cs[0]
  {
    if cs == [] then None
    else if cs[0].tag == tag then Some(cs[0])
    else FindIn(cs[1..], tag)
  }

  /** The first child `diwoo:local`, if any. */
  function Find(parent: Element, local: string): (r: Option<Element>)
    ensures r.Some? ==> r.value in parent.children && r.value.tag == DiwooTag(local)
    ensures r.None? <==> forall c :: c in parent.children ==> c.tag != DiwooTag(local)
  {
    FindIn(parent.children, DiwooTag(local))
  }

  function FindAllIn(cs: seq<Element>, tag: string): (r: seq<Element>)
    ensures forall e :: e in r <==> e in cs && e.tag == tag
    ensures |r| <= |cs|
  {
    if cs == [] then []
    else (if cs[0].tag == tag then [cs[0]] else []) + FindAllIn(cs[1..], tag)
  }

  /** Every child `diwoo:local`, in document order. */
  function FindAll(parent: Element, local: string): (r: seq<Element>)
    ensures forall e :: e in r <==> e in parent.children && e.tag == DiwooTag(local)
  {
    FindAllIn(parent.children, DiwooTag(local))
  }

  /** The element's direct text, trimmed; absent for a missing element or empty text. */
  function GetText(e: Option<Element>): (r: Option<string>)
    ensures r.None? <==> (e.None? || e.value.text.None? || e.value.text.value == [])
    ensures r.Some? ==> r.value == Strip(e.value.text.value)
  {
    match e
    case None => None
    case Some(el) =>
      match el.text
      case Some(t) => if t != [] then Some(Strip(t)) else None
      case None => None
  }

  function GetAttr(e: Option<Element>, name: string): (r: Option<string>)
    ensures r.Some? <==> e.Some? && name in e.value.attrs
    ensures r.Some? ==> r.value == e.value.attrs[name]
  {
    match e
    case None => None
    case Some(el) => if name in el.attrs then Some(el.attrs[name]) else None
  }

  /** Python `s or default` for an optional string. */
  function OrDefault(s: Option<string>, default: string): (r: string)
    ensures s.Some? && s.value != [] ==> r == s.value
    ensures (s.None? || s.value == []) ==> r == default
  {
    if s.Some? && s.value != [] then s.value else default
  }

  /** A list left empty is recorded as absent. */
  function NoneIfEmpty<T>(xs: Option<seq<T>>): (r: Option<seq<T>>)
    ensures r.Some? <==> xs.Some? && xs.value != []
    ensures r.Some? ==> r.value == xs.value
  {
    if xs.Some? && xs.value != [] then xs else None
  }

  /** The trimmed, non-empty texts of the elements, in order. */
  function Texts(es: seq<Element>): (r: seq<string>)
    ensures |r| <= |es|
    ensures forall t :: t in r ==> t != [] && exists e :: e in es && GetText(Some(e)) == Some(t)
    ensures forall e :: e in es && GetText(Some(e)).Some? && GetText(Some(e)).value != [] ==>
                        GetText(Some(e)).value in r
  {
    if es == [] then []
    else
      var t := GetText(Some(es[0]));
      (if t.Some? && t.value != [] then [t.value] else []) + Texts(es[1..])
  }

  // ---------------------------------------------------------------------------
  // Dates
  // ---------------------------------------------------------------------------

  /** A date from the first ten characters of the text; nothing for missing, empty or unparseable text. */
  function ParseDate(value: Option<string>, env: Env): (r: Option<Date>)
    ensures value.None? || value.value == [] ==> r.None?
    ensures value.Some? && value.value != [] ==> r == env.parseDate(SliceTo(value.value, 10))
  {
    if value.None? || value.value == [] then None else env.parseDate(SliceTo(value.value, 10))
  }

  /** A date-time from the text with every "Z" read as "+00:00". */
  function ParseDateTime(value: Option<string>, env: Env): (r: Option<DateTime>)
    ensures value.None? || value.value == [] ==> r.None?
    ensures value.Some? && value.value != [] ==> r == env.parseDateTime(ReplaceAll(value.value, "Z", "+00:00"))
  {
    if value.None? || value.value == [] then None
    else env.parseDateTime(ReplaceAll(value.value, "Z", "+00:00"))
  }

  // ---------------------------------------------------------------------------
  // Field readers
  // ---------------------------------------------------------------------------

  /** The element carries a non-empty `resource` that `HttpUrl` refuses. */
  predicate ResourceRejected(e: Option<Element>, env: Env) {
    var resource := GetAttr(e, "resource");
    resource.Some? && resource.value != [] && !env.isUrl(resource.value)
  }

  /**
   * An organisation: its `resource` attribute when non-empty, else the
   * placeholder URI; its text when non-blank, else "Onbekende organisatie".
   * A non-empty `resource` that is not a URL fails validation.
   */
  function ParseOrganisation(e: Option<Element>, env: Env): (r: Result<Organisatie, ValidationError>)
    ensures r.Failure? <==> ResourceRejected(e, env)
    ensures r.Failure? ==> r.error == ValidationError("resource")
    ensures r.Success? ==> r.value.resource != [] && r.value.labelText != []
    ensures e.None? ==> r == Success(Organisatie(PlaceholderOrganisatieUri, UnknownOrganisatie))
    ensures r.Success? && GetAttr(e, "resource").Some? && GetAttr(e, "resource").value != [] ==>
              r.value.resource == GetAttr(e, "resource").value && env.isUrl(r.value.resource)
    ensures GetAttr(e, "resource").None? || GetAttr(e, "resource").value == [] ==>
              r.Success? && r.value.resource == PlaceholderOrganisatieUri
    ensures r.Success? && GetText(e).Some? && GetText(e).value != [] ==> r.value.labelText == GetText(e).value
    ensures r.Success? && (GetText(e).None? || GetText(e).value == []) ==> r.value.labelText == UnknownOrganisatie
  {
    if e.None? then Success(Organisatie(PlaceholderOrganisatieUri, UnknownOrganisatie))
    else
      var resource := GetAttr(e, "resource");
      var name := OrDefault(GetText(e), UnknownOrganisatie);
      if resource.Some? && resource.value != [] then
        if env.isUrl(resource.value) then Success(Organisatie(resource.value, name))
        else Failure(ValidationError("resource"))
      else Success(Organisatie(PlaceholderOrganisatieUri, name))
  }

  /**
   * The titles: the official title is never empty (it defaults to "Onbekende
   * titel") and is cut to 2000 characters; empty short or alternative title
   * lists are recorded as absent.
   */
  function ParseTitelcollectie(e: Option<Element>): (r: TitelCollectie)
    ensures r.Valid()
    ensures e.None? ==> r == TitelCollectie(UnknownTitel, None, None)
    ensures e.Some? ==> r.officieleTitel == SliceTo(OrDefault(GetText(Find(e.value, "officieleTitel")), UnknownTitel), 2000)
    ensures e.Some? ==> r.verkorteTitels == NoneIfEmpty(Some(Texts(FindAll(e.value, "verkorteTitel"))))
    ensures e.Some? ==> r.alternatieveTitels == NoneIfEmpty(Some(Texts(FindAll(e.value, "alternatieveTitel"))))
    ensures r.verkorteTitels.Some? ==> r.verkorteTitels.value != [] && forall t :: t in r.verkorteTitels.value ==> t != []
    ensures r.alternatieveTitels.Some? ==> r.alternatieveTitels.value != [] && forall t :: t in r.alternatieveTitels.value ==> t != []
  {
    match e
    case None => TitelCollectie(UnknownTitel, None, None)
    case Some(el) =>
      var titel := OrDefault(GetText(Find(el, "officieleTitel")), UnknownTitel);
      var verkort := Texts(FindAll(el, "verkorteTitel"));
      var alternatief := Texts(FindAll(el, "alternatieveTitel"));
      TitelCollectie(SliceTo(titel, 2000), NoneIfEmpty(Some(verkort)), NoneIfEmpty(Some(alternatief)))
  }

  /** The validity period, present only when at least one of its dates parses. */
  function ParseGeldigheid(e: Option<Element>, env: Env): (r: Option<Geldigheid>)
    ensures e.None? ==> r.None?
    ensures r.Some? ==> r.value.begindatum.Some? || r.value.einddatum.Some?
    ensures e.Some? ==>
      (r.Some? <==> ParseDateTime(GetText(Find(e.value, "begindatum")), env).Some? ||
                    ParseDateTime(GetText(Find(e.value, "einddatum")), env).Some?)
  {
    match e
    case None => None
    case Some(el) =>
      var begin := ParseDateTime(GetText(Find(el, "begindatum")), env);
      var end := ParseDateTime(GetText(Find(el, "einddatum")), env);
      if begin.Some? || end.Some? then Some(Geldigheid(begin, end)) else None
  }

  /** The language named by the element's URI, Dutch when it is missing or not one of the known languages. */
  function ParseLanguage(e: Option<Element>): (r: TaalMeta)
    ensures e.None? ==> r == TaalMeta(NL)
    ensures var code := ExtractCategoryCode(GetAttr(e, "resource"));
      code.Some? && TaalFromValue(code.value).Some? ==> r == TaalMeta(TaalFromValue(code.value).value)
    ensures r != TaalMeta(NL) ==>
              var code := ExtractCategoryCode(GetAttr(e, "resource"));
              code.Some? && TaalFromValue(code.value) == Some(r.taal)
  {
    var resource := GetAttr(e, "resource");
    if e.Some? && resource.Some? && resource.value != [] then
      var code := ExtractCategoryCode(resource);
      if code.Some? && code.value != [] then
        match TaalFromValue(code.value)
        case Some(t) => TaalMeta(t)
        case None => TaalMeta(NL)
      else TaalMeta(NL)
    else TaalMeta(NL)
  }

  // ---------------------------------------------------------------------------
  // Lists built element by element
  // ---------------------------------------------------------------------------

  /** The entries `f` yields for the elements, in order; elements it yields nothing for are skipped. */
  function Collect<T>(es: seq<Element>, f: Element -> Option<T>): (r: seq<T>)
    ensures |r| <= |es|
  {
    if es == [] then []
    else Collect(es[..|es| - 1], f) + (match f(es[|es| - 1]) case Some(x) => [x] case None => [])
  }

  /** One more element extends the collected list by that element's entry. */
  lemma CollectStep<T>(es: seq<Element>, i: nat, f: Element -> Option<T>)
    requires i < |es|
    ensures Collect(es[..i + 1], f) == Collect(es[..i], f) + (match f(es[i]) case Some(x) => [x] case None => [])
  {
    assert es[..i + 1][..i] == es[..i];
  }

  /** An entry is collected exactly when some element yields it. */
  lemma {:induction false} CollectMembers<T>(es: seq<Element>, f: Element -> Option<T>, x: T)
    ensures x in Collect(es, f) <==> exists e :: e in es && f(e) == Some(x)
  {
    if es != [] {
      var init := es[..|es| - 1];
      CollectMembers(init, f, x);
      assert es == init + [es[|es| - 1]];
      if exists e :: e in es && f(e) == Some(x) {
        var e :| e in es && f(e) == Some(x);
        if e != es[|es| - 1] {
          assert e in init;
        }
      }
    }
  }

  /** When every element yields an entry, the list has one entry per element. */
  lemma {:induction false} CollectTotal<T>(es: seq<Element>, f: Element -> Option<T>)
    requires forall e :: e in es ==> f(e).Some?
    ensures |Collect(es, f)| == |es|
    ensures forall i :: 0 <= i < |es| ==> Collect(es, f)[i] == f(es[i]).value
  {
    if es != [] {
      var init := es[..|es| - 1];
      assert forall e :: e in init ==> e in es;
      CollectTotal(init, f);
    }
  }

  /** The category an `informatiecategorie` element names, if its URI ends in a known code. */
  function CategoryEntry(e: Element): Option<InformatieCategorieMeta> {
    var code := ExtractCategoryCode(GetAttr(Some(e), "resource"));
    if code.Some? && code.value != [] then
      match CategorieFromValue(code.value)
      case Some(c) => Some(InformatieCategorieMeta(c))
      case None => None
    else None
  }

  /** The document type a `documentsoort` element names, if its URI ends in a known code. */
  function SoortEntry(e: Element): Option<DocumentSoortMeta> {
    var code := ExtractCategoryCode(GetAttr(Some(e), "resource"));
    if code.Some? && code.value != [] then
      match DocumentSoortFromValue(code.value)
      case Some(d) => Some(DocumentSoortMeta(d))
      case None => None
    else None
  }

  /** The category list when none was recognised. */
  const FallbackCategories: seq<InformatieCategorieMeta> := [InformatieCategorieMeta(OVERIGE_BESLUITEN_AS)]

  /** The classification the reader builds from a `classificatiecollectie` element. */
  function ClassificatieOf(e: Option<Element>): ClassificatieCollectie {
    match e
    case None => ClassificatieCollectie(FallbackCategories, None, None, None)
    case Some(el) =>
      var infoElems := match Find(el, "informatiecategorieen")
        case Some(info) => FindAll(info, "informatiecategorie")
        case None => [];
      var cats := Collect(infoElems, CategoryEntry);
      var soorten := match Find(el, "documentsoorten")
        case Some(s) => Some(Collect(FindAll(s, "documentsoort"), SoortEntry))
        case None => None;
      var trefwoorden := match Find(el, "trefwoorden")
        case Some(t) => Some(Texts(FindAll(t, "trefwoord")))
        case None => None;
      ClassificatieCollectie(if cats == [] then FallbackCategories else cats, NoneIfEmpty(soorten), None, NoneIfEmpty(trefwoorden))
  }

  /** The known categories the `informatiecategorie` elements name, in order; unknown codes are skipped. */
  method CollectCategories(es: seq<Element>) returns (cats: seq<InformatieCategorieMeta>)
    ensures cats == Collect(es, CategoryEntry)
  {
    cats := [];
    var i := 0;
    while i < |es|
      invariant 0 <= i <= |es|
      invariant cats == Collect(es[..i], CategoryEntry)
    {
      CollectStep(es, i, CategoryEntry);
      var code := ExtractCategoryCode(GetAttr(Some(es[i]), "resource"));
      if code.Some? && code.value != [] {
        var c := CategorieFromValue(code.value);
        if c.Some? {
          cats := cats + [InformatieCategorieMeta(c.value)];
        }
      }
      i := i + 1;
    }
    assert es[..|es|] == es;
  }

  /** The known document types the `documentsoort` elements name, in order; unknown codes are skipped. */
  method CollectSoorten(es: seq<Element>) returns (soorten: seq<DocumentSoortMeta>)
    ensures soorten == Collect(es, SoortEntry)
  {
    soorten := [];
    var i := 0;
    while i < |es|
      invariant 0 <= i <= |es|
      invariant soorten == Collect(es[..i], SoortEntry)
    {
      CollectStep(es, i, SoortEntry);
      var code := ExtractCategoryCode(GetAttr(Some(es[i]), "resource"));
      if code.Some? && code.value != [] {
        var d := DocumentSoortFromValue(code.value);
        if d.Some? {
          soorten := soorten + [DocumentSoortMeta(d.value)];
        }
      }
      i := i + 1;
    }
    assert es[..|es|] == es;
  }

  /**
   * Reads the classification: the known categories in document order
   * (OVERIGE_BESLUITEN_AS when there are none), the known document types and
   * the non-blank keywords.
   */
  method ParseClassificatiecollectie(e: Option<Element>) returns (r: ClassificatieCollectie)
    ensures r == ClassificatieOf(e)
    ensures r.Valid()
  {
    if e.None? {
      return ClassificatieCollectie(FallbackCategories, None, None, None);
    }
    var el := e.value;
    var cats: seq<InformatieCategorieMeta> := [];
    var info := Find(el, "informatiecategorieen");
    if info.Some? {
      cats := CollectCategories(FindAll(info.value, "informatiecategorie"));
    }
    if cats == [] {
      cats := FallbackCategories;
    }
    var soorten: Option<seq<DocumentSoortMeta>> := None;
    var soortenElem := Find(el, "documentsoorten");
    if soortenElem.Some? {
      var found := CollectSoorten(FindAll(soortenElem.value, "documentsoort"));
      soorten := Some(found);
    }
    var trefwoorden: Option<seq<string>> := None;
    var trefElem := Find(el, "trefwoorden");
    if trefElem.Some? {
      trefwoorden := Some(Texts(FindAll(trefElem.value, "trefwoord")));
    }
    r := ClassificatieCollectie(cats, NoneIfEmpty(soorten), None, NoneIfEmpty(trefwoorden));
  }

  /**
   * A category is in the classification exactly when some category element
   * names it, or when none names a known category and it is
   * OVERIGE_BESLUITEN_AS.
   */
  lemma ClassificatieCategories(el: Element, c: InformatieCategorie)
    ensures var cats := ClassificatieOf(Some(el)).informatiecategorieen;
      var infoElems := match Find(el, "informatiecategorieen")
        case Some(info) => FindAll(info, "informatiecategorie")
        case None => [];
      InformatieCategorieMeta(c) in cats <==>
        (exists e :: e in infoElems && CategoryEntry(e) == Some(InformatieCategorieMeta(c))) ||
        (Collect(infoElems, CategoryEntry) == [] && c == OVERIGE_BESLUITEN_AS)
  {
    var infoElems := match Find(el, "informatiecategorieen")
      case Some(info) => FindAll(info, "informatiecategorie")
      case None => [];
    CollectMembers(infoElems, CategoryEntry, InformatieCategorieMeta(c));
  }

  /** A category element whose URI is a category's TOOI URI contributes that category. */
  lemma CategoryEntryOfTooiUri(e: Element, c: InformatieCategorie)
    requires "resource" in e.attrs && e.attrs["resource"] == c.TooiUri()
    ensures CategoryEntry(e) == Some(InformatieCategorieMeta(c))
  {
    CategoryFromTooiUri(c);
    CategoryValueIsCode(c);
    ExtractFromTooiUri(c.Value());
  }

  /** The type of a `documenthandeling` element: the known type its URI names, REGISTRATIE otherwise. */
  function HandelingSoort(h: Element): SoortHandeling {
    match Find(h, "soortHandeling")
    case None => REGISTRATIE
    case Some(s) =>
      var code := ExtractCategoryCode(GetAttr(Some(s), "resource"));
      if code.Some? && code.value != [] then SoortHandelingFromValue(code.value).GetOr(REGISTRATIE)
      else REGISTRATIE
  }

  /**
   * The handling a `documenthandeling` element describes; its time falls back
   * to the current time. It fails when its organisation does.
   */
  function HandelingEntry(h: Element, env: Env): Result<DocumentHandeling, ValidationError> {
    match ParseOrganisation(Find(h, "wasAssociatedWith"), env)
    case Failure(err) => Failure(err)
    case Success(organisatie) =>
      Success(DocumentHandeling(
        SoortHandelingMeta(HandelingSoort(h)),
        ParseDateTime(GetText(Find(h, "atTime")), env).GetOr(env.now),
        Some(organisatie)))
  }

  /** The handling recorded when the document lists none: a registration by the publisher, now. */
  function DefaultHandeling(publisher: Organisatie, env: Env): DocumentHandeling {
    DocumentHandeling(SoortHandelingMeta(REGISTRATIE), env.now, Some(publisher))
  }

  function HandelingElements(e: Option<Element>): seq<Element> {
    if e.None? then [] else FindAll(e.value, "documenthandeling")
  }

  /**
   * Reads one `documenthandeling` element: its type (REGISTRATIE unless the
   * URI names a known type), its time (now when missing or unreadable) and
   * its organisation.
   */
  method ReadHandeling(h: Element, env: Env) returns (d: Result<DocumentHandeling, ValidationError>)
    ensures d == HandelingEntry(h, env)
  {
    var soortElem := Find(h, "soortHandeling");
    var atTime := GetText(Find(h, "atTime"));
    var associatedWith := ParseOrganisation(Find(h, "wasAssociatedWith"), env);
    if associatedWith.Failure? {
      return Failure(associatedWith.error);
    }
    var soort := REGISTRATIE;
    if soortElem.Some? {
      var code := ExtractCategoryCode(GetAttr(soortElem, "resource"));
      if code.Some? && code.value != [] {
        var found := SoortHandelingFromValue(code.value);
        if found.Some? {
          soort := found.value;
        }
      }
    }
    var time := ParseDateTime(atTime, env).GetOr(env.now);
    d := Success(DocumentHandeling(SoortHandelingMeta(soort), time, Some(associatedWith.value)));
  }

  /** Every handling element yields a handling: none names an organisation URI that is refused. */
  predicate HandelingenAccepted(es: seq<Element>, env: Env) {
    forall i :: 0 <= i < |es| ==> HandelingEntry(es[i], env).Success?
  }

  /**
   * Reads the handlings, one per `documenthandeling` element, in order; when
   * there are none, a single registration by the publisher. The first element
   * whose organisation is refused stops the reading.
   */
  method ParseDocumenthandelingen(e: Option<Element>, publisher: Organisatie, env: Env)
    returns (r: Result<seq<DocumentHandeling>, ValidationError>)
    ensures r.Success? <==> HandelingenAccepted(HandelingElements(e), env)
    ensures r.Failure? ==> r.error == ValidationError("resource")
    ensures r.Success? ==> |r.value| >= 1
    ensures r.Success? && HandelingElements(e) != [] ==>
              |r.value| == |HandelingElements(e)| &&
              forall i :: 0 <= i < |r.value| ==> Success(r.value[i]) == HandelingEntry(HandelingElements(e)[i], env)
    ensures r.Success? && HandelingElements(e) == [] ==> r.value == [DefaultHandeling(publisher, env)]
  {
    var hs := [];
    var elems := HandelingElements(e);
    var i := 0;
    while i < |elems|
      invariant 0 <= i <= |elems|
      invariant |hs| == i
      invariant forall j :: 0 <= j < i ==> Success(hs[j]) == HandelingEntry(elems[j], env)
    {
      var handeling := ReadHandeling(elems[i], env);
      if handeling.Failure? {
        return Failure(handeling.error);
      }
      hs := hs + [handeling.value];
      i := i + 1;
    }
    if hs == [] {
      hs := [DefaultHandeling(publisher, env)];
    }
    return Success(hs);
  }

  /**
   * A handling is read exactly when its organisation's URI is not refused, and
   * every handling the reader records names the organisation it is associated with.
   */
  lemma HandelingenAssociated(h: Element, publisher: Organisatie, env: Env)
    ensures HandelingEntry(h, env).Success? <==> !ResourceRejected(Find(h, "wasAssociatedWith"), env)
    ensures HandelingEntry(h, env).Success? ==> HandelingEntry(h, env).value.wasAssociatedWith.Some?
    ensures DefaultHandeling(publisher, env).wasAssociatedWith == Some(publisher)
    ensures HandelingEntry(h, env).Success? && Find(h, "soortHandeling").None? ==>
              HandelingEntry(h, env).value.soortHandeling.handeling == REGISTRATIE
  {
  }

  /** The relation a `documentrelatie` element describes, if it has both a role and a relation child. */
  function RelatieEntry(el: Element): Option<DocumentRelatieItem> {
    var role := Find(el, "role");
    var relation := Find(el, "relation");
    if role.None? || relation.None? then None
    else
      var code := ExtractCategoryCode(GetAttr(role, "resource"));
      var relatie := if code.Some? && code.value != [] then DocumentRelatieFromValue(code.value).GetOr(HEEFT_BIJLAGE)
                     else HEEFT_BIJLAGE;
      Some(DocumentRelatieItem(
        DocumentRelatieMeta(relatie),
        DocumentVerwijzing(GetAttr(relation, "resource"), OrDefault(GetText(relation), UnknownDocument))))
  }

  function RelatiesOf(e: Option<Element>): Option<seq<DocumentRelatieItem>> {
    match e
    case None => None
    case Some(el) => NoneIfEmpty(Some(Collect(FindAll(el, "documentrelatie"), RelatieEntry)))
  }

  /**
   * Reads the relations: elements without a role or without a relation child
   * are skipped; an unknown role becomes HEEFT_BIJLAGE and a missing title
   * "Onbekend document"; no relations at all is recorded as absent.
   */
  method ParseDocumentrelaties(e: Option<Element>) returns (r: Option<seq<DocumentRelatieItem>>)
    ensures r == RelatiesOf(e)
    ensures r.Some? ==> r.value != []
  {
    if e.None? {
      return None;
    }
    var elems := FindAll(e.value, "documentrelatie");
    var relaties: seq<DocumentRelatieItem> := [];
    var i := 0;
    while i < |elems|
      invariant 0 <= i <= |elems|
      invariant relaties == Collect(elems[..i], RelatieEntry)
    {
      CollectStep(elems, i, RelatieEntry);
      var roleElem := Find(elems[i], "role");
      var relationElem := Find(elems[i], "relation");
      if roleElem.Some? && relationElem.Some? {
        var code := ExtractCategoryCode(GetAttr(roleElem, "resource"));
        var relatie := HEEFT_BIJLAGE;
        if code.Some? && code.value != [] {
          var found := DocumentRelatieFromValue(code.value);
          if found.Some? {
            relatie := found.value;
          }
        }
        var title := OrDefault(GetText(relationElem), UnknownDocument);
        var resource := GetAttr(relationElem, "resource");
        relaties := relaties + [DocumentRelatieItem(DocumentRelatieMeta(relatie), DocumentVerwijzing(resource, title))];
      }
      i := i + 1;
    }
    assert elems[..|elems|] == elems;
    r := if relaties != [] then Some(relaties) else None;
  }

  /**
   * A relation element yields an entry exactly when it has both children; the
   * entry's title is never empty.
   */
  lemma RelatieEntryKept(el: Element)
    ensures RelatieEntry(el).Some? <==> Find(el, "role").Some? && Find(el, "relation").Some?
    ensures RelatieEntry(el).Some? ==> RelatieEntry(el).value.relation.labelText != []
  {
  }

  // ---------------------------------------------------------------------------
  // The whole record
  // ---------------------------------------------------------------------------

  /** The texts of the `local` children of a list element; absent when the list element is. */
  function TextsUnder(e: Option<Element>, local: string): Option<seq<string>> {
    if e.None? then None else Some(Texts(FindAll(e.value, local)))
  }

  /**
   * Every organisation the record is built from has a URI `HttpUrl` accepts:
   * the publisher, the responsible organisation, the author and the
   * organisation of every handling.
   */
  predicate RecordAccepted(diwoo: Element, env: Env) {
    !ResourceRejected(Find(diwoo, "publisher"), env) &&
    !ResourceRejected(Find(diwoo, "verantwoordelijke"), env) &&
    !ResourceRejected(Find(diwoo, "opsteller"), env) &&
    HandelingenAccepted(HandelingElements(Find(diwoo, "documenthandelingen")), env)
  }

  /**
   * `m` is the record read from a `diwoo:DiWoo` element, field by field:
   * identifiers and descriptions as their non-empty texts, the organisations,
   * titles, classification, dates, language, relations and handlings from
   * their readers, and none of the fields the reader does not look at.
   */
  predicate ReadsAs(diwoo: Element, env: Env, m: DiWooMetadata) {
    var hes := HandelingElements(Find(diwoo, "documenthandelingen"));
    m.identifiers == TextsUnder(Find(diwoo, "identifiers"), "identifier") &&
    Success(m.publisher) == ParseOrganisation(Find(diwoo, "publisher"), env) &&
    m.verantwoordelijke.Some? &&
    Success(m.verantwoordelijke.value) == ParseOrganisation(Find(diwoo, "verantwoordelijke"), env) &&
    m.opsteller.Some? &&
    Success(m.opsteller.value) == ParseOrganisation(Find(diwoo, "opsteller"), env) &&
    m.naamOpsteller == GetText(Find(diwoo, "naamOpsteller")) &&
    m.titelcollectie == ParseTitelcollectie(Find(diwoo, "titelcollectie")) &&
    m.omschrijvingen == TextsUnder(Find(diwoo, "omschrijvingen"), "omschrijving") &&
    m.classificatiecollectie == ClassificatieOf(Find(diwoo, "classificatiecollectie")) &&
    m.creatiedatum == ParseDate(GetText(Find(diwoo, "creatiedatum")), env) &&
    m.geldigheid == ParseGeldigheid(Find(diwoo, "geldigheid"), env) &&
    m.language == Some(ParseLanguage(Find(diwoo, "language"))) &&
    m.aggregatiekenmerk == GetText(Find(diwoo, "aggregatiekenmerk")) &&
    m.documentrelaties == RelatiesOf(Find(diwoo, "documentrelaties")) &&
    (hes != [] ==>
       |m.documenthandelingen| == |hes| &&
       forall i :: 0 <= i < |hes| ==> Success(m.documenthandelingen[i]) == HandelingEntry(hes[i], env)) &&
    (hes == [] ==> m.documenthandelingen == [DefaultHandeling(m.publisher, env)]) &&
    m.medeverantwoordelijken.None? && m.format.None? && m.isPartOf.None? &&
    m.hasParts.None? && m.redenVerwijderingVervanging.None?
  }

  /**
   * The record the reader builds from a `diwoo:DiWoo` element, field by field;
   * it fails when an organisation's URI is refused.
   */
  method ReadDiWoo(diwoo: Element, env: Env) returns (r: Result<DiWooMetadata, ValidationError>)
    ensures r.Success? <==> RecordAccepted(diwoo, env)
    ensures r.Failure? ==> r.error == ValidationError("resource")
    ensures r.Success? ==> r.value.Valid() && ReadsAs(diwoo, env, r.value)
  {
    var identifiers: Option<seq<string>> := None;
    var identifiersElem := Find(diwoo, "identifiers");
    if identifiersElem.Some? {
      identifiers := Some(Texts(FindAll(identifiersElem.value, "identifier")));
    }
    var publisher := ParseOrganisation(Find(diwoo, "publisher"), env);
    if publisher.Failure? {
      return Failure(publisher.error);
    }
    var verantwoordelijke := ParseOrganisation(Find(diwoo, "verantwoordelijke"), env);
    if verantwoordelijke.Failure? {
      return Failure(verantwoordelijke.error);
    }
    var opsteller := ParseOrganisation(Find(diwoo, "opsteller"), env);
    if opsteller.Failure? {
      return Failure(opsteller.error);
    }
    var naamOpsteller := GetText(Find(diwoo, "naamOpsteller"));
    var titelcollectie := ParseTitelcollectie(Find(diwoo, "titelcollectie"));
    var omschrijvingen: Option<seq<string>> := None;
    var omschrijvingenElem := Find(diwoo, "omschrijvingen");
    if omschrijvingenElem.Some? {
      omschrijvingen := Some(Texts(FindAll(omschrijvingenElem.value, "omschrijving")));
    }
    var classificatie := ParseClassificatiecollectie(Find(diwoo, "classificatiecollectie"));
    var creatiedatum := ParseDate(GetText(Find(diwoo, "creatiedatum")), env);
    var geldigheid := ParseGeldigheid(Find(diwoo, "geldigheid"), env);
    var language := ParseLanguage(Find(diwoo, "language"));
    var aggregatiekenmerk := GetText(Find(diwoo, "aggregatiekenmerk"));
    var handelingen := ParseDocumenthandelingen(Find(diwoo, "documenthandelingen"), publisher.value, env);
    if handelingen.Failure? {
      return Failure(handelingen.error);
    }
    var relaties := ParseDocumentrelaties(Find(diwoo, "documentrelaties"));
    var m := DiWooMetadata(
      identifiers, publisher.value, Some(verantwoordelijke.value), None, Some(opsteller.value), naamOpsteller,
      titelcollectie, omschrijvingen, classificatie, creatiedatum, geldigheid, Some(language),
      None, aggregatiekenmerk, None, None, handelingen.value, relaties, None);
    return Success(m);
  }

  /**
   * Parses a model's XML answer into a DIWOO record. It fails with a parse error
   * when the cleaned text does not tokenise or its root has no `diwoo:DiWoo`
   * child, with a validation error when validation was asked for and a loaded
   * schema rejects the tree, and with the field's error when an organisation's
   * URI is refused. A record it returns is always valid.
   */
  method ParseXmlToDiwoo(
    xml: string, validate: bool,
    tokenise: string -> Option<Element>, schema: Option<Element -> bool>, env: Env)
    returns (r: Result<DiWooMetadata, XmlError>)
    ensures var root := tokenise(CleanXmlResponse(xml));
      r.Success? <==>
        root.Some? && !(validate && schema.Some? && !schema.value(root.value)) &&
        Find(root.value, "DiWoo").Some? && RecordAccepted(Find(root.value, "DiWoo").value, env)
    ensures var root := tokenise(CleanXmlResponse(xml));
      root.Some? && !(validate && schema.Some? && !schema.value(root.value)) && Find(root.value, "DiWoo").Some? &&
      !RecordAccepted(Find(root.value, "DiWoo").value, env) ==>
        r == Failure(FieldRejected(ValidationError("resource")))
    ensures var root := tokenise(CleanXmlResponse(xml));
      root.None? ==> r == Failure(InvalidXml)
    ensures var root := tokenise(CleanXmlResponse(xml));
      root.Some? && validate && schema.Some? && !schema.value(root.value) ==> r == Failure(XsdValidationFailed)
    ensures var root := tokenise(CleanXmlResponse(xml));
      root.Some? && !(validate && schema.Some? && !schema.value(root.value)) && Find(root.value, "DiWoo").None? ==>
        r == Failure(MissingDiWoo)
    ensures var root := tokenise(CleanXmlResponse(xml));
      r.Success? ==> root.Some? && Find(root.value, "DiWoo").Some? && ReadsAs(Find(root.value, "DiWoo").value, env, r.value)
    ensures r.Success? ==> r.value.Valid()
  {
    var cleaned := CleanXmlResponse(xml);
    var root := tokenise(cleaned);
    if root.None? {
      return Failure(InvalidXml);
    }
    if validate && schema.Some? && !schema.value(root.value) {
      return Failure(XsdValidationFailed);
    }
    var diwoo := Find(root.value, "DiWoo");
    if diwoo.None? {
      return Failure(MissingDiWoo);
    }
    var m := ReadDiWoo(diwoo.value, env);
    if m.Failure? {
      return Failure(FieldRejected(m.error));
    }
    return Success(m.value);
  }
}
